=== FILE: README.md ===
# proxmox-swarm in Dafny

proxmox-swarm deploys Docker-Compose-style stacks as LXC containers on
Proxmox. It does this by turning each step into one call of the `proxmox`
executable: network creation, CephFS subvolume creation, container
deployment, overlay-network attachment and volume mounts. This project
models the core of that program as pure Dafny functions and proves what
the code promises:

- **Argument-vector builders.** These are the backend invoker
  (`ProxmoxClient.run`), the CephFS storage service, the overlay-network
  service and the older stand-alone `attachToSDN`. Each builder is paired
  with a reader (`NetworkService.Parse`) or a layout lemma. Together they
  show that every value lands where it belongs, that a flag appears
  exactly when its condition holds, and that the allow-list option filter
  keeps exactly the allowed entries, in order.
- **The compose interpreters.** These are the TypeScript `parseCompose`
  with `parseEnvironment`, the Python `parse_compose` with
  `_parse_environment`, and the Python stack translator (`load_stack`,
  `Service.to_lxc_params`). They work over an already decoded document
  (`Document.Value`). JavaScript and Python records are modelled as
  insertion-ordered association lists (`Assoc`), and the parts of
  `String`, `parseInt`, `str`, `repr` and `int()` the code relies on are
  written out (`JsRuntime`, `PyRuntime`).
- **The deployment pipeline.** `Deployment.Plan` is the reference: the
  calls a deployment makes when every call succeeds. `Deployment.RunAll`
  issues calls until the first non-zero status. The daemon's staged
  `/deploy` handler (`Daemon.DeployPipeline`) and the command-line
  `deploy` action (`Cli.DeployAction`, a method with loops) are both
  proved equal to `RunAll(Plan(...))`. The project also models route
  dispatch, the mapping of a thrown error to a 500 reply, and the other
  routes.
- **The daemon client.** This covers the retry decision of `request`, the
  whole run of attempts it makes, and the request bodies of `deploy`,
  `start` and `stop`.

The backend is a parameter `Argv -> int`: the status the `proxmox`
executable returns for a full argument vector. `ProxmoxClient.BackendOf`
connects it to the spawn result and to the child's environment. Process
launch, HTTP transport, JSON and YAML decoding, clocks and
`ComposeService.parse` are parameters or are left out, as listed below.

Where the code and its tests disagree, the model follows the code:

- `src/adapters/proxmoxClient.ts` launches `proxmox` with `PROXMOX_*`
  variables.
- `tests/proxmoxClient.test.ts` expects `python3 lws.py` with `LWS_*`
  variables.
- `proxmox_swarm/stack.py` uses `config.get("bridge", "vmbr0")`. An
  explicit `bridge: null` therefore yields `bridge=None`
  (`Stack.NullBridgeIsWrittenOut`) rather than the default.

## Model

| member | source | states |
|---|---|---|
| ProxmoxClient.Call | src/adapters/proxmoxClient.ts:20-28 | a call without options issues `[cmd] ++ args` and returns the backend's status for exactly that vector |
| ProxmoxClient.PortFlagsLayout | src/adapters/proxmoxClient.ts:29-33 | port `i` becomes `-p` at position `2i` and the port at `2i+1` |
| ProxmoxClient.EnvFlagsLayout | src/adapters/proxmoxClient.ts:34-38 | environment entry `i` becomes `-e` at `2i` and `KEY=VALUE` at `2i+1` |
| ProxmoxClient.RunArgvLayout | src/adapters/proxmoxClient.ts:28-38 | the final vector starts with `[cmd] ++ args`, then every port flag in order, then every environment flag in order, and has exactly that length |
| ProxmoxClient.RunArgvWithoutOptions | src/adapters/proxmoxClient.ts:20 | with the default empty options the vector is `[cmd] ++ args` |
| ProxmoxClient.ExitStatus | src/adapters/proxmoxClient.ts:45-50 | the status is 0 exactly when the child reported 0, or reported nothing and had no launch error; a reported non-zero status is passed through; a launch error without a status gives 1 |
| ProxmoxClient.SignalledChildReadsAsSuccess | src/adapters/proxmoxClient.ts:45-50 | a child with no status and no launch error reads as 0; a launch error without a status reads as 1, whatever its message |
| ProxmoxClient.ChildEnv | src/adapters/proxmoxClient.ts:21-26 | the child inherits every other variable unchanged; the three credential variables hold the request's credentials and are absent when a credential is not given |
| ProxmoxClient.Sdn | src/adapters/proxmoxClient.ts:53-55 | `sdn(args)` is `run('sdn', args)` |
| ProxmoxClient.CallIsRun | src/adapters/proxmoxClient.ts:20-51 | the backend the services call is `run` with no options, through the spawn result and the child's environment |
| StorageService.Kept | src/services/storageService.ts:31-37 | an entry is kept exactly when it is in the options and its key is allowed |
| StorageService.OptionArgs | src/services/storageService.ts:25-39 | absent options give no flags; present ones give the loop's flags |
| StorageService.FlagsLayout | src/services/storageService.ts:31-37 | the flags are exactly one `--key, value` pair per kept entry, in the entries' order |
| StorageService.FlagsAppend | src/services/storageService.ts:31-37 | the flags of a concatenation are the concatenated flags |
| StorageService.DisallowedEntryIgnored | src/services/storageService.ts:32-36 | inserting an entry whose key is not allowed anywhere changes nothing |
| StorageService.FlagsComeFromAllowedEntries | src/services/storageService.ts:32-33 | every flag pair names an allowed key that the options carry with that value |
| StorageService.FlagsOfOne | src/services/storageService.ts:32-36 | one entry gives `--k, v` exactly when `k` is allowed |
| StorageService.ModeAndAccessOptions | src/services/storageService.ts:20-21 | `mode` passes the subvolume filter but not the mount filter; `rw` and `ro` pass the mount filter but not the subvolume filter |
| StorageService.CreateSubvolumeArgs | src/services/storageService.ts:46-47 | the vector is `subvolume create <name>` followed by exactly the subvolume option flags |
| StorageService.MountArgs | src/services/storageService.ts:59-63 | the vector is `mount <vmid> <target> <subvolume>`, then `--mode <mode>` exactly when the mode is a non-empty string, then exactly the mount option flags |
| StorageService.CreateSubvolume | src/services/storageService.ts:41-49 | one `cephfs` call with that vector, and its status is the result |
| StorageService.Mount | src/services/storageService.ts:51-65 | one `cephfs` call with that vector, and its status is the result |
| StorageService.RecordedCalls | tests/storageService.test.ts:5-25 | the two recorded vectors, with `invalid` and `bad` dropped |
| Cli.BuildOptionArgs | src/cli.ts:11-25 | the command-line copy of the option loop computes the same flags as the storage service's filter |
| NetworkService.AttachArgs | src/services/networkService.ts:38-44 | the vector starts `attach <vmid> <network>` |
| NetworkService.CreateNetworkArgs | src/services/networkService.ts:58-64 | the vector starts `create <name>` |
| NetworkService.ConfigureInterfaceArgs | src/services/networkService.ts:79-88 | the vector starts `iface <iface>` |
| NetworkService.ParseAttach | src/services/networkService.ts:38-44 | reading the attach vector back gives the vmid, the network, the tags (absent or empty read as none, so `--tags` appears only for a non-empty list) and the VLAN (zero included) |
| NetworkService.ParseDetach | src/services/networkService.ts:48-50 | the detach vector reads back as the vmid and network |
| NetworkService.ParseCreate | src/services/networkService.ts:58-64 | the create vector reads back as the name, the zone and the VLAN, each flag present exactly when its value is defined |
| NetworkService.ParseDelete | src/services/networkService.ts:68-70 | the delete vector reads back as the name |
| NetworkService.ParseIface | src/services/networkService.ts:79-88 | the interface vector reads back as address, MTU and access lists, in that flag order |
| NetworkService.AttachToSdn | src/services/networkService.ts:31-46 | one `sdn` call with the attach vector; its status is the result |
| NetworkService.DetachFromSdn | src/services/networkService.ts:48-50 | one `sdn detach <vmid> <network>` call; its status is the result |
| NetworkService.CreateNetwork | src/services/networkService.ts:52-66 | one `sdn` call with the create vector; its status is the result |
| NetworkService.DeleteNetwork | src/services/networkService.ts:68-70 | one `sdn delete <name>` call; its status is the result |
| NetworkService.ConfigureInterface | src/services/networkService.ts:72-90 | one `sdn` call with the interface vector; its status is the result |
| NetworkService.RecordedCalls | tests/networkService.test.ts:5-20 | the two recorded attach vectors, and an empty tag list with VLAN 0 gives `--vlan 0` and no `--tags` |
| LegacySdn.AttachToSdn | src/sdn.ts:3-18 | the stand-alone function, which pushes onto `attach <vmid> <network>`, issues exactly the network service's call |
| ComposeParser.Strings | src/composeParser.ts:38 | each element becomes its `String(...)`, in order |
| ComposeParser.StringList | src/composeParser.ts:43-48 | an array gives its elements' strings; anything else gives the empty list |
| ComposeParser.Replicas | src/composeParser.ts:40-42 | an absent or null value gives 1, and so does one whose `parseInt` is `NaN` |
| ComposeParser.ReplicasKeepIntegers | src/composeParser.ts:41 | every integer, negatives included, is kept as the count, whether written as a number or as a decimal string |
| ComposeParser.Vlan | src/composeParser.ts:49-61 | absent or null gives no VLAN, exactly; otherwise the value is accepted exactly when `parseInt(String(v), 10)` is a number in 0..4094, and then it is that number, so `NaN` and out-of-range values are rejected; a rejection names the service and the raw value |
| ComposeParser.VlanRange | src/composeParser.ts:51-60 | a VLAN written as a number or as decimal text is accepted, as that number, exactly when it lies in 0..4094 |
| ComposeParser.VlanRejectsWord | src/composeParser.ts:52-58 | text that `parseInt` reads as `NaN` rejects the service |
| ComposeParser.RejectsVlan5000 | src/composeParser.ts:53-58 | a service with VLAN 5000 fails the whole parse with the invalid-VLAN error |
| ComposeParser.SplitEntry | src/composeParser.ts:86-92 | the key has no `=`, and key, `=` and value rebuild the item |
| ComposeParser.SplitEntryOfPair | src/composeParser.ts:86-92 | splitting `key=value` at the first `=` gives the key and value back, even when the value holds `=` |
| ComposeParser.ListPairs | src/composeParser.ts:81-94 | every assignment comes from a string item `key=value` of the list, and each such item gives exactly one assignment while any other item gives none |
| ComposeParser.ListPairsAppend | src/composeParser.ts:81-94 | the assignments of a concatenated list are the concatenated assignments |
| ComposeParser.ListPairsKeep | src/composeParser.ts:81-94 | a string item `key=value` contributes exactly the assignment of value to key, at its place in the list |
| ComposeParser.ListPairsNoKey | src/composeParser.ts:81-94 | a key no string item names is assigned nowhere |
| ComposeParser.MalformedItemDropped | src/composeParser.ts:82-90 | a non-string item, or a string without `=`, contributes nothing |
| ComposeParser.ObjectPairs | src/composeParser.ts:96-102 | a mapping assigns exactly its own keys, in order; a null value becomes the process environment's value (empty when unset), any other value its `String(...)` |
| ComposeParser.ParseEnvironment | src/composeParser.ts:77-106 | any shape other than an array or an object gives the empty record; the result never repeats a key; in an array or an object every key holds the last value assigned to it, and a key never assigned is absent |
| ComposeParser.ListEnvironmentLastWins | src/composeParser.ts:80-94 | in a list environment a key holds the value of its last `KEY=VALUE` item, and a key no item names is absent |
| ComposeParser.ListEnvironmentLookup | src/composeParser.ts:80-94 | a `KEY=VALUE` item that no later item for the same key follows sets the key to that value, whatever comes before it |
| ComposeParser.ObjectEnvironmentLookup | src/composeParser.ts:95-102 | a mapping environment has exactly the mapping's keys; a key whose last value is null reads the process environment (empty when unset), and any other last value is stringified |
| ComposeParser.ParseService | src/composeParser.ts:37-71 | a null service fails on its first property read; any other service is rejected exactly when its VLAN is, and an accepted service's record is every field read off that service, with the checked VLAN |
| ComposeParser.Fields | src/composeParser.ts:37-71 | the image is the service's `image`; ports and constraints are the string lists of `ports` and `deploy.placement.constraints`; the environment is the parsed `environment`; replicas is the count read from `deploy.replicas`; tags are present exactly when `tags` is an array, and then tag i is `String` of element i; the VLAN is the checked one |
| ComposeParser.ParseAll | src/composeParser.ts:36-72 | the parse succeeds exactly when every service does; on success there is one record per service entry, under the same keys, record i being service i's parse; on failure the error is that of the first service that fails |
| ComposeParser.ShiftFirstFailing | src/composeParser.ts:36-72 | behind a service that parses, the first failure among the later services is the first failure overall |
| ComposeParser.ParsedLookup | src/composeParser.ts:63-74 | recording the parsed services gives the services' names as keys, and with distinct names each name holds its own service's record |
| ComposeParser.ParseCompose | src/composeParser.ts:29-74 | "missing services" is raised exactly for a document that is not an object or has no `services` key; otherwise a `services` value `Object.entries` rejects raises its TypeError, and the parse succeeds exactly when every service does, with the services' names as keys and, for distinct names, each service's own record; it fails with the first failing service's error; a result never names a service twice |
| ComposeParser.ResultMatchesServices | src/composeParser.ts:33-74 | the result's keys are the services' keys, and with distinct names each record is that service's own parse |
| PyComposeParser.Get | compose_parser.py:66-73 | `.get` succeeds exactly on a dict and otherwise raises "object has no attribute 'get'" |
| PyComposeParser.DictPairs | compose_parser.py:28-36 | a dict environment assigns exactly its own keys, in order; `None` becomes `os.environ.get(key, "")`, any other value its `str(...)` |
| PyComposeParser.DictEnvironmentLookup | compose_parser.py:28-36 | a dict environment has exactly the dict's keys; a key whose last value is `None` reads `os.environ` (empty when unset), and any other last value goes through `str` |
| PyComposeParser.ParseEnvironment | compose_parser.py:26-48 | anything but a dict or a list gives `{}`; the result never repeats a key; for a dict or a list every key holds the last value assigned to it, and a key never assigned is absent |
| PyComposeParser.ListOrEmpty | compose_parser.py:77-80 | a list is kept as it is; anything else gives `[]` |
| PyComposeParser.Replicas | compose_parser.py:79 | `None` gives 1, a number is kept, a bool is 0 or 1; text is read as `int()` reads it or raises ValueError; a list or a dict raises TypeError |
| PyComposeParser.ReplicasTextDiffers | compose_parser.py:79 | on the text `abc` Python raises ValueError, where the TypeScript reader falls back to 1 |
| PyComposeParser.ReplicasMappingDiffers | compose_parser.py:79 | on any mapping Python raises TypeError, where the TypeScript reader falls back to 1 |
| PyComposeParser.ParseSpec | compose_parser.py:65-81 | a spec, `deploy` or `placement` that is not a dict raises on `.get`, and a replica count `int()` rejects raises its error; otherwise the record holds the spec's image (or `""`), its ports and constraints when they are lists, its parsed environment and `int()` of its replicas |
| PyComposeParser.Collect | compose_parser.py:65-81 | the loop succeeds exactly when every spec parses; then names no service uses keep their earlier value and, for distinct names, each name holds its spec's record; otherwise it raises the first failing spec's error |
| PyComposeParser.ShiftFirstFailingSpec | compose_parser.py:65-81 | behind a spec that parses, the first failure among the later specs is the first failure overall |
| PyComposeParser.CollectStep | compose_parser.py:65-81 | one loop step keeps unused names and stores each record under its own distinct name |
| PyComposeParser.CollectKeys | compose_parser.py:65-81 | after the loop the keys are exactly the earlier keys and the services' names |
| PyComposeParser.ParseCompose | compose_parser.py:56-83 | an empty document, or a mapping without `services`, gives no services; a non-empty document that is not a mapping raises on `.get`; a `services` value that is not a mapping raises on `.items()`; otherwise the result is the loop over the services |
| PyComposeParser.NullServicesRaises | compose_parser.py:62-65 | a null `services` raises on `.items()` |
| PyComposeParser.ListDocumentRaises | compose_parser.py:56-62 | a document that is a non-empty list raises on `.get` |
| PyComposeParser.EmptySpecDefaults | compose_parser.py:66-81 | an empty spec takes every default: image `""`, no ports, no environment, one replica, no constraints |
| PyComposeParser.ResultNamesServices | compose_parser.py:62-83 | on success `services` was a mapping and the result names exactly its services, whatever other keys the document has |
| PyComposeParser.ListEnvironmentAgrees | compose_parser.py:37-45 | the Python and TypeScript readers give the same record for every list environment; both are the one list reading, since `split("=", 1)` is the TypeScript split at the first `=` |
| PyComposeParser.ListEnvironmentLookup | compose_parser.py:37-45 | a `KEY=VALUE` item that no later item for the same key follows sets the key to that value |
| PyComposeParser.DictEnvironmentAgrees | compose_parser.py:28-36 | the two readers agree on a mapping whose values are strings, integers or null |
| PyComposeParser.BooleanEnvironmentDiffers | compose_parser.py:35 | a boolean value is where they differ: Python writes `True` and TypeScript writes `true` |
| PyComposeParser.ReplicasAgreeOnIntegers | compose_parser.py:79 | both readers keep an integer replica count, given as a number or as a decimal string |
| Stack.CopyIfPresent | proxmox_swarm/stack.py:46-53 | an optional key is copied, with its value, exactly when the configuration has it |
| Stack.ToLxcParams | proxmox_swarm/stack.py:17-55 | the translation succeeds exactly when the configuration is a dict, and otherwise raises on `.get` |
| Stack.ParamKeys | proxmox_swarm/stack.py:25-53 | the parameters are the six fixed keys, in order, then whichever of `rootfs`, `password` and `features` are present, in that order, and nothing else |
| Stack.ParamValues | proxmox_swarm/stack.py:25-43 | hostname is the name; `vmid` and `image` are copied (`None` when absent); memory defaults to 512 and cores to 1; an explicit `net0` is kept verbatim, and otherwise the default interface line is used |
| Stack.NullBridgeIsWrittenOut | proxmox_swarm/stack.py:38-40 | an explicit null bridge is written as `bridge=None` |
| Stack.RecordedNet | tests/test_stack.py:15-27 | bridge `vmbr1` and the address both land in the interface line |
| Stack.LoadStack | proxmox_swarm/stack.py:66-70 | a successful load came from a dict or from a falsy document |
| Stack.LoadStackServices | proxmox_swarm/stack.py:67-70 | for any mapping document: one service per `services` entry, with its name and configuration, in order; none when `services` is missing or the file is empty; `.items()` raises when `services` is not a mapping |
| Deployment.RunAll | src/core/daemon.ts:58-120 | no more calls are issued than planned |
| Deployment.RunAllSpec | src/core/daemon.ts:58-123 | the trace is a prefix of the plan with the backend's statuses; every call but the last returned 0; the status is 0 exactly when every call was made and returned 0, and otherwise it is the last call's status |
| Deployment.RunAllAppend | src/core/daemon.ts:58-120 | issuing `a ++ b` is issuing `a`, and only if that ended with 0, then `b` |
| Deployment.VolumeEntryPlan | src/core/daemon.ts:67-77 | an external volume is never created; any other volume is created once, at its place in the table |
| Deployment.MountEntryPlan | src/core/daemon.ts:100-119 | a mount of an undefined volume is skipped; any other mount is one `mount` call with that volume's subvolume and options and the mount's target and mode |
| Deployment.CreatesPrecedeDeploys | src/core/daemon.ts:58-120 | no call after a deployment creates a subvolume, and every call before the first deployment is the network creation or a subvolume creation |
| Deployment.DeployFollowsReadyStorage | src/core/daemon.ts:58-80 | a deployment is issued only after the network creation (if any) and every subvolume creation were issued and returned 0 |
| Deployment.FailedNetworkCreationAborts | src/core/daemon.ts:58-65 | when the network is to be created it is the first call, and a non-zero status from it ends the deployment with that status and nothing else issued |
| Deployment.EveryServiceDeployedInOrder | src/core/daemon.ts:79-85 | the plan deploys each service once, in enumeration order, with its name and image |
| Daemon.Endpoint | src/core/daemon.ts:27-218 | every route but not-found has an endpoint |
| Daemon.Dispatch | src/core/daemon.ts:27-218 | a dispatched route's endpoint is exactly the request's method and path |
| Daemon.DispatchEndpoint | src/core/daemon.ts:27-218 | each route is reached by its own endpoint, so no route shadows another |
| Daemon.OtherMethodsNotFound | src/core/daemon.ts:217-218 | a method other than GET and POST always gets 404 |
| Daemon.AuthOrEmpty | src/core/daemon.ts:59 | missing credentials become the empty credentials |
| Daemon.CreateVolumesRunsPlan | src/core/daemon.ts:67-77 | the volume loop with its early return issues exactly `RunAll` of the volume plan |
| Daemon.MountVolumesRunsPlan | src/core/daemon.ts:100-119 | the mount loop issues exactly `RunAll` of the mount plan |
| Daemon.DeployServiceRunsPlan | src/core/daemon.ts:80-119 | one service's deploy, attach and mounts issue exactly `RunAll` of its plan |
| Daemon.DeployServicesRunsPlan | src/core/daemon.ts:79-120 | the service loop issues exactly `RunAll` of the services' plan |
| Daemon.DeployPipelineRunsPlan | src/core/daemon.ts:58-123 | the staged `/deploy` handler issues exactly `RunAll(Plan)` and reports its status |
| Daemon.Handle | src/core/daemon.ts:27-218 | the reply is 404 exactly for an unknown route; 404, the status check and every 500 make no call; the only codes are 200, 404 and 500 |
| Daemon.Serve | src/core/daemon.ts:26-219 | the reply is 404 exactly when no route matches |
| Daemon.StatusIsOk | src/core/daemon.ts:27-31 | `GET /status` answers 200 `{status: 'ok'}` whatever the body |
| Daemon.UnreadableBodyIs500 | src/core/daemon.ts:124-127 | on every route that reads a body, one that does not parse gives 500 with the message and no call |
| Daemon.ParseFailureIs500 | src/core/daemon.ts:37-45 | a compose file the parser rejects gives 500 with its message and deploys nothing; a parsed one is sent back by the parse route |
| Daemon.DeployReply | src/core/daemon.ts:55-123 | a parsed deployment replies 200 with the plan's run status and makes the plan's calls up to the first failure, with the request's credentials |
| Daemon.DeploySucceedsIffAllCallsSucceed | src/core/daemon.ts:58-123 | `{status: 0}` is sent exactly when every planned call was made and returned 0 |
| Daemon.StartStopOneCall | src/core/daemon.ts:132-164 | `/start` and `/stop` make the one call `start <vmid>` or `stop <vmid>` and reply with its status |
| Daemon.ServiceRoutesOneCall | src/core/daemon.ts:166-215 | the attach, subvolume and mount routes make one call each, built from the body's fields, and reply with its status, for every body; when no tag holds a comma, the attach vector reads back as the requested attachment |
| Cli.SdnStage | src/cli.ts:52-57 | the network stage issues `sdn create <network>` exactly when a network is named and creation is asked for, and its status is the stage's |
| Cli.CreateVolume | src/cli.ts:59-67 | one volume adds nothing for an external volume and otherwise exactly its `subvolume create` call to the run |
| Cli.MountArgv | src/cli.ts:86-90 | the mount vector built step by step is the plan's `mount` call for that entry |
| Cli.MountOne | src/cli.ts:81-94 | one mount entry adds nothing when its volume is undefined and otherwise exactly its `mount` call to the run |
| Cli.CreateVolumesStage | src/cli.ts:58-68 | the command-line volume loop issues exactly `RunAll` of the volume plan |
| Cli.MountStage | src/cli.ts:80-95 | the command-line mount loop issues exactly `RunAll` of the mount plan |
| Cli.ServiceStage | src/cli.ts:70-95 | one service's deploy, attach and mounts issue exactly `RunAll` of its plan |
| Cli.ServicesStage | src/cli.ts:69-96 | the command-line service loop issues exactly `RunAll` of the services' plan |
| Cli.DeployAction | src/cli.ts:52-96 | the command-line `deploy`, given the intended model, issues exactly `RunAll(Plan)`, and so the daemon's calls, and exits with the same status |
| Cli.StartAction | src/cli.ts:99-105 | `start <vmid>` issues one `start` call and exits with its status |
| Cli.StopAction | src/cli.ts:107-113 | `stop <vmid>` issues one `stop` call and exits with its status |
| Cli.StartStopMatchDaemon | src/cli.ts:99-113 | the command-line `start` and `stop` make exactly the daemon routes' call and end with the status the daemon reports |
| Cli.DeployAsWritten | src/cli.ts:49-58 | as written, the action throws right after the network stage whenever that stage succeeds, having issued only the network call |
| Cli.AppFileParses | src/composeParser.ts:29-74 | the file `{services: {app: {image: img}}}` parses into the one service `app` |
| Cli.DeployAsWrittenNeverDeploys | src/cli.ts:49-58 | on that file, as written, nothing is deployed and the action throws; the corrected action deploys `app` with its image |
| DaemonClient.Retries | src/client/daemonClient.ts:20 | the retry budget is the option when given, 0 included, and 3 otherwise |
| DaemonClient.Decide | src/client/daemonClient.ts:46-69 | attempt `n` is retried exactly when `n < retries` and it hit a connection error or a 5xx reply, after `500 * n` ms, as attempt `n+1`; a 2xx reply resolves to the parsed body (`{}` when empty) or rejects with the parse error; anything else rejects with the body, `HTTP <code>` or the connection error |
| DaemonClient.AttemptShape | src/client/daemonClient.ts:23-77 | from attempt `n` on, attempts are consecutive and at most `max(1, retries-n+1)`; the wait before attempt `k+1` is `500k`; every attempt but the last was a retry; the result is the last attempt's decision |
| DaemonClient.AttemptBudget | src/client/daemonClient.ts:77 | a request makes between 1 and `max(1, retries)` attempts, numbered from 1 |
| DaemonClient.ClientErrorNotRetried | src/client/daemonClient.ts:56-58 | a reply that is neither 2xx nor 5xx rejects at once with the body or `HTTP <code>` |
| DaemonClient.UnreachableSpendsBudget | src/client/daemonClient.ts:61-69 | when the daemon is unreachable every time, the client tries exactly `retries` times and surfaces the last error |
| DaemonClient.DaemonErrorsAreRetried | src/client/daemonClient.ts:52-58 | the daemon's 500 error reply is retried while budget remains; its empty 404 rejects with `HTTP 404` |
| DaemonClient.Deploy | src/client/daemonClient.ts:80-82 | `deploy` posts to `/deploy` with `compose` holding the file text and `auth` the credentials, then `sdnNetwork` and `createSdn` with their values only when given |
| DaemonClient.Start | src/client/daemonClient.ts:84-86 | `start` posts `{vmid, auth}` to `/start` |
| DaemonClient.Stop | src/client/daemonClient.ts:88-90 | `stop` posts `{vmid, auth}` to `/stop` |
| DaemonClient.PostsReachTheirRoutes | src/client/daemonClient.ts:80-90 | each client call reaches the daemon route of the same name |

## Left out

- Process launch, HTTP transport, the Unix socket, timers and the runtime
  directory are left out. The backend, the spawner, what each client
  attempt receives, and `JSON.parse` are parameters.
- The daemon's request body is given already destructured into typed
  fields, or as the message of the JSON parse error. A required string
  field that is missing (undefined in JavaScript) is not modelled.
- `ComposeService.parse` is a parameter of the daemon, because
  `src/services/composeService.ts` is not part of this model.
- YAML decoding and file reading are left out: both interpreters take the
  decoded document. Floating-point numbers are not modelled (documents
  hold integers only), and neither is JavaScript's exponent notation for
  numbers of 1e21 or more.
- JavaScript's reordering of integer-like keys in objects is not
  modelled: records keep insertion order. Neither are `__proto__` keys.
- Mapping keys are strings only. YAML keys such as `1:`, `true:` or
  `null:` cannot be written in the model. Python's `str(k)` would write
  them as `1`, `True` and `None`, while the JavaScript decoder writes
  `true` and `null`. So the two interpreters' agreement on environment
  mappings (`PyComposeParser.DictEnvironmentAgrees`) holds for decoded
  documents with string keys. It is not claimed for the same YAML text
  with non-string keys.
- Deployment.MountPlan: the volume table is an association list, so a
  lookup finds only the table's own keys. In the source, `volumes[name]`
  on a plain object also finds inherited properties such as
  `constructor` or `toString`, which are truthy. A mount naming one of
  them would be issued there, and the model skips it. The same holds for
  `Deployment.MountEntryPlan`, `Cli.MountOne` and the daemon's mount loop.
- Daemon.Handle: the backend is a total function from argument vector to
  status, so launching a process never throws. In the source, the
  handler's `try` also catches a synchronous throw from `spawnSync`. That
  happens, for example, when an argument or credential holds U+0000. Such
  a throw after some calls gives a 500 with those calls already issued,
  and it turns `/start` into a 500. The promise "every 500 makes no call"
  holds only under this abstraction.
- Python `repr` treats every character above U+00FF as printable.
- Logging and `console.warn` output are left out. They never change a
  result.
- `unmount` and `removeSubvolume` are not in the storage service source
  modelled here (only its tests name them), so they are left out.
- The `-p`/`-e` forwarding asserted in `tests/daemon.test.ts` is left
  out. The daemon as written calls `run` without options, so the model
  follows the code.
- `src/commands/cli.ts`, `src/daemon/index.ts`, `src/core/runtime.ts`,
  `src/core/logger.ts`, `proxmox_swarm/api.py` and `proxmox_swarm/cli.py`
  are not part of this model.
- `src/proxmox.ts` (`runProxmox`), which the command line uses, is not
  modelled separately. It builds the same `[cmd] ++ args` vector and
  environment, and normalises the status the same way, as `run` without
  options.
- `process.exit` truncates a status to 8 bits, which is not modelled.
  Statuses are taken as the executable returns them.
- Cli.DeployAsWritten: models only parse results with no service named
  `volumes`. With such a service, the behaviour depends on how the spawner
  treats an undefined argument.
- PyComposeParser.Replicas: text is read with ASCII digits only
  (`PyRuntime.IntFromText`). Python's `int()` also accepts every Unicode
  decimal digit, so `replicas: "٣"` or `"３"` is 3 in the source and a
  ValueError in the model.
- DaemonClient.AttemptBudget: with a retry budget below 1 the client
  still makes one attempt, so the bound is `max(1, retries)` and not
  `retries`.

## Findings

| source | as written | input that shows it | evidently intended | confidence | as-written member | corrected member |
|---|---|---|---|---|---|---|
| src/cli.ts:49 | `deploy` destructures `{ services, volumes }` from `parseCompose`, which returns a record keyed by service name. So `volumes` is undefined, and `Object.values(volumes)` at line 58 throws. | the compose file `{services: {app: {image: img}}}`, with no network flags: the action throws before deploying `app` | read services and the volume table from the compose model, as the daemon does, and deploy every service | not executed | Cli.DeployAsWritten, Cli.DeployAsWrittenNeverDeploys | Cli.DeployAction |

=== FILE: assoc.dfy ===
/** Insertion-ordered string-keyed records: the model of a JavaScript plain
    object and of a Python dict. Enumeration order is list order; assigning
    to an existing key keeps its position, assigning a new key appends. */
module Assoc {
  import opened Base

  function Keys<V>(m: seq<(string, V)>): (ks: seq<string>)
    ensures |ks| == |m|
  {
    if |m| == 0 then [] else [m[0].0] + Keys(m[1..])
  }

  lemma KeysAt<V>(m: seq<(string, V)>)
    ensures forall i :: 0 <= i < |m| ==> Keys(m)[i] == m[i].0
  {
  }

  lemma {:induction false} KeysAppend<V>(a: seq<(string, V)>, b: seq<(string, V)>)
    ensures Keys(a + b) == Keys(a) + Keys(b)
  {
    if |a| == 0 {
      assert a + b == b;
    } else {
      assert (a + b)[1..] == a[1..] + b;
      KeysAppend(a[1..], b);
    }
  }

  function Values<V>(m: seq<(string, V)>): (vs: seq<V>)
    ensures |vs| == |m|
    ensures forall i :: 0 <= i < |m| ==> vs[i] == m[i].1
  {
    if |m| == 0 then [] else [m[0].1] + Values(m[1..])
  }

  predicate NoDup(ks: seq<string>) {
    forall i, j :: 0 <= i < j < |ks| ==> ks[i] != ks[j]
  }

  predicate NoDupKeys<V>(m: seq<(string, V)>) {
    NoDup(Keys(m))
  }

  /** Property lookup: the value stored under `k`, if any. */
  function Get<V>(m: seq<(string, V)>, k: string): (r: Option<V>)
    ensures r.None? <==> k !in Keys(m)
  {
    if |m| == 0 then None
    else if m[0].0 == k then Some(m[0].1)
    else Get(m[1..], k)
  }

  lemma {:induction false} GetAt<V>(m: seq<(string, V)>, i: nat)
    requires NoDupKeys(m)
    requires i < |m|
    ensures Get(m, m[i].0) == Some(m[i].1)
  {
    KeysAt(m);
    if i > 0 {
      assert m[1..][i - 1] == m[i];
      assert Keys(m) == [m[0].0] + Keys(m[1..]);
      assert m[0].0 != m[i].0;
      NoDupTail(Keys(m));
      assert Keys(m[1..]) == Keys(m)[1..];
      GetAt(m[1..], i - 1);
    }
  }

  lemma NoDupTail(ks: seq<string>)
    requires NoDup(ks) && |ks| > 0
    ensures NoDup(ks[1..])
  {
    forall i, j | 0 <= i < j < |ks| - 1 ensures ks[1..][i] != ks[1..][j] {
      assert ks[1..][i] == ks[i + 1] && ks[1..][j] == ks[j + 1];
    }
  }

  /** Assignment `m[k] = v`. */
  function Put<V>(m: seq<(string, V)>, k: string, v: V): (r: seq<(string, V)>)
    ensures Get(r, k) == Some(v)
    ensures forall j :: j != k ==> Get(r, j) == Get(m, j)
    ensures Keys(r) == if k in Keys(m) then Keys(m) else Keys(m) + [k]
  {
    if |m| == 0 then [(k, v)]
    else if m[0].0 == k then [(k, v)] + m[1..]
    else [m[0]] + Put(m[1..], k, v)
  }

  /** Assigning each pair in turn, as a loop of `m[k] = v` does. */
  function PutAll<V>(m: seq<(string, V)>, pairs: seq<(string, V)>): (r: seq<(string, V)>)
    ensures forall j :: j in Keys(r) <==> j in Keys(m) || j in Keys(pairs)
    ensures NoDupKeys(m) ==> NoDupKeys(r)
    decreases |pairs|
  {
    if |pairs| == 0 then m
    else
      PutKeepsNoDup(m, pairs[0].0, pairs[0].1);
      assert Keys(pairs) == [pairs[0].0] + Keys(pairs[1..]);
      PutAll(Put(m, pairs[0].0, pairs[0].1), pairs[1..])
  }

  lemma PutKeepsNoDup<V>(m: seq<(string, V)>, k: string, v: V)
    ensures NoDupKeys(m) ==> NoDupKeys(Put(m, k, v))
  {
  }

  /** The value of the last pair whose key is `k`. */
  function LastValue<V>(pairs: seq<(string, V)>, k: string): Option<V> {
    if |pairs| == 0 then None
    else if pairs[|pairs| - 1].0 == k then Some(pairs[|pairs| - 1].1)
    else LastValue(pairs[..|pairs| - 1], k)
  }

  lemma {:induction false} LastValueCons<V>(p: (string, V), rest: seq<(string, V)>, k: string)
    ensures LastValue([p] + rest, k)
         == if LastValue(rest, k).Some? then LastValue(rest, k)
            else if p.0 == k then Some(p.1) else None
  {
    var s := [p] + rest;
    if |rest| > 0 {
      assert s[..|s| - 1] == [p] + rest[..|rest| - 1];
      LastValueCons(p, rest[..|rest| - 1], k);
    }
  }

  /** The last value in a concatenation comes from the second part when it
      names the key at all. */
  lemma {:induction false} LastValueAppend<V>(x: seq<(string, V)>, y: seq<(string, V)>, k: string)
    ensures LastValue(x + y, k) == if LastValue(y, k).Some? then LastValue(y, k) else LastValue(x, k)
    decreases |y|
  {
    if |y| > 0 {
      var s := x + y;
      assert s[..|s| - 1] == x + y[..|y| - 1];
      LastValueAppend(x, y[..|y| - 1], k);
    } else {
      assert x + y == x;
    }
  }

  /** A key that no pair names has no last value. */
  lemma {:induction false} LastValueAbsent<V>(pairs: seq<(string, V)>, k: string)
    ensures LastValue(pairs, k).None? <==> k !in Keys(pairs)
    decreases |pairs|
  {
    if |pairs| > 0 {
      var init := pairs[..|pairs| - 1];
      KeysAppend(init, [pairs[|pairs| - 1]]);
      assert init + [pairs[|pairs| - 1]] == pairs;
      assert Keys([pairs[|pairs| - 1]]) == [pairs[|pairs| - 1].0];
      LastValueAbsent(init, k);
    }
  }

  /** Pairs rewritten value by value keep their last values, rewritten. */
  lemma {:induction false} LastValueMapped<V, W>(m: seq<(string, V)>, n: seq<(string, W)>, f: (string, V) -> W, k: string)
    requires |n| == |m|
    requires forall i :: 0 <= i < |m| ==> n[i] == (m[i].0, f(m[i].0, m[i].1))
    ensures LastValue(n, k) == if LastValue(m, k).Some? then Some(f(k, LastValue(m, k).value)) else None
    decreases |m|
  {
    if |m| > 0 {
      LastValueMapped(m[..|m| - 1], n[..|n| - 1], f, k);
    }
  }

  /** `PutAllLookup` for every key at once. */
  lemma PutAllLookupAll<V>(m: seq<(string, V)>, pairs: seq<(string, V)>)
    ensures forall k :: Get(PutAll(m, pairs), k) == if LastValue(pairs, k).Some? then LastValue(pairs, k) else Get(m, k)
  {
    forall k ensures Get(PutAll(m, pairs), k) == if LastValue(pairs, k).Some? then LastValue(pairs, k) else Get(m, k) {
      PutAllLookup(m, pairs, k);
    }
  }

  /** After assigning every pair, a key holds the value of its LAST pair;
      keys no pair mentions keep their old value. */
  lemma {:induction false} PutAllLookup<V>(m: seq<(string, V)>, pairs: seq<(string, V)>, k: string)
    ensures Get(PutAll(m, pairs), k)
         == if LastValue(pairs, k).Some? then LastValue(pairs, k) else Get(m, k)
    decreases |pairs|
  {
    if |pairs| > 0 {
      PutAllLookup(Put(m, pairs[0].0, pairs[0].1), pairs[1..], k);
      assert [pairs[0]] + pairs[1..] == pairs;
      LastValueCons(pairs[0], pairs[1..], k);
    }
  }

  /** With no key repeated, assigning pairs in turn just appends them. */
  lemma {:induction false} PutAllFresh<V>(m: seq<(string, V)>, pairs: seq<(string, V)>)
    requires NoDupKeys(m + pairs)
    ensures PutAll(m, pairs) == m + pairs
    decreases |pairs|
  {
    if |pairs| > 0 {
      var next := m + [pairs[0]];
      assert next + pairs[1..] == m + pairs;
      PutAllFresh(next, pairs[1..]);
      FreshHead(m, pairs);
      PutFreshAppends(m, pairs[0].0, pairs[0].1);
      assert PutAll(m, pairs) == PutAll(Put(m, pairs[0].0, pairs[0].1), pairs[1..]);
    }
  }

  /** With distinct keys, the tail has distinct keys and lacks the head's. */
  lemma HeadNotInTail<V>(m: seq<(string, V)>)
    requires NoDupKeys(m) && |m| > 0
    ensures NoDupKeys(m[1..]) && m[0].0 !in Keys(m[1..])
  {
    KeysAppend([m[0]], m[1..]);
    assert [m[0]] + m[1..] == m;
    var ks := Keys(m);
    assert ks[1..] == Keys(m[1..]);
    NoDupTail(ks);
    forall j | 0 <= j < |ks[1..]| ensures ks[1..][j] != m[0].0 {
      assert ks[1..][j] == ks[j + 1];
      KeysAt(m);
    }
  }

  /** The first of the pairs is not among the keys before them. */
  lemma FreshHead<V>(m: seq<(string, V)>, pairs: seq<(string, V)>)
    requires NoDupKeys(m + pairs) && |pairs| > 0
    ensures pairs[0].0 !in Keys(m)
  {
    KeysAppend(m, pairs);
    KeysAt(pairs);
    var ks := Keys(m + pairs);
    assert ks[|m|] == pairs[0].0;
    forall i | 0 <= i < |Keys(m)| ensures Keys(m)[i] != pairs[0].0 {
      assert ks[i] == Keys(m)[i];
    }
  }

  lemma {:induction false} PutFreshAppends<V>(m: seq<(string, V)>, k: string, v: V)
    requires k !in Keys(m)
    ensures Put(m, k, v) == m + [(k, v)]
  {
    if |m| > 0 {
      assert Keys(m) == [m[0].0] + Keys(m[1..]);
      PutFreshAppends(m[1..], k, v);
      assert [m[0]] + (m[1..] + [(k, v)]) == m + [(k, v)];
    }
  }
}

=== FILE: base.dfy ===
/** Option and Result: the "maybe absent" and "value or error" shapes used
    throughout the model for `undefined`/`None` and for thrown exceptions. */
module Base {

  /** `None` stands for an absent value (`undefined` in JavaScript). */
  datatype Option<+T> = None | Some(value: T) {

    function GetOr(default: T): T {
      match this
      case Some(v) => v
      case None => default
    }
  }

  /** `Failure` stands for an exception the source raises. */
  datatype Result<+T, +E> = Success(value: T) | Failure(error: E) {

    predicate IsFailure() {
      Failure?
    }

    function PropagateFailure<U>(): Result<U, E>
      requires Failure?
    {
      Failure(error)
    }

    function Extract(): T
      requires Success?
    {
      value
    }
  }
}

=== FILE: cli.dfy ===
/** The command-line front end: its own copy of the option filter, and the
    `deploy` action, which issues the same calls as the daemon and exits
    with the first non-zero status. */
module Cli {
  import opened Base
  import Assoc
  import ProxmoxClient
  import StorageService
  import LegacySdn
  import ComposeParser
  import JsRuntime
  import opened Document
  import D = Deployment
  import Daemon

  /** `buildOptionArgs`: the loop over the options record. */
  method BuildOptionArgs(options: Option<StorageService.Options>, allowed: set<string>) returns (args: seq<string>)
    ensures args == StorageService.OptionArgs(options, allowed)
  {
    args := [];
    if options.None? {
      return;
    }
    var entries := options.value;
    var i := 0;
    while i < |entries|
      invariant 0 <= i <= |entries|
      invariant args == StorageService.Flags(entries[..i], allowed)
    {
      var (k, v) := entries[i];
      assert entries[..i + 1] == entries[..i] + [(k, v)];
      StorageService.FlagsAppend(entries[..i], [(k, v)], allowed);
      StorageService.FlagsOfOne(k, v, allowed);
      if k in allowed {
        args := args + ["--" + k, v];
      }
      i := i + 1;
    }
    assert entries[..i] == entries;
  }

  /** Issue one call after a run that so far returned only 0s; `done` is the
      part of the plan issued so far. */
  method Issue(backend: ProxmoxClient.Backend, cmd: string, args: seq<string>, ghost done: seq<D.Argv>,
               trace: seq<ProxmoxClient.Invocation>)
    returns (c: ProxmoxClient.Invocation, trace': seq<ProxmoxClient.Invocation>)
    requires D.RunAll(done, backend) == D.Outcome(trace, 0)
    ensures c.argv == [cmd] + args && c.status == backend(c.argv)
    ensures D.RunAll(done + [c.argv], backend) == D.Outcome(trace', c.status)
    ensures trace' == trace + [c]
  {
    c := ProxmoxClient.Call(backend, cmd, args);
    D.RunAllStep(done, c.argv, backend);
    trace' := trace + [c];
  }

  /** The volume loop: a subvolume creation per non-external volume. */
  method CreateVolumesStage(volumes: seq<(string, D.VolumeDef)>, backend: ProxmoxClient.Backend)
    returns (trace: seq<ProxmoxClient.Invocation>, code: int)
    ensures D.Outcome(trace, code) == D.RunAll(D.VolumePlan(volumes), backend)
  {
    ghost var plan := D.VolumePlan(volumes);
    ghost var done: seq<D.Argv> := [];
    trace := [];
    var i := 0;
    while i < |volumes|
      invariant 0 <= i <= |volumes|
      invariant plan == done + D.VolumePlan(volumes[i..])
      invariant D.RunAll(done, backend) == D.Outcome(trace, 0)
    {
      D.VolumePlanStep(volumes, i);
      ghost var rest := D.VolumePlan(volumes[i + 1..]);
      var c;
      trace, c := CreateVolume(volumes[i], backend, done, trace);
      done := done + D.VolumePlan([volumes[i]]);
      assert plan == done + rest;
      if c != 0 {
        code := c;
        D.RunAllStops(done, rest, backend);
        return;
      }
      i := i + 1;
    }
    assert volumes[i..] == [];
    assert plan == done;
    code := 0;
  }

  /** One volume: a `subvolume create` with its filtered options, unless the
      volume is external. */
  method CreateVolume(volume: (string, D.VolumeDef), backend: ProxmoxClient.Backend, ghost done: seq<D.Argv>,
                      trace: seq<ProxmoxClient.Invocation>)
    returns (trace': seq<ProxmoxClient.Invocation>, code: int)
    requires D.RunAll(done, backend) == D.Outcome(trace, 0)
    ensures D.RunAll(done + D.VolumePlan([volume]), backend) == D.Outcome(trace', code)
  {
    var def := volume.1;
    D.VolumePlanOne(volume.0, def);
    if !def.external {
      var opts := BuildOptionArgs(def.options, StorageService.SubvolumeOptions);
      var c;
      c, trace' := Issue(backend, "cephfs", ["subvolume", "create", def.subvolume] + opts, done, trace);
      assert c.argv == D.CreateCall(def);
      code := c.status;
    } else {
      assert done + [] == done;
      trace', code := trace, 0;
    }
  }

  /** The vector of one mount: `mount <name> <target> <subvolume>`, the
      mode flag only when a mode is set, then the mount options. */
  method MountArgv(name: string, mount: D.VolumeMount, def: D.VolumeDef) returns (mArgs: seq<string>)
    ensures ["cephfs"] + mArgs == D.MountCall(name, mount, def)
  {
    mArgs := ["mount", name, mount.target, def.subvolume];
    if mount.mode.Some? && mount.mode.value != "" {
      mArgs := mArgs + ["--mode", mount.mode.value];
    }
    var opts := BuildOptionArgs(def.options, StorageService.MountOptions);
    mArgs := mArgs + opts;
  }

  /** The mount loop of one service: a mount per entry whose volume is
      defined; an undefined volume is only warned about. */
  method MountStage(name: string, mounts: seq<D.VolumeMount>, volumes: seq<(string, D.VolumeDef)>,
                    backend: ProxmoxClient.Backend)
    returns (trace: seq<ProxmoxClient.Invocation>, code: int)
    ensures D.Outcome(trace, code) == D.RunAll(D.MountPlan(name, mounts, volumes), backend)
  {
    ghost var plan := D.MountPlan(name, mounts, volumes);
    ghost var done: seq<D.Argv> := [];
    trace := [];
    var k := 0;
    while k < |mounts|
      invariant 0 <= k <= |mounts|
      invariant plan == done + D.MountPlan(name, mounts[k..], volumes)
      invariant D.RunAll(done, backend) == D.Outcome(trace, 0)
    {
      D.MountPlanStep(name, mounts, k, volumes);
      ghost var rest := D.MountPlan(name, mounts[k + 1..], volumes);
      var c;
      trace, c := MountOne(name, mounts[k], volumes, backend, done, trace);
      done := done + D.MountPlan(name, [mounts[k]], volumes);
      assert plan == done + rest;
      if c != 0 {
        code := c;
        D.RunAllStops(done, rest, backend);
        return;
      }
      k := k + 1;
    }
    assert mounts[k..] == [];
    assert plan == done;
    code := 0;
  }

  /** One mount entry: the mount when its volume is defined, else nothing. */
  method MountOne(name: string, mount: D.VolumeMount, volumes: seq<(string, D.VolumeDef)>,
                  backend: ProxmoxClient.Backend, ghost done: seq<D.Argv>, trace: seq<ProxmoxClient.Invocation>)
    returns (trace': seq<ProxmoxClient.Invocation>, code: int)
    requires D.RunAll(done, backend) == D.Outcome(trace, 0)
    ensures D.RunAll(done + D.MountPlan(name, [mount], volumes), backend) == D.Outcome(trace', code)
  {
    D.MountPlanOne(name, mount, volumes);
    var def := Assoc.Get(volumes, mount.volume);
    if def.Some? {
      var mArgs := MountArgv(name, mount, def.value);
      var c;
      c, trace' := Issue(backend, "cephfs", mArgs, done, trace);
      code := c.status;
    } else {
      assert done + [] == done;
      trace', code := trace, 0;
    }
  }

  /** One service: its deployment, its attachment when a network is named,
      then its mounts. */
  method ServiceStage(name: string, spec: D.ServiceSpec, volumes: seq<(string, D.VolumeDef)>, f: D.Flags,
                      backend: ProxmoxClient.Backend)
    returns (trace: seq<ProxmoxClient.Invocation>, code: int)
    ensures D.Outcome(trace, code) == D.RunAll(D.ServicePlan(name, spec, volumes, f), backend)
  {
    ghost var mounts := D.MountPlan(name, spec.volumes, volumes);
    ghost var attach := if D.HasNetwork(f) then [D.AttachCall(name, f.sdnNetwork.value, spec)] else [];
    ghost var plan := D.ServicePlan(name, spec, volumes, f);
    assert plan == [D.DeployCall(name, spec)] + (attach + mounts);
    var c;
    c, trace := Issue(backend, "deploy", [name, spec.image], [], []);
    assert c.argv == D.DeployCall(name, spec);
    ghost var done := [c.argv];
    if c.status != 0 {
      code := c.status;
      D.RunAllStops(done, attach + mounts, backend);
      return;
    }
    if D.HasNetwork(f) {
      var a := LegacySdn.AttachToSdn(backend, name, f.sdnNetwork.value, spec.tags, spec.vlan);
      D.RunAllStep(done, a.argv, backend);
      trace := trace + [a];
      assert a.argv == D.AttachCall(name, f.sdnNetwork.value, spec);
      assert attach == [a.argv];
      assert plan == (done + [a.argv]) + mounts;
      done := done + [a.argv];
      if a.status != 0 {
        code := a.status;
        D.RunAllStops(done, mounts, backend);
        return;
      }
    } else {
      assert attach == [];
    }
    assert plan == done + mounts;
    var t;
    t, code := MountStage(name, spec.volumes, volumes, backend);
    D.RunAllExtend(done, mounts, backend, trace, t, code);
    trace := trace + t;
  }

  /** The service loop, in the services' enumeration order. */
  method ServicesStage(services: seq<(string, D.ServiceSpec)>, volumes: seq<(string, D.VolumeDef)>, f: D.Flags,
                       backend: ProxmoxClient.Backend)
    returns (trace: seq<ProxmoxClient.Invocation>, code: int)
    ensures D.Outcome(trace, code) == D.RunAll(D.ServicesPlan(services, volumes, f), backend)
  {
    ghost var plan := D.ServicesPlan(services, volumes, f);
    ghost var done: seq<D.Argv> := [];
    trace := [];
    var j := 0;
    while j < |services|
      invariant 0 <= j <= |services|
      invariant plan == done + D.ServicesPlan(services[j..], volumes, f)
      invariant D.RunAll(done, backend) == D.Outcome(trace, 0)
    {
      var (name, spec) := services[j];
      assert services[j..][1..] == services[j + 1..];
      ghost var one := D.ServicePlan(name, spec, volumes, f);
      ghost var later := D.ServicesPlan(services[j + 1..], volumes, f);
      var t, c := ServiceStage(name, spec, volumes, f, backend);
      D.RunAllExtend(done, one, backend, trace, t, c);
      trace := trace + t;
      assert plan == (done + one) + later;
      done := done + one;
      if c != 0 {
        code := c;
        D.RunAllStops(done, later, backend);
        return;
      }
      j := j + 1;
    }
    assert services[j..] == [];
    assert plan == done;
    code := 0;
  }

  /** The network creation, when a network is named and creation asked for. */
  method SdnStage(f: D.Flags, backend: ProxmoxClient.Backend)
    returns (trace: seq<ProxmoxClient.Invocation>, code: int)
    ensures D.Outcome(trace, code) == D.RunAll(D.SdnPlan(f), backend)
  {
    trace, code := [], 0;
    if D.HasNetwork(f) && f.createSdn {
      var c;
      c, trace := Issue(backend, "sdn", ["create", f.sdnNetwork.value], [], []);
      assert c.argv == D.SdnCreateCall(f.sdnNetwork.value);
      assert [] + [c.argv] == D.SdnPlan(f);
      code := c.status;
    }
  }

  /** The `deploy` action over a parsed model: the network creation when
      both flags are set, the subvolume creations, then the services; the
      first non-zero status is the exit code and nothing is issued after
      it. With the same model and backend it makes the daemon's calls. */
  method DeployAction(m: D.Model, f: D.Flags, backend: ProxmoxClient.Backend)
    returns (trace: seq<ProxmoxClient.Invocation>, code: int)
    ensures D.Outcome(trace, code) == D.RunAll(D.Plan(m, f), backend)
    ensures D.Outcome(trace, code) == Daemon.DeployPipeline(m, f, backend)
  {
    Daemon.DeployPipelineRunsPlan(m, f, backend);
    ghost var sdn := D.SdnPlan(f);
    ghost var vols := D.VolumePlan(m.volumes);
    ghost var services := D.ServicesPlan(m.services, m.volumes, f);
    assert D.Plan(m, f) == sdn + vols + services;
    trace, code := SdnStage(f, backend);
    if code != 0 {
      D.RunAllStops(sdn, vols + services, backend);
      assert sdn + (vols + services) == D.Plan(m, f);
      return;
    }
    var t, c := CreateVolumesStage(m.volumes, backend);
    D.RunAllExtend(sdn, vols, backend, trace, t, c);
    trace := trace + t;
    if c != 0 {
      code := c;
      D.RunAllStops(sdn + vols, services, backend);
      return;
    }
    t, code := ServicesStage(m.services, m.volumes, f, backend);
    D.RunAllExtend(sdn + vols, services, backend, trace, t, code);
    trace := trace + t;
  }

  /** `start <vmid>`: one `start` call; its status is the exit code. */
  function StartAction(vmid: string, backend: ProxmoxClient.Backend): (r: ProxmoxClient.Invocation)
    ensures r.argv == ["start", vmid] && r.status == backend(r.argv)
  {
    ProxmoxClient.Call(backend, "start", [vmid])
  }

  /** `stop <vmid>`: one `stop` call; its status is the exit code. */
  function StopAction(vmid: string, backend: ProxmoxClient.Backend): (r: ProxmoxClient.Invocation)
    ensures r.argv == ["stop", vmid] && r.status == backend(r.argv)
  {
    ProxmoxClient.Call(backend, "stop", [vmid])
  }

  /** The command-line `start` and `stop` make exactly the call the daemon's
      routes make for the same machine and credentials, and exit with the
      status the daemon reports. */
  lemma StartStopMatchDaemon(f: Daemon.Fields, connect: Daemon.Connect, parse: Daemon.ComposeParse)
    ensures var backend := connect(Daemon.AuthOrEmpty(f.auth));
            var start := Daemon.Handle(Daemon.StartRoute, Success(f), connect, parse);
            var stop := Daemon.Handle(Daemon.StopRoute, Success(f), connect, parse);
            && start.trace == [StartAction(f.vmid, backend)]
            && start.response == Daemon.StatusReply(StartAction(f.vmid, backend).status)
            && stop.trace == [StopAction(f.vmid, backend)]
            && stop.response == Daemon.StatusReply(StopAction(f.vmid, backend).status)
  {
    Daemon.StartStopOneCall(f, connect, parse);
  }

  /** The outcome of the `deploy` action as written. */
  datatype Run =
    | Exited(trace: seq<ProxmoxClient.Invocation>, code: int)
    | Threw(trace: seq<ProxmoxClient.Invocation>, message: string)

  /** The `deploy` action as written: it destructures `services` and
      `volumes` from the record `parseCompose` returns, which is keyed by
      service name, so `volumes` is the configuration of a service named
      `volumes`, and undefined when there is none; the volume loop then
      throws on `Object.values(undefined)`, right after the network
      creation. */
  function DeployAsWritten(parsed: seq<(string, ComposeParser.ServiceConfig)>, f: D.Flags,
                           backend: ProxmoxClient.Backend): (r: Run)
    requires "volumes" !in Assoc.Keys(parsed)
    ensures r.Threw? <==> D.RunAll(D.SdnPlan(f), backend).status == 0
    ensures r.trace == D.RunAll(D.SdnPlan(f), backend).trace
  {
    var sdn := D.RunAll(D.SdnPlan(f), backend);
    if sdn.status != 0 then Exited(sdn.trace, sdn.status)
    else Threw(sdn.trace, "Cannot convert undefined or null to object")
  }

  /** The service configuration `{image: img}`. */
  const AppService := Obj([("image", Str("img"))])

  /** The compose file `{services: {app: {image: img}}}`. */
  const AppFile := Obj([("services", Obj([("app", AppService)]))])

  /** The parser accepts the file and yields the one service `app`. */
  lemma AppFileParses()
    ensures ComposeParser.ParseCompose(Some(AppFile), map[]).Success?
    ensures forall k :: k in Assoc.Keys(ComposeParser.ParseCompose(Some(AppFile), map[]).value) <==> k == "app"
  {
    var services := Obj([("app", AppService)]);
    var entries := [("app", AppService)];
    AppFileServices();
    assert JsRuntime.Entries(services) == Success(entries);
    AppEntriesParse();
    var parsed := ComposeParser.ParseAll(entries, map[]).value;
    assert ComposeParser.ParseCompose(Some(AppFile), map[]) == Success(Assoc.PutAll([], parsed));
  }

  lemma AppFileServices()
    ensures ComposeParser.HasServices(Some(AppFile))
    ensures Assoc.Get(AppFile.fields, "services") == Some(Obj([("app", AppService)]))
  {
    assert AppFile.fields[1..] == [];
  }

  lemma AppEntriesParse()
    ensures var parsed := ComposeParser.ParseAll([("app", AppService)], map[]);
            parsed.Success? && forall k :: k in Assoc.Keys(parsed.value) <==> k == "app"
  {
    var entries := [("app", AppService)];
    assert JsRuntime.Prop(AppService, "vlan") == None by {
      assert AppService.fields[1..] == [];
    }
    assert ComposeParser.ParseService("app", AppService, map[]).Success?;
    assert entries[1..] == [];
    assert Assoc.Keys(entries) == ["app"];
  }

  /** On that file, with no network flags, the action as written makes no
      call and throws, while the corrected action deploys `app`. */
  lemma DeployAsWrittenNeverDeploys(backend: ProxmoxClient.Backend)
    ensures var parsed := ComposeParser.ParseCompose(Some(AppFile), map[]);
            && parsed.Success?
            && "app" in Assoc.Keys(parsed.value)
            && "volumes" !in Assoc.Keys(parsed.value)
            && DeployAsWritten(parsed.value, D.Flags(None, false), backend)
               == Threw([], "Cannot convert undefined or null to object")
    ensures var m := D.Model([("app", D.ServiceSpec("img", None, None, []))], []);
            D.Deploys(D.Plan(m, D.Flags(None, false))) == [["deploy", "app", "img"]]
  {
    AppFileParses();
    var m := D.Model([("app", D.ServiceSpec("img", None, None, []))], []);
    D.EveryServiceDeployedInOrder(m, D.Flags(None, false));
    assert m.services[0].0 == "app";
  }
}

=== FILE: compose_parser.dfy ===
/** The TypeScript compose interpreter `parseCompose`, over an already
    decoded document (`None` is `undefined`, what an empty file decodes to):
    one record per service, with the environment normalised, replicas
    defaulted and the VLAN range-checked. */
module ComposeParser {
  import opened Base
  import opened Document
  import Text
  import Assoc
  import JsRuntime

  datatype ServiceConfig = ServiceConfig(
    image: Option<Value>,
    ports: seq<string>,
    environment: seq<(string, string)>,
    replicas: int,
    constraints: seq<string>,
    tags: Option<seq<string>>,
    vlan: Option<int>)

  /** What `parseCompose` throws. */
  datatype ComposeError =
    | MissingServices
    | TypeError(message: string)
    | InvalidVlan(service: string, raw: Value)

  function Message(e: ComposeError): string {
    match e
    case MissingServices => "Compose file missing services definition"
    case TypeError(m) => m
    case InvalidVlan(service, raw) => "Invalid VLAN ID for service " + service + ": " + JsRuntime.ToString(raw)
  }

  /** `items.map(x => String(x))`. */
  function Strings(items: seq<Value>): (r: seq<string>)
    ensures |r| == |items| && forall i :: 0 <= i < |items| ==> r[i] == JsRuntime.ToString(items[i])
  {
    seq(|items|, i requires 0 <= i < |items| => JsRuntime.ToString(items[i]))
  }

  /** An array becomes its elements' strings; anything else the empty list. */
  function StringList(v: Option<Value>): (r: seq<string>)
    ensures !JsRuntime.IsArray(v) ==> r == []
    ensures JsRuntime.IsArray(v) ==> r == Strings(v.value.items)
  {
    if JsRuntime.IsArray(v) then Strings(v.value.items) else []
  }

  /** `deploy.replicas`: `parseInt(String(v), 10)`, with 1 for an absent or
      null value and for `NaN`. */
  function Replicas(raw: Option<Value>): (n: int)
    ensures JsRuntime.IsNullish(raw) ==> n == 1
    ensures !JsRuntime.IsNullish(raw) && JsRuntime.ParseInt(JsRuntime.ToString(raw.value)).None? ==> n == 1
  {
    if JsRuntime.IsNullish(raw) then 1
    else JsRuntime.ParseInt(JsRuntime.ToString(raw.value)).GetOr(1)
  }

  /** Every integer is kept as the replica count, negative ones included,
      whether written as a number or as a decimal string. */
  lemma ReplicasKeepIntegers(n: int)
    ensures Replicas(Some(Num(n))) == n
    ensures Replicas(Some(Str(Text.IntToDecimal(n)))) == n
  {
    JsRuntime.ParseIntOfDecimal(n);
    ReplicasParsed(Num(n), n);
    ReplicasParsed(Str(Text.IntToDecimal(n)), n);
  }

  lemma ReplicasParsed(v: Value, n: int)
    requires !v.Null? && JsRuntime.ParseInt(JsRuntime.ToString(v)) == Some(n)
    ensures Replicas(Some(v)) == n
  {
  }

  const MaxVlan := 4094

  /** `vlan`: absent or null gives none; otherwise the parsed value must lie
      in 0..4094, or the service is rejected naming itself and the value. */
  function Vlan(service: string, raw: Option<Value>): (r: Result<Option<int>, ComposeError>)
    ensures JsRuntime.IsNullish(raw) <==> r == Success(None)
    ensures r.Success? && r.value.Some? ==> 0 <= r.value.value <= MaxVlan
    ensures r.Failure? ==> r.error == InvalidVlan(service, raw.value)
    ensures !JsRuntime.IsNullish(raw) ==>
              var p := JsRuntime.ParseInt(JsRuntime.ToString(raw.value));
              && (r.Success? <==> p.Some? && 0 <= p.value <= MaxVlan)
              && (r.Success? ==> r.value == Some(p.value))
  {
    if JsRuntime.IsNullish(raw) then Success(None)
    else
      var parsed := JsRuntime.ParseInt(JsRuntime.ToString(raw.value));
      if parsed.None? || parsed.value < 0 || parsed.value > MaxVlan then Failure(InvalidVlan(service, raw.value))
      else Success(Some(parsed.value))
  }

  /** A VLAN written as a number or as decimal text is accepted exactly
      when it lies in 0..4094, and then it is that number. */
  lemma VlanRange(service: string, n: int)
    ensures Vlan(service, Some(Num(n))) == if 0 <= n <= MaxVlan then Success(Some(n)) else Failure(InvalidVlan(service, Num(n)))
    ensures Vlan(service, Some(Str(Text.IntToDecimal(n))))
         == if 0 <= n <= MaxVlan then Success(Some(n)) else Failure(InvalidVlan(service, Str(Text.IntToDecimal(n))))
  {
    VlanOfDecimal(service, Num(n), n);
    VlanOfDecimal(service, Str(Text.IntToDecimal(n)), n);
  }

  lemma VlanOfDecimal(service: string, v: Value, n: int)
    requires !v.Null? && JsRuntime.ToString(v) == Text.IntToDecimal(n)
    ensures Vlan(service, Some(v)) == if 0 <= n <= MaxVlan then Success(Some(n)) else Failure(InvalidVlan(service, v))
  {
    JsRuntime.ParseIntOfDecimal(n);
    VlanParsed(service, v, n);
  }

  lemma VlanParsed(service: string, v: Value, n: int)
    requires !v.Null? && JsRuntime.ParseInt(JsRuntime.ToString(v)) == Some(n)
    ensures Vlan(service, Some(v)) == if 0 <= n <= MaxVlan then Success(Some(n)) else Failure(InvalidVlan(service, v))
  {
  }

  /** Text that does not start with a digit reads as `NaN`, and the service
      is rejected. */
  lemma VlanRejectsWord(service: string)
    ensures Vlan(service, Some(Str("abc"))) == Failure(InvalidVlan(service, Str("abc")))
  {
    JsRuntime.ParseIntNoDigit("abc");
  }

  /** A list item `KEY=VALUE`, split at the first `=`. */
  function SplitEntry(item: string): (kv: (string, string))
    requires '=' in item
    ensures '=' !in kv.0 && kv.0 + "=" + kv.1 == item
  {
    var i := Text.IndexOf(item, '=');
    assert item == item[..i] + "=" + item[i + 1..];
    (item[..i], item[i + 1..])
  }

  /** Splitting at the first `=` takes the key back off, even when the
      value itself contains `=`. */
  lemma SplitEntryOfPair(key: string, value: string)
    requires '=' !in key
    ensures SplitEntry(key + "=" + value) == (key, value)
  {
    Text.IndexOfAfterPrefix(key, '=', value);
    var s := key + "=" + value;
    assert s == key + ['='] + value;
    assert s[..|key|] == key;
    assert s[|key| + 1..] == value;
  }

  /** The pairs a list environment assigns, in order: string items holding
      an `=`; everything else is dropped. */
  function ListPairs(items: seq<Value>): (pairs: seq<(string, string)>)
    ensures forall p :: p in pairs ==> '=' !in p.0 && Str(p.0 + "=" + p.1) in items
  {
    if |items| == 0 then [] else ItemPairs(items[0]) + ListPairs(items[1..])
  }

  /** The pair one list item assigns, if any. */
  function ItemPairs(item: Value): (pairs: seq<(string, string)>)
    ensures forall p :: p in pairs ==> '=' !in p.0 && Str(p.0 + "=" + p.1) == item
    ensures item.Str? && '=' in item.s ==> |pairs| == 1
    ensures !(item.Str? && '=' in item.s) ==> pairs == []
  {
    if item.Str? && '=' in item.s then [SplitEntry(item.s)] else []
  }

  lemma {:induction false} ListPairsAppend(a: seq<Value>, b: seq<Value>)
    ensures ListPairs(a + b) == ListPairs(a) + ListPairs(b)
  {
    if |a| == 0 {
      assert a + b == b;
    } else {
      assert (a + b)[0] == a[0];
      assert (a + b)[1..] == a[1..] + b;
      ListPairsAppend(a[1..], b);
    }
  }

  /** A `KEY=VALUE` item contributes its pair, in place, even when the value
      holds further `=` signs. */
  lemma ListPairsKeep(a: seq<Value>, key: string, value: string, b: seq<Value>)
    requires '=' !in key
    ensures ListPairs(a + [Str(key + "=" + value)] + b) == ListPairs(a) + [(key, value)] + ListPairs(b)
  {
    var item := Str(key + "=" + value);
    ListPairsAppend(a + [item], b);
    ListPairsAppend(a, [item]);
    assert [item][1..] == [];
    assert '=' in item.s by {
      assert item.s[|key|] == '=';
    }
    SplitEntryOfPair(key, value);
    assert ListPairs([item]) == [(key, value)];
  }

  /** No item of `items` is a `key=` item. */
  predicate NoItemFor(items: seq<Value>, key: string) {
    forall i :: 0 <= i < |items| ==> !(items[i].Str? && '=' in items[i].s && SplitEntry(items[i].s).0 == key)
  }

  lemma {:induction false} ListPairsNoKey(items: seq<Value>, key: string)
    requires NoItemFor(items, key)
    ensures key !in Assoc.Keys(ListPairs(items))
  {
    if |items| > 0 {
      assert NoItemFor(items[1..], key) by {
        forall i | 0 <= i < |items[1..]|
          ensures !(items[1..][i].Str? && '=' in items[1..][i].s && SplitEntry(items[1..][i].s).0 == key)
        {
          assert items[1..][i] == items[i + 1];
        }
      }
      ListPairsNoKey(items[1..], key);
      var head := ItemPairs(items[0]);
      Assoc.KeysAppend(head, ListPairs(items[1..]));
      if |head| > 0 {
        assert head == [SplitEntry(items[0].s)];
      }
    }
  }

  /** A non-string item, or a string without `=`, contributes nothing. */
  lemma MalformedItemDropped(a: seq<Value>, item: Value, b: seq<Value>)
    requires !item.Str? || '=' !in item.s
    ensures ListPairs(a + [item] + b) == ListPairs(a + b)
  {
    ListPairsAppend(a + [item], b);
    ListPairsAppend(a, [item]);
    ListPairsAppend(a, b);
    MalformedItemAlone(item);
    assert ListPairs(a) + [] == ListPairs(a);
  }

  lemma MalformedItemAlone(item: Value)
    requires !item.Str? || '=' !in item.s
    ensures ListPairs([item]) == []
  {
    assert [item][1..] == [];
  }

  /** The value a mapping entry resolves to: null reads the process
      environment (empty when unset), anything else is stringified. */
  function EnvValue(key: string, v: Value, processEnv: map<string, string>): string {
    if v.Null? then (if key in processEnv then processEnv[key] else "") else JsRuntime.ToString(v)
  }

  function ObjectPairs(fields: seq<(string, Value)>, processEnv: map<string, string>): (pairs: seq<(string, string)>)
    ensures Assoc.Keys(pairs) == Assoc.Keys(fields)
    ensures |pairs| == |fields|
    ensures forall i :: 0 <= i < |fields| && fields[i].1.Null? ==>
              pairs[i] == (fields[i].0, if fields[i].0 in processEnv then processEnv[fields[i].0] else "")
    ensures forall i :: 0 <= i < |fields| && !fields[i].1.Null? ==>
              pairs[i] == (fields[i].0, JsRuntime.ToString(fields[i].1))
  {
    Assoc.KeysAt(fields);
    var pairs := seq(|fields|, i requires 0 <= i < |fields| => (fields[i].0, EnvValue(fields[i].0, fields[i].1, processEnv)));
    Assoc.KeysAt(pairs);
    pairs
  }

  /** `parseEnvironment`: an array is read item by item, a mapping entry by
      entry, each assignment overwriting an earlier one for the same key;
      any other shape gives the empty record. */
  function ParseEnvironment(env: Option<Value>, processEnv: map<string, string>): (r: seq<(string, string)>)
    ensures !JsRuntime.IsArray(env) && !(env.Some? && env.value.Obj?) ==> r == []
    ensures Assoc.NoDupKeys(r)
    ensures JsRuntime.IsArray(env) ==> forall k :: Assoc.Get(r, k) == Assoc.LastValue(ListPairs(env.value.items), k)
    ensures env.Some? && env.value.Obj? ==>
              forall k :: Assoc.Get(r, k) == Assoc.LastValue(ObjectPairs(env.value.fields, processEnv), k)
  {
    if JsRuntime.IsArray(env) then
      Assoc.PutAllLookupAll([], ListPairs(env.value.items));
      Assoc.PutAll([], ListPairs(env.value.items))
    else if env.Some? && env.value.Obj? then
      Assoc.PutAllLookupAll([], ObjectPairs(env.value.fields, processEnv));
      Assoc.PutAll([], ObjectPairs(env.value.fields, processEnv))
    else []
  }

  /** In a list environment a key holds the value of its LAST `KEY=VALUE`
      item; a key no item names is absent. */
  lemma ListEnvironmentLastWins(items: seq<Value>, processEnv: map<string, string>, key: string)
    ensures Assoc.Get(ParseEnvironment(Some(Arr(items)), processEnv), key) == Assoc.LastValue(ListPairs(items), key)
    ensures NoItemFor(items, key) ==> Assoc.Get(ParseEnvironment(Some(Arr(items)), processEnv), key) == None
  {
    Assoc.PutAllLookup([], ListPairs(items), key);
    if NoItemFor(items, key) {
      ListPairsNoKey(items, key);
      Assoc.LastValueAbsent(ListPairs(items), key);
    }
  }

  /** A `key=value` item followed by no other `key=` item sets `key` to
      `value`, whatever comes before it. */
  lemma ListEnvironmentLookup(a: seq<Value>, key: string, value: string, b: seq<Value>, processEnv: map<string, string>)
    requires '=' !in key && NoItemFor(b, key)
    ensures Assoc.Get(ParseEnvironment(Some(Arr(a + [Str(key + "=" + value)] + b)), processEnv), key) == Some(value)
  {
    var items := a + [Str(key + "=" + value)] + b;
    ListPairsKeep(a, key, value, b);
    Assoc.PutAllLookup([], ListPairs(items), key);
    ListPairsNoKey(b, key);
    Assoc.LastValueAbsent(ListPairs(b), key);
    Assoc.LastValueAppend(ListPairs(a) + [(key, value)], ListPairs(b), key);
    assert Assoc.LastValue(ListPairs(a) + [(key, value)], key) == Some(value);
  }

  /** A mapping environment has exactly the mapping's keys. A key whose
      value is null holds the process environment's value, or `''` when
      that is unset; any other value is stringified. */
  lemma ObjectEnvironmentLookup(fields: seq<(string, Value)>, processEnv: map<string, string>, key: string)
    ensures var r := ParseEnvironment(Some(Obj(fields)), processEnv);
            && (key in Assoc.Keys(r) <==> key in Assoc.Keys(fields))
            && Assoc.Get(r, key) == Assoc.LastValue(ObjectPairs(fields, processEnv), key)
    ensures var r := ParseEnvironment(Some(Obj(fields)), processEnv);
            var last := Assoc.LastValue(fields, key);
            && (last.None? ==> Assoc.Get(r, key) == None)
            && (last == Some(Null) ==> Assoc.Get(r, key) == Some(if key in processEnv then processEnv[key] else ""))
            && (last.Some? && !last.value.Null? ==> Assoc.Get(r, key) == Some(JsRuntime.ToString(last.value)))
  {
    var pairs := ObjectPairs(fields, processEnv);
    Assoc.PutAllLookup([], pairs, key);
    Assoc.LastValueMapped(fields, pairs, (k: string, v: Value) => EnvValue(k, v, processEnv), key);
  }

  const NullServiceMessage := "Cannot read properties of null (reading 'image')"

  /** One service entry. A `null` service fails on its first property
      read; otherwise only the VLAN check can reject it, and an accepted
      service's record holds every field read off it. */
  function ParseService(name: string, svc: Value, processEnv: map<string, string>): (r: Result<ServiceConfig, ComposeError>)
    ensures svc.Null? ==> r == Failure(TypeError(NullServiceMessage))
    ensures !svc.Null? ==> (r.Success? <==> Vlan(name, JsRuntime.Prop(svc, "vlan")).Success?)
    ensures r.Success? ==> r.value.vlan == Vlan(name, JsRuntime.Prop(svc, "vlan")).value
    ensures r.Success? ==> !svc.Null? && r.value == Fields(svc, processEnv, r.value.vlan)
    ensures r.Failure? ==> !r.error.MissingServices?
  {
    if svc.Null? then Failure(TypeError(NullServiceMessage))
    else
      var vlan := Vlan(name, JsRuntime.Prop(svc, "vlan"));
      if vlan.Failure? then Failure(vlan.error) else Success(Fields(svc, processEnv, vlan.value))
  }

  /** Every field read off a non-null service. */
  function Fields(svc: Value, processEnv: map<string, string>, vlan: Option<int>): (c: ServiceConfig)
    requires !svc.Null?
    ensures c.image == JsRuntime.Prop(svc, "image")
    ensures c.ports == StringList(JsRuntime.Prop(svc, "ports"))
    ensures c.environment == ParseEnvironment(JsRuntime.Prop(svc, "environment"), processEnv)
    ensures c.replicas == Replicas(JsRuntime.OptionalProp(JsRuntime.Prop(svc, "deploy"), "replicas"))
    ensures c.constraints
         == StringList(JsRuntime.OptionalProp(JsRuntime.OptionalProp(JsRuntime.Prop(svc, "deploy"), "placement"), "constraints"))
    ensures c.vlan == vlan
    ensures c.tags.Some? <==> JsRuntime.IsArray(JsRuntime.Prop(svc, "tags"))
    ensures c.tags.Some? ==> c.tags.value == Strings(JsRuntime.Prop(svc, "tags").value.items)
  {
    var deploy := JsRuntime.Prop(svc, "deploy");
    var placement := JsRuntime.OptionalProp(deploy, "placement");
    var tags := JsRuntime.Prop(svc, "tags");
    ServiceConfig(
      JsRuntime.Prop(svc, "image"),
      StringList(JsRuntime.Prop(svc, "ports")),
      ParseEnvironment(JsRuntime.Prop(svc, "environment"), processEnv),
      Replicas(JsRuntime.OptionalProp(deploy, "replicas")),
      StringList(JsRuntime.OptionalProp(placement, "constraints")),
      if JsRuntime.IsArray(tags) then Some(Strings(tags.value.items)) else None,
      vlan)
  }

  /** Parsing every entry in order; the first failure is the result. */
  function ParseAll(entries: seq<(string, Value)>, processEnv: map<string, string>): (r: Result<seq<(string, ServiceConfig)>, ComposeError>)
    ensures r.Success? <==> forall i :: 0 <= i < |entries| ==> ParseService(entries[i].0, entries[i].1, processEnv).Success?
    ensures r.Failure? ==> !r.error.MissingServices?
    ensures r.Success? ==> |r.value| == |entries| && Assoc.Keys(r.value) == Assoc.Keys(entries)
    ensures r.Success? ==> forall i :: 0 <= i < |entries| ==>
              ParseService(entries[i].0, entries[i].1, processEnv) == Success(r.value[i].1)
    ensures r.Failure? ==> exists i :: FirstFailing(entries, processEnv, i)
                                    && r.error == ParseService(entries[i].0, entries[i].1, processEnv).error
  {
    if |entries| == 0 then Success([])
    else
      var first := ParseService(entries[0].0, entries[0].1, processEnv);
      if first.Failure? then
        assert FirstFailing(entries, processEnv, 0);
        Failure(first.error)
      else
        var rest := ParseAll(entries[1..], processEnv);
        var parse := (e: (string, Value)) => ParseService(e.0, e.1, processEnv);
        if rest.Failure? then
          TailFailure(entries, parse);
          ShiftFirstFailing(entries, processEnv, rest.error);
          Failure(rest.error)
        else
          ConsParsed(entries, parse, first.value, rest.value);
          Success([(entries[0].0, first.value)] + rest.value)
  }

  /** Entry i is the first service that fails to parse. */
  predicate FirstFailing(entries: seq<(string, Value)>, processEnv: map<string, string>, i: int) {
    && 0 <= i < |entries|
    && ParseService(entries[i].0, entries[i].1, processEnv).Failure?
    && forall j :: 0 <= j < i ==> ParseService(entries[j].0, entries[j].1, processEnv).Success?
  }

  /** Behind a first service that parses, the first failure among the
      others is the first failure overall. */
  lemma ShiftFirstFailing(entries: seq<(string, Value)>, processEnv: map<string, string>, error: ComposeError)
    requires |entries| > 0 && ParseService(entries[0].0, entries[0].1, processEnv).Success?
    requires exists i :: FirstFailing(entries[1..], processEnv, i)
                      && error == ParseService(entries[1..][i].0, entries[1..][i].1, processEnv).error
    ensures exists i :: FirstFailing(entries, processEnv, i)
                     && error == ParseService(entries[i].0, entries[i].1, processEnv).error
  {
    var i :| FirstFailing(entries[1..], processEnv, i)
             && error == ParseService(entries[1..][i].0, entries[1..][i].1, processEnv).error;
    assert entries[1..][i] == entries[i + 1];
    forall j | 1 <= j < i + 1
      ensures ParseService(entries[j].0, entries[j].1, processEnv).Success?
    {
      assert entries[j] == entries[1..][j - 1];
    }
    assert FirstFailing(entries, processEnv, i + 1);
  }

  /** A service after the first that fails is a service that fails. */
  lemma TailFailure<T>(entries: seq<(string, Value)>, parse: ((string, Value)) -> Result<T, ComposeError>)
    requires |entries| > 0
    requires !forall i :: 0 <= i < |entries[1..]| ==> parse(entries[1..][i]).Success?
    ensures !forall i :: 0 <= i < |entries| ==> parse(entries[i]).Success?
  {
    var j :| 0 <= j < |entries[1..]| && !parse(entries[1..][j]).Success?;
    assert entries[1..][j] == entries[j + 1];
  }

  /** The first service's record followed by the records of the others. */
  lemma ConsParsed<T>(entries: seq<(string, Value)>, parse: ((string, Value)) -> Result<T, ComposeError>,
                      first: T, rest: seq<(string, T)>)
    requires |entries| > 0
    requires parse(entries[0]) == Success(first)
    requires |rest| == |entries| - 1 && Assoc.Keys(rest) == Assoc.Keys(entries[1..])
    requires forall i :: 0 <= i < |entries[1..]| ==> parse(entries[1..][i]) == Success(rest[i].1)
    ensures var r := [(entries[0].0, first)] + rest;
            && |r| == |entries| && Assoc.Keys(r) == Assoc.Keys(entries)
            && (forall i :: 0 <= i < |entries| ==> parse(entries[i]) == Success(r[i].1))
  {
    var r := [(entries[0].0, first)] + rest;
    forall i | 1 <= i < |entries|
      ensures parse(entries[i]) == Success(r[i].1)
    {
      assert entries[i] == entries[1..][i - 1] && r[i] == rest[i - 1];
    }
    Assoc.KeysAppend([(entries[0].0, first)], rest);
    Assoc.KeysAppend([entries[0]], entries[1..]);
    assert [entries[0]] + entries[1..] == entries;
  }

  /** `parseCompose` over the decoded document. The "missing services"
      error is raised exactly for a document that is not a mapping or has
      no `services` key, and a result never names a service twice.
      Otherwise `Object.entries(services)` either throws, or yields the
      entries: the parse succeeds exactly when every service does, holds
      one record per entry name, each that service's own record when the
      names are distinct, and fails with the first failing service's
      error. */
  function ParseCompose(data: Option<Value>, processEnv: map<string, string>): (r: Result<seq<(string, ServiceConfig)>, ComposeError>)
    ensures r == Failure(MissingServices) <==> !HasServices(data)
    ensures r.Success? ==> Assoc.NoDupKeys(r.value)
    ensures HasServices(data) ==>
              var e := JsRuntime.Entries(Assoc.Get(data.value.fields, "services").value);
              && (e.Failure? ==> r == Failure(TypeError(e.error)))
              && (e.Success? ==>
                    (r.Success? <==> forall i :: 0 <= i < |e.value| ==> ParseService(e.value[i].0, e.value[i].1, processEnv).Success?))
              && (e.Success? && r.Failure? ==>
                    exists i :: FirstFailing(e.value, processEnv, i)
                             && r.error == ParseService(e.value[i].0, e.value[i].1, processEnv).error)
              && (e.Success? && r.Success? ==> forall k :: k in Assoc.Keys(r.value) <==> k in Assoc.Keys(e.value))
              && (e.Success? && r.Success? && Assoc.NoDupKeys(e.value) ==>
                    forall i :: 0 <= i < |e.value| ==>
                      Assoc.Get(r.value, e.value[i].0) == Some(ParseService(e.value[i].0, e.value[i].1, processEnv).value))
  {
    if data.None? || !data.value.Obj? || "services" !in Assoc.Keys(data.value.fields) then Failure(MissingServices)
    else
      var services := Assoc.Get(data.value.fields, "services").value;
      var entries := JsRuntime.Entries(services);
      if entries.Failure? then Failure(TypeError(entries.error))
      else
        var parsed := ParseAll(entries.value, processEnv);
        if parsed.Failure? then Failure(parsed.error)
        else
          ParsedLookup(entries.value, parsed.value, processEnv);
          Success(Assoc.PutAll([], parsed.value))
  }

  /** Recording parsed entries: the record has the entries' names, and with
      distinct names each name holds its own entry's record. */
  lemma ParsedLookup(entries: seq<(string, Value)>, parsed: seq<(string, ServiceConfig)>, processEnv: map<string, string>)
    requires |parsed| == |entries| && Assoc.Keys(parsed) == Assoc.Keys(entries)
    requires forall i :: 0 <= i < |entries| ==> ParseService(entries[i].0, entries[i].1, processEnv) == Success(parsed[i].1)
    ensures forall k :: k in Assoc.Keys(Assoc.PutAll([], parsed)) <==> k in Assoc.Keys(entries)
    ensures Assoc.NoDupKeys(entries) ==>
              forall i :: 0 <= i < |entries| ==>
                Assoc.Get(Assoc.PutAll([], parsed), entries[i].0) == Some(ParseService(entries[i].0, entries[i].1, processEnv).value)
  {
    if Assoc.NoDupKeys(entries) {
      assert [] + parsed == parsed;
      Assoc.PutAllFresh([], parsed);
      forall i | 0 <= i < |entries|
        ensures Assoc.Get(Assoc.PutAll([], parsed), entries[i].0) == Some(ParseService(entries[i].0, entries[i].1, processEnv).value)
      {
        Assoc.KeysAt(entries);
        Assoc.KeysAt(parsed);
        assert parsed[i].0 == entries[i].0;
        Assoc.GetAt(parsed, i);
      }
    }
  }

  predicate HasServices(data: Option<Value>) {
    data.Some? && data.value.Obj? && "services" in Assoc.Keys(data.value.fields)
  }

  /** On success there is one record per service entry: the result's keys
      are the entries' keys, and with distinct names each record is that
      service's own parse. */
  lemma ResultMatchesServices(fields: seq<(string, Value)>, processEnv: map<string, string>)
    requires HasServices(Some(Obj(fields)))
    requires Assoc.Get(fields, "services").value.Obj?
    requires ParseCompose(Some(Obj(fields)), processEnv).Success?
    ensures var services := Assoc.Get(fields, "services").value.fields;
            var result := ParseCompose(Some(Obj(fields)), processEnv).value;
            && (forall k :: k in Assoc.Keys(result) <==> k in Assoc.Keys(services))
            && (Assoc.NoDupKeys(services) ==>
                  forall i :: 0 <= i < |services| ==>
                    Assoc.Get(result, services[i].0) == Some(ParseService(services[i].0, services[i].1, processEnv).value))
  {
    var services := Assoc.Get(fields, "services").value.fields;
    ComposeOfServices(fields, processEnv);
    ParsedLookup(services, ParseAll(services, processEnv).value, processEnv);
  }

  /** A document whose `services` is a mapping parses its entries. */
  lemma ComposeOfServices(fields: seq<(string, Value)>, processEnv: map<string, string>)
    requires HasServices(Some(Obj(fields)))
    requires Assoc.Get(fields, "services").value.Obj?
    requires ParseCompose(Some(Obj(fields)), processEnv).Success?
    ensures var services := Assoc.Get(fields, "services").value.fields;
            && ParseAll(services, processEnv).Success?
            && ParseCompose(Some(Obj(fields)), processEnv).value == Assoc.PutAll([], ParseAll(services, processEnv).value)
  {
    var services := Assoc.Get(fields, "services").value;
    assert JsRuntime.Entries(services) == Success(services.fields);
  }

  /** The document of the test "throws for invalid VLAN values" in
      tests/composeService.test.ts: a VLAN of 5000 is rejected. */
  lemma RejectsVlan5000()
    ensures ParseCompose(Some(Obj([("services", Obj([("bad", Obj([("image", Str("test")), ("vlan", Num(5000))]))]))])), map[])
         == Failure(InvalidVlan("bad", Num(5000)))
  {
    var svcFields := [("image", Str("test")), ("vlan", Num(5000))];
    var svc := Obj(svcFields);
    var services := Obj([("bad", svc)]);
    var doc := [("services", services)];
    assert doc[1..] == [];
    assert Assoc.Get(doc, "services") == Some(services);
    assert "services" in Assoc.Keys(doc);
    assert JsRuntime.Entries(services) == Success([("bad", svc)]);
    assert "image" != "vlan";
    assert svcFields[1..] == [("vlan", Num(5000))];
    assert JsRuntime.Prop(svc, "vlan") == Some(Num(5000));
    VlanRange("bad", 5000);
    assert ParseService("bad", svc, map[]) == Failure(InvalidVlan("bad", Num(5000)));
    var entries := [("bad", svc)];
    assert ParseAll(entries, map[]) == Failure(InvalidVlan("bad", Num(5000)));
  }
}

=== FILE: compose_parser_py.dfy ===
/** The Python compose interpreter `parse_compose`, over the decoded
    document (`None` for an empty file): defaults instead of errors for
    missing sections, `str` and `int()` for conversions, and Python's
    exceptions when a section has the wrong shape. */
module PyComposeParser {
  import opened Base
  import opened Document
  import Text
  import Assoc
  import PyRuntime
  import ComposeParser
  import JsRuntime

  datatype PyServiceConfig = PyServiceConfig(
    image: Value,
    ports: seq<Value>,
    environment: seq<(string, string)>,
    replicas: int,
    constraints: seq<Value>)

  /** `d.get(key, default)` on a value that must be a dict. */
  function Get(d: Value, key: string, default: Value): (r: Result<Value, PyRuntime.PyError>)
    ensures r.Success? <==> d.Obj?
    ensures r.Failure? ==> r.error == PyRuntime.NoAttribute(d, "get")
  {
    if d.Obj? then Success(PyRuntime.DictGet(d.fields, key, default)) else Failure(PyRuntime.NoAttribute(d, "get"))
  }

  /** A dict entry's value: `None` reads the process environment (empty when
      unset), anything else goes through `str`. */
  function EnvValue(key: string, v: Value, processEnv: map<string, string>): string {
    if v.Null? then (if key in processEnv then processEnv[key] else "") else PyRuntime.Str(v)
  }

  function DictPairs(fields: seq<(string, Value)>, processEnv: map<string, string>): (pairs: seq<(string, string)>)
    ensures Assoc.Keys(pairs) == Assoc.Keys(fields)
    ensures |pairs| == |fields|
    ensures forall i :: 0 <= i < |fields| && fields[i].1.Null? ==>
              pairs[i] == (fields[i].0, if fields[i].0 in processEnv then processEnv[fields[i].0] else "")
    ensures forall i :: 0 <= i < |fields| && !fields[i].1.Null? ==>
              pairs[i] == (fields[i].0, PyRuntime.Str(fields[i].1))
  {
    Assoc.KeysAt(fields);
    var pairs := seq(|fields|, i requires 0 <= i < |fields| => (fields[i].0, EnvValue(fields[i].0, fields[i].1, processEnv)));
    Assoc.KeysAt(pairs);
    pairs
  }

  /** `_parse_environment`: a dict entry by entry, a list item by item
      (strings holding `=`, split at the first one), anything else `{}`. */
  function ParseEnvironment(env: Value, processEnv: map<string, string>): (r: seq<(string, string)>)
    ensures !env.Obj? && !env.Arr? ==> r == []
    ensures Assoc.NoDupKeys(r)
    ensures env.Arr? ==> forall k :: Assoc.Get(r, k) == Assoc.LastValue(ComposeParser.ListPairs(env.items), k)
    ensures env.Obj? ==> forall k :: Assoc.Get(r, k) == Assoc.LastValue(DictPairs(env.fields, processEnv), k)
  {
    if env.Obj? then
      Assoc.PutAllLookupAll([], DictPairs(env.fields, processEnv));
      Assoc.PutAll([], DictPairs(env.fields, processEnv))
    else if env.Arr? then
      Assoc.PutAllLookupAll([], ComposeParser.ListPairs(env.items));
      Assoc.PutAll([], ComposeParser.ListPairs(env.items))
    else []
  }

  /** A dict environment has exactly the dict's keys. A key whose value is
      `None` holds `os.environ.get(key, "")`; any other value goes through
      `str`. */
  lemma DictEnvironmentLookup(fields: seq<(string, Value)>, processEnv: map<string, string>, key: string)
    ensures var r := ParseEnvironment(Obj(fields), processEnv);
            var last := Assoc.LastValue(fields, key);
            && (last.None? ==> Assoc.Get(r, key) == None)
            && (last == Some(Null) ==> Assoc.Get(r, key) == Some(if key in processEnv then processEnv[key] else ""))
            && (last.Some? && !last.value.Null? ==> Assoc.Get(r, key) == Some(PyRuntime.Str(last.value)))
  {
    var pairs := DictPairs(fields, processEnv);
    Assoc.LastValueMapped(fields, pairs, (k: string, v: Value) => EnvValue(k, v, processEnv), key);
  }

  /** `list(x) if isinstance(x, list) else []`: elements are kept as they are. */
  function ListOrEmpty(v: Value): (r: seq<Value>)
    ensures v.Arr? ==> r == v.items
    ensures !v.Arr? ==> r == []
  {
    if v.Arr? then v.items else []
  }

  /** `int(replicas) if replicas is not None else 1`. Text that is not an
      integer raises ValueError, and a list or a dict raises TypeError. */
  function Replicas(raw: Value): (r: Result<int, PyRuntime.PyError>)
    ensures raw.Null? ==> r == Success(1)
    ensures raw.Num? ==> r == Success(raw.n)
    ensures raw.Bool? ==> r == Success(if raw.b then 1 else 0)
    ensures raw.Str? ==> (r.Success? <==> PyRuntime.IntFromText(raw.s).Some?)
    ensures raw.Str? && r.Success? ==> r.value == PyRuntime.IntFromText(raw.s).value
    ensures raw.Str? && r.Failure? ==> r.error.ValueError?
    ensures raw.Arr? || raw.Obj? ==> r.Failure? && r.error.TypeError?
  {
    if raw.Null? then Success(1) else PyRuntime.Int(raw)
  }

  /** Where the readers part on a malformed count: Python raises
      ValueError on text that is not an integer, where TypeScript reads
      `NaN` and falls back to 1. */
  lemma ReplicasTextDiffers()
    ensures Replicas(Str("abc")).Failure? && Replicas(Str("abc")).error.ValueError?
    ensures ComposeParser.Replicas(Some(Str("abc"))) == 1
  {
    PyRuntime.IntFromWord();
    JsRuntime.ParseIntNoDigit("abc");
  }

  /** And on a mapping: Python raises TypeError, while TypeScript reads
      `"[object Object]"`, which is `NaN`, and takes 1. */
  lemma ReplicasMappingDiffers(fields: seq<(string, Value)>)
    ensures Replicas(Obj(fields)).Failure? && Replicas(Obj(fields)).error.TypeError?
    ensures ComposeParser.Replicas(Some(Obj(fields))) == 1
  {
    JsRuntime.ParseIntNoDigit("[object Object]");
  }

  /** One service spec, its reads in source order: a spec, `deploy` or
      `placement` that is not a dict raises on `.get`, then `int()` may
      raise on the replica count. On success, ports and constraints are
      kept when they are lists, the environment is read, and the count is
      `int()`'s. */
  function ParseSpec(spec: Value, processEnv: map<string, string>): (r: Result<PyServiceConfig, PyRuntime.PyError>)
    ensures !spec.Obj? ==> r == Failure(PyRuntime.NoAttribute(spec, "get"))
    ensures spec.Obj? ==>
              var deploy := PyRuntime.DictGet(spec.fields, "deploy", Obj([]));
              && (!deploy.Obj? ==> r == Failure(PyRuntime.NoAttribute(deploy, "get")))
              && (deploy.Obj? ==>
                    var placement := PyRuntime.DictGet(deploy.fields, "placement", Obj([]));
                    var count := Replicas(PyRuntime.DictGet(deploy.fields, "replicas", Null));
                    && (!placement.Obj? ==> r == Failure(PyRuntime.NoAttribute(placement, "get")))
                    && (placement.Obj? && count.Failure? ==> r == Failure(count.error))
                    && (placement.Obj? && count.Success? ==>
                          && r.Success?
                          && r.value.image == PyRuntime.DictGet(spec.fields, "image", Str(""))
                          && r.value.ports == ListOrEmpty(PyRuntime.DictGet(spec.fields, "ports", Arr([])))
                          && r.value.environment
                             == ParseEnvironment(PyRuntime.DictGet(spec.fields, "environment", Null), processEnv)
                          && r.value.replicas == count.value
                          && r.value.constraints
                             == ListOrEmpty(PyRuntime.DictGet(placement.fields, "constraints", Arr([])))))
  {
    if !spec.Obj? then Failure(PyRuntime.NoAttribute(spec, "get"))
    else
      var image := PyRuntime.DictGet(spec.fields, "image", Str(""));
      var ports := PyRuntime.DictGet(spec.fields, "ports", Arr([]));
      var environment := ParseEnvironment(PyRuntime.DictGet(spec.fields, "environment", Null), processEnv);
      var deploy := PyRuntime.DictGet(spec.fields, "deploy", Obj([]));
      if !deploy.Obj? then Failure(PyRuntime.NoAttribute(deploy, "get"))
      else
        var replicas := PyRuntime.DictGet(deploy.fields, "replicas", Null);
        var placement := PyRuntime.DictGet(deploy.fields, "placement", Obj([]));
        if !placement.Obj? then Failure(PyRuntime.NoAttribute(placement, "get"))
        else
          var constraints := PyRuntime.DictGet(placement.fields, "constraints", Arr([]));
          var count := Replicas(replicas);
          if count.Failure? then Failure(count.error)
          else Success(PyServiceConfig(image, ListOrEmpty(ports), environment, count.value, ListOrEmpty(constraints)))
  }

  /** The loop over `services.items()`: `configs[name] = ...` per entry,
      stopping at the first exception. It succeeds exactly when every spec
      parses, and then leaves names the services do not use as they were
      and, with distinct names, stores each service's own record; otherwise
      it raises the first failing spec's error. */
  function Collect(acc: seq<(string, PyServiceConfig)>, entries: seq<(string, Value)>,
                   processEnv: map<string, string>): (r: Result<seq<(string, PyServiceConfig)>, PyRuntime.PyError>)
    ensures r.Success? <==> forall i :: 0 <= i < |entries| ==> ParseSpec(entries[i].1, processEnv).Success?
    ensures r.Success? ==> forall k :: k !in Assoc.Keys(entries) ==> Assoc.Get(r.value, k) == Assoc.Get(acc, k)
    ensures r.Success? && Assoc.NoDupKeys(entries) ==>
              forall i :: 0 <= i < |entries| ==> Assoc.Get(r.value, entries[i].0) == Some(ParseSpec(entries[i].1, processEnv).value)
    ensures r.Failure? ==> exists i :: FirstFailingSpec(entries, processEnv, i) && r.error == ParseSpec(entries[i].1, processEnv).error
    decreases |entries|
  {
    if |entries| == 0 then Success(acc)
    else
      var spec := ParseSpec(entries[0].1, processEnv);
      if spec.Failure? then
        assert FirstFailingSpec(entries, processEnv, 0);
        Failure(spec.error)
      else
        var next := Assoc.Put(acc, entries[0].0, spec.value);
        var rest := Collect(next, entries[1..], processEnv);
        AllSucceedTail(entries, (v: Value) => ParseSpec(v, processEnv));
        if rest.Failure? then
          ShiftFirstFailingSpec(entries, processEnv, rest.error);
          rest
        else
          CollectStep(acc, entries, (v: Value) => ParseSpec(v, processEnv), rest.value);
          rest
  }

  /** Entry i is the first spec that raises. */
  predicate FirstFailingSpec(entries: seq<(string, Value)>, processEnv: map<string, string>, i: int) {
    && 0 <= i < |entries|
    && ParseSpec(entries[i].1, processEnv).Failure?
    && forall j :: 0 <= j < i ==> ParseSpec(entries[j].1, processEnv).Success?
  }

  /** Behind a first spec that parses, the first failure among the others is
      the first failure overall. */
  lemma ShiftFirstFailingSpec(entries: seq<(string, Value)>, processEnv: map<string, string>, error: PyRuntime.PyError)
    requires |entries| > 0 && ParseSpec(entries[0].1, processEnv).Success?
    requires exists i :: FirstFailingSpec(entries[1..], processEnv, i) && error == ParseSpec(entries[1..][i].1, processEnv).error
    ensures exists i :: FirstFailingSpec(entries, processEnv, i) && error == ParseSpec(entries[i].1, processEnv).error
  {
    var i :| FirstFailingSpec(entries[1..], processEnv, i) && error == ParseSpec(entries[1..][i].1, processEnv).error;
    assert entries[1..][i] == entries[i + 1];
    forall j | 1 <= j < i + 1
      ensures ParseSpec(entries[j].1, processEnv).Success?
    {
      assert entries[j] == entries[1..][j - 1];
    }
    assert FirstFailingSpec(entries, processEnv, i + 1);
  }

  /** Behind a first entry that `f` reads, `f` reads every entry exactly
      when it reads every later one. */
  lemma AllSucceedTail<T, E>(entries: seq<(string, Value)>, f: Value -> Result<T, E>)
    requires |entries| > 0 && f(entries[0].1).Success?
    ensures (forall i :: 0 <= i < |entries| ==> f(entries[i].1).Success?)
        <==> (forall i :: 0 <= i < |entries[1..]| ==> f(entries[1..][i].1).Success?)
  {
    assert forall i :: 1 <= i < |entries| ==> entries[i] == entries[1..][i - 1];
  }

  /** One loop step, for any per-spec reader `f` that succeeds on every
      entry: storing the first record, then what the rest of the loop
      stores, leaves unused names alone and keeps every record under its
      own distinct name. */
  lemma CollectStep<T, E>(acc: seq<(string, T)>, entries: seq<(string, Value)>, f: Value -> Result<T, E>,
                          r: seq<(string, T)>)
    requires |entries| > 0
    requires forall i :: 0 <= i < |entries| ==> f(entries[i].1).Success?
    requires forall i :: 0 <= i < |entries[1..]| ==> f(entries[1..][i].1).Success?
    requires forall k :: k !in Assoc.Keys(entries[1..]) ==>
               Assoc.Get(r, k) == Assoc.Get(Assoc.Put(acc, entries[0].0, f(entries[0].1).value), k)
    requires Assoc.NoDupKeys(entries[1..]) ==>
               forall i :: 0 <= i < |entries[1..]| ==> Assoc.Get(r, entries[1..][i].0) == Some(f(entries[1..][i].1).value)
    ensures forall k :: k !in Assoc.Keys(entries) ==> Assoc.Get(r, k) == Assoc.Get(acc, k)
    ensures Assoc.NoDupKeys(entries) ==>
              forall i :: 0 <= i < |entries| ==> Assoc.Get(r, entries[i].0) == Some(f(entries[i].1).value)
  {
    Assoc.KeysAppend([entries[0]], entries[1..]);
    assert [entries[0]] + entries[1..] == entries;
    if Assoc.NoDupKeys(entries) {
      Assoc.HeadNotInTail(entries);
      forall i | 1 <= i < |entries|
        ensures Assoc.Get(r, entries[i].0) == Some(f(entries[i].1).value)
      {
        assert entries[i] == entries[1..][i - 1];
      }
    }
  }

  /** On success the loop has assigned exactly the earlier keys and the
      services' names. */
  lemma {:induction false} CollectKeys(acc: seq<(string, PyServiceConfig)>, entries: seq<(string, Value)>,
                                       processEnv: map<string, string>)
    requires Collect(acc, entries, processEnv).Success?
    ensures forall k :: k in Assoc.Keys(Collect(acc, entries, processEnv).value)
                    <==> k in Assoc.Keys(acc) || k in Assoc.Keys(entries)
    decreases |entries|
  {
    if |entries| > 0 {
      var spec := ParseSpec(entries[0].1, processEnv);
      var next := Assoc.Put(acc, entries[0].0, spec.value);
      CollectKeys(next, entries[1..], processEnv);
      assert Assoc.Keys(entries) == [entries[0].0] + Assoc.Keys(entries[1..]);
    }
  }

  /** `parse_compose` over the decoded document: an empty document, or a
      mapping without `services`, gives no services rather than an error; a
      non-empty document that is not a mapping raises on `.get`; a
      `services` value that is not a mapping raises on `.items()`; and
      otherwise the result is the loop over the services. */
  function ParseCompose(data: Value, processEnv: map<string, string>): (r: Result<seq<(string, PyServiceConfig)>, PyRuntime.PyError>)
    ensures !PyRuntime.Truthy(data) ==> r == Success([])
    ensures data.Obj? && "services" !in Assoc.Keys(data.fields) ==> r == Success([])
    ensures PyRuntime.Truthy(data) && !data.Obj? ==> r == Failure(PyRuntime.NoAttribute(data, "get"))
    ensures data.Obj? ==>
              var services := PyRuntime.DictGet(data.fields, "services", Obj([]));
              && (!services.Obj? ==> r == Failure(PyRuntime.NoAttribute(services, "items")))
              && (services.Obj? ==> r == Collect([], services.fields, processEnv))
  {
    var doc := if PyRuntime.Truthy(data) then data else Obj([]);
    assert data.Obj? && !PyRuntime.Truthy(data) ==> data.fields == [];
    var services := Get(doc, "services", Obj([]));
    if services.Failure? then Failure(services.error)
    else if !services.value.Obj? then Failure(PyRuntime.NoAttribute(services.value, "items"))
    else Collect([], services.value.fields, processEnv)
  }

  /** A present but null `services` raises on `.items()`, with the message
      "'NoneType' object has no attribute 'items'". */
  lemma NullServicesRaises(processEnv: map<string, string>)
    ensures ParseCompose(Obj([("services", Null)]), processEnv) == Failure(PyRuntime.NoAttribute(Null, "items"))
  {
    var doc := [("services", Null)];
    assert PyRuntime.Truthy(Obj(doc));
    assert doc[1..] == [];
    assert Get(Obj(doc), "services", Obj([])) == Success(Null);
  }

  /** A document that is a non-empty list raises on `.get`. */
  lemma ListDocumentRaises(processEnv: map<string, string>)
    ensures ParseCompose(Arr([Num(1)]), processEnv) == Failure(PyRuntime.NoAttribute(Arr([Num(1)]), "get"))
  {
    assert PyRuntime.Truthy(Arr([Num(1)]));
  }

  /** A spec without any of the fields takes every default. */
  lemma EmptySpecDefaults(processEnv: map<string, string>)
    ensures ParseSpec(Obj([]), processEnv) == Success(PyServiceConfig(Str(""), [], [], 1, []))
  {
  }

  /** On success `services` was a mapping, and the result names exactly
      its services, whatever else the document holds. */
  lemma ResultNamesServices(doc: seq<(string, Value)>, processEnv: map<string, string>)
    requires ParseCompose(Obj(doc), processEnv).Success?
    ensures var services := PyRuntime.DictGet(doc, "services", Obj([]));
            && services.Obj?
            && forall k :: k in Assoc.Keys(ParseCompose(Obj(doc), processEnv).value) <==> k in Assoc.Keys(services.fields)
  {
    var services := PyRuntime.DictGet(doc, "services", Obj([]));
    CollectKeys([], services.fields, processEnv);
  }

  /** Both generations read a list environment the same way. This holds by
      construction: the Python reader's `isinstance(item, str) and "=" in
      item` with `split("=", 1)` is the TypeScript `indexOf`/`slice` loop,
      so both are modelled by the one `ComposeParser.ListPairs`, and this
      lemma records that shared definition rather than proving an
      agreement between two. */
  lemma ListEnvironmentAgrees(items: seq<Value>, processEnv: map<string, string>)
    ensures ParseEnvironment(Arr(items), processEnv) == ComposeParser.ParseEnvironment(Some(Arr(items)), processEnv)
  {
  }

  /** A `KEY=VALUE` item followed by no other `KEY=` item sets the key. */
  lemma ListEnvironmentLookup(a: seq<Value>, key: string, value: string, b: seq<Value>, processEnv: map<string, string>)
    requires '=' !in key && ComposeParser.NoItemFor(b, key)
    ensures Assoc.Get(ParseEnvironment(Arr(a + [Str(key + "=" + value)] + b), processEnv), key) == Some(value)
  {
    ListEnvironmentAgrees(a + [Str(key + "=" + value)] + b, processEnv);
    ComposeParser.ListEnvironmentLookup(a, key, value, b, processEnv);
  }

  predicate PlainValue(v: Value) {
    v.Null? || v.Str? || v.Num?
  }

  /** Both generations read a dict environment the same way when every value
      is a string, an integer or null. */
  lemma DictEnvironmentAgrees(fields: seq<(string, Value)>, processEnv: map<string, string>)
    requires forall i :: 0 <= i < |fields| ==> PlainValue(fields[i].1)
    ensures ParseEnvironment(Obj(fields), processEnv) == ComposeParser.ParseEnvironment(Some(Obj(fields)), processEnv)
  {
    var py := DictPairs(fields, processEnv);
    var ts := ComposeParser.ObjectPairs(fields, processEnv);
    assert |py| == |ts|;
    forall i | 0 <= i < |fields| ensures py[i] == ts[i] {
      assert PlainValue(fields[i].1);
    }
    assert py == ts;
  }

  /** A boolean environment value is where they part: Python writes `True`,
      TypeScript `true`. */
  lemma BooleanEnvironmentDiffers(processEnv: map<string, string>)
    ensures ParseEnvironment(Obj([("DEBUG", Bool(true))]), processEnv) == [("DEBUG", "True")]
    ensures ComposeParser.ParseEnvironment(Some(Obj([("DEBUG", Bool(true))])), processEnv) == [("DEBUG", "true")]
  {
    var fields := [("DEBUG", Bool(true))];
    var py := DictPairs(fields, processEnv);
    var ts := ComposeParser.ObjectPairs(fields, processEnv);
    assert py == [("DEBUG", "True")];
    assert ts == [("DEBUG", "true")];
    assert [] + py == py && [] + ts == ts;
    Assoc.PutAllFresh([], py);
    Assoc.PutAllFresh([], ts);
  }

  /** A numeric replica count agrees with the TypeScript reading, and so
      does a decimal string. */
  lemma ReplicasAgreeOnIntegers(n: int)
    ensures Replicas(Num(n)) == Success(n) && ComposeParser.Replicas(Some(Num(n))) == n
    ensures Replicas(Str(Text.IntToDecimal(n))) == Success(n)
    ensures ComposeParser.Replicas(Some(Str(Text.IntToDecimal(n)))) == n
  {
    ComposeParser.ReplicasKeepIntegers(n);
    PyRuntime.IntFromTextOfDecimal(n);
  }
}

=== FILE: daemon.dfy ===
/** The daemon: route dispatch on method and path, the request handlers,
    the mapping of a thrown error to a 500 reply, and the `/deploy` handler,
    whose staged loops with their early returns are proved to issue exactly
    `RunAll(Plan(...))`. */
module Daemon {
  import opened Base
  import opened Document
  import Assoc
  import ProxmoxClient
  import StorageService
  import NetworkService
  import D = Deployment

  type Backend = ProxmoxClient.Backend

  datatype Route =
    | StatusRoute
    | ComposeParseRoute
    | DeployRoute
    | StartRoute
    | StopRoute
    | NetworkAttachRoute
    | SubvolumeRoute
    | MountRoute
    | NotFound

  /** The method and path each route answers, none for `NotFound`. */
  function Endpoint(r: Route): (e: Option<(string, string)>)
    ensures e.None? <==> r == NotFound
  {
    match r
    case StatusRoute => Some(("GET", "/status"))
    case ComposeParseRoute => Some(("POST", "/compose/parse"))
    case DeployRoute => Some(("POST", "/deploy"))
    case StartRoute => Some(("POST", "/start"))
    case StopRoute => Some(("POST", "/stop"))
    case NetworkAttachRoute => Some(("POST", "/network/attach"))
    case SubvolumeRoute => Some(("POST", "/storage/subvolume"))
    case MountRoute => Some(("POST", "/storage/mount"))
    case NotFound => None
  }

  /** The chain of method-and-path tests, in the order the handler makes them. */
  function Dispatch(verb: string, url: string): (r: Route)
    ensures r != NotFound ==> Endpoint(r) == Some((verb, url))
  {
    if verb == "GET" && url == "/status" then StatusRoute
    else if verb == "POST" && url == "/compose/parse" then ComposeParseRoute
    else if verb == "POST" && url == "/deploy" then DeployRoute
    else if verb == "POST" && url == "/start" then StartRoute
    else if verb == "POST" && url == "/stop" then StopRoute
    else if verb == "POST" && url == "/network/attach" then NetworkAttachRoute
    else if verb == "POST" && url == "/storage/subvolume" then SubvolumeRoute
    else if verb == "POST" && url == "/storage/mount" then MountRoute
    else NotFound
  }

  /** Every route is reached by its own endpoint, so no route shadows
      another; together with the contract of `Dispatch` this makes
      `Dispatch` and `Endpoint` inverse. */
  lemma DispatchEndpoint(r: Route)
    requires r != NotFound
    ensures Dispatch(Endpoint(r).value.0, Endpoint(r).value.1) == r
  {
  }

  /** A request method other than GET and POST is never served. */
  lemma OtherMethodsNotFound(verb: string, url: string)
    requires verb != "GET" && verb != "POST"
    ensures Dispatch(verb, url) == NotFound
  {
  }

  /** The destructured request body; each handler reads only its own fields. */
  datatype Fields = Fields(
    auth: Option<ProxmoxClient.Auth>,
    file: string,
    compose: string,
    flags: D.Flags,
    vmid: string,
    network: string,
    tags: Option<seq<string>>,
    vlan: Option<int>,
    subvolume: string,
    target: string,
    mode: Option<string>,
    options: Option<StorageService.Options>)

  /** What `ComposeService.parse` returns: the deployment model and the
      document the parse route sends back. */
  datatype Parsed = Parsed(model: D.Model, document: Value)

  /** `ComposeService.parse`; a failure is the message of what it throws. */
  type ComposeParse = string -> Result<Parsed, string>

  /** The backend for the request's credentials. */
  type Connect = ProxmoxClient.Auth -> Backend

  /** `auth ?? {}`. */
  function AuthOrEmpty(auth: Option<ProxmoxClient.Auth>): (a: ProxmoxClient.Auth)
    ensures auth.None? ==> a == ProxmoxClient.Auth(None, None, None)
    ensures auth.Some? ==> a == auth.value
  {
    auth.GetOr(ProxmoxClient.Auth(None, None, None))
  }

  /** A reply: the status code and the JSON body, none for the empty 404. */
  datatype Response = Response(code: int, body: Option<Value>)

  datatype Handled = Handled(response: Response, trace: seq<ProxmoxClient.Invocation>)

  function StatusReply(status: int): Response {
    Response(200, Some(Obj([("status", Num(status))])))
  }

  function ErrorReply(message: string): Response {
    Response(500, Some(Obj([("error", Str(message))])))
  }

  /** One call whose status becomes a 200 reply. */
  function Single(c: ProxmoxClient.Invocation): Handled {
    Handled(StatusReply(c.status), [c])
  }

  function One(c: ProxmoxClient.Invocation): D.Outcome {
    D.Outcome([c], c.status)
  }

  /** The volume loop: external volumes are skipped, any other is created,
      and a non-zero status returns at once. */
  function CreateVolumes(volumes: seq<(string, D.VolumeDef)>, backend: Backend): D.Outcome {
    if |volumes| == 0 then D.Outcome([], 0)
    else if volumes[0].1.external then CreateVolumes(volumes[1..], backend)
    else
      var c := StorageService.CreateSubvolume(backend, volumes[0].1.subvolume, volumes[0].1.options);
      D.Chain(One(c), CreateVolumes(volumes[1..], backend))
  }

  /** The mount loop of one service: a volume missing from the table is
      skipped, any other is mounted. */
  function MountVolumes(name: string, mounts: seq<D.VolumeMount>, volumes: seq<(string, D.VolumeDef)>,
                        backend: Backend): D.Outcome
  {
    if |mounts| == 0 then D.Outcome([], 0)
    else
      var def := Assoc.Get(volumes, mounts[0].volume);
      if def.None? then MountVolumes(name, mounts[1..], volumes, backend)
      else
        var c := StorageService.Mount(backend, name, mounts[0].target, def.value.subvolume, mounts[0].mode,
                                      def.value.options);
        D.Chain(One(c), MountVolumes(name, mounts[1..], volumes, backend))
  }

  /** One service: deploy it, attach it when a network is named, mount its
      volumes. */
  function DeployService(name: string, spec: D.ServiceSpec, volumes: seq<(string, D.VolumeDef)>, f: D.Flags,
                         backend: Backend): D.Outcome
  {
    var deploy := ProxmoxClient.Call(backend, "deploy", [name, spec.image]);
    var attach :=
      if D.HasNetwork(f) then One(NetworkService.AttachToSdn(backend, name, f.sdnNetwork.value, spec.tags, spec.vlan))
      else D.Outcome([], 0);
    D.Chain(One(deploy), D.Chain(attach, MountVolumes(name, spec.volumes, volumes, backend)))
  }

  function DeployServices(services: seq<(string, D.ServiceSpec)>, volumes: seq<(string, D.VolumeDef)>, f: D.Flags,
                          backend: Backend): D.Outcome
  {
    if |services| == 0 then D.Outcome([], 0)
    else D.Chain(DeployService(services[0].0, services[0].1, volumes, f, backend),
                 DeployServices(services[1..], volumes, f, backend))
  }

  /** The `/deploy` handler after parsing: the network creation, the volume
      loop, then the service loop, each returning on a non-zero status. */
  function DeployPipeline(m: D.Model, f: D.Flags, backend: Backend): D.Outcome {
    var sdn :=
      if D.HasNetwork(f) && f.createSdn then One(ProxmoxClient.Call(backend, "sdn", ["create", f.sdnNetwork.value]))
      else D.Outcome([], 0);
    D.Chain(sdn, D.Chain(CreateVolumes(m.volumes, backend), DeployServices(m.services, m.volumes, f, backend)))
  }

  lemma RunAllOne(call: D.Argv, backend: Backend)
    ensures D.RunAll([call], backend) == D.Outcome([ProxmoxClient.Invocation(call, backend(call))], backend(call))
  {
    assert [call][1..] == [];
  }

  /** Running `a`, then `b`, then `c`, each only after the previous ended
      with status 0. */
  lemma RunAllThree(a: seq<D.Argv>, b: seq<D.Argv>, c: seq<D.Argv>, backend: Backend)
    ensures D.RunAll(a + b + c, backend)
         == D.Chain(D.RunAll(a, backend), D.Chain(D.RunAll(b, backend), D.RunAll(c, backend)))
  {
    assert a + b + c == a + (b + c);
    D.RunAllAppend(a, b + c, backend);
    D.RunAllAppend(b, c, backend);
  }

  lemma {:induction false} CreateVolumesRunsPlan(volumes: seq<(string, D.VolumeDef)>, backend: Backend)
    ensures CreateVolumes(volumes, backend) == D.RunAll(D.VolumePlan(volumes), backend)
  {
    if |volumes| > 0 {
      CreateVolumesRunsPlan(volumes[1..], backend);
      if !volumes[0].1.external {
        var call := D.CreateCall(volumes[0].1);
        assert D.VolumePlan(volumes) == [call] + D.VolumePlan(volumes[1..]);
        RunAllOne(call, backend);
        D.RunAllAppend([call], D.VolumePlan(volumes[1..]), backend);
      } else {
        assert D.VolumePlan(volumes) == [] + D.VolumePlan(volumes[1..]);
        assert [] + D.VolumePlan(volumes[1..]) == D.VolumePlan(volumes[1..]);
      }
    }
  }

  lemma {:induction false} MountVolumesRunsPlan(name: string, mounts: seq<D.VolumeMount>,
                                                volumes: seq<(string, D.VolumeDef)>, backend: Backend)
    ensures MountVolumes(name, mounts, volumes, backend) == D.RunAll(D.MountPlan(name, mounts, volumes), backend)
  {
    if |mounts| > 0 {
      MountVolumesRunsPlan(name, mounts[1..], volumes, backend);
      var def := Assoc.Get(volumes, mounts[0].volume);
      if def.Some? {
        var call := D.MountCall(name, mounts[0], def.value);
        assert D.MountPlan(name, mounts, volumes) == [call] + D.MountPlan(name, mounts[1..], volumes);
        RunAllOne(call, backend);
        D.RunAllAppend([call], D.MountPlan(name, mounts[1..], volumes), backend);
      } else {
        assert D.MountPlan(name, mounts, volumes) == [] + D.MountPlan(name, mounts[1..], volumes);
        assert [] + D.MountPlan(name, mounts[1..], volumes) == D.MountPlan(name, mounts[1..], volumes);
      }
    }
  }

  lemma DeployServiceRunsPlan(name: string, spec: D.ServiceSpec, volumes: seq<(string, D.VolumeDef)>, f: D.Flags,
                              backend: Backend)
    ensures DeployService(name, spec, volumes, f, backend) == D.RunAll(D.ServicePlan(name, spec, volumes, f), backend)
  {
    var attach := if D.HasNetwork(f) then [D.AttachCall(name, f.sdnNetwork.value, spec)] else [];
    RunAllOne(D.DeployCall(name, spec), backend);
    assert ProxmoxClient.Call(backend, "deploy", [name, spec.image]).argv == D.DeployCall(name, spec);
    if D.HasNetwork(f) {
      RunAllOne(D.AttachCall(name, f.sdnNetwork.value, spec), backend);
    }
    assert D.ServicePlan(name, spec, volumes, f) == [D.DeployCall(name, spec)] + attach + D.MountPlan(name, spec.volumes, volumes);
    MountVolumesRunsPlan(name, spec.volumes, volumes, backend);
    RunAllThree([D.DeployCall(name, spec)], attach, D.MountPlan(name, spec.volumes, volumes), backend);
  }

  lemma {:induction false} DeployServicesRunsPlan(services: seq<(string, D.ServiceSpec)>,
                                                  volumes: seq<(string, D.VolumeDef)>, f: D.Flags, backend: Backend)
    ensures DeployServices(services, volumes, f, backend) == D.RunAll(D.ServicesPlan(services, volumes, f), backend)
  {
    if |services| > 0 {
      DeployServiceRunsPlan(services[0].0, services[0].1, volumes, f, backend);
      DeployServicesRunsPlan(services[1..], volumes, f, backend);
      D.RunAllAppend(D.ServicePlan(services[0].0, services[0].1, volumes, f),
                     D.ServicesPlan(services[1..], volumes, f), backend);
    }
  }

  /** The staged handler issues exactly the plan, stopping at the first
      non-zero status, which it reports. */
  lemma DeployPipelineRunsPlan(m: D.Model, f: D.Flags, backend: Backend)
    ensures DeployPipeline(m, f, backend) == D.RunAll(D.Plan(m, f), backend)
  {
    if D.HasNetwork(f) && f.createSdn {
      RunAllOne(D.SdnCreateCall(f.sdnNetwork.value), backend);
      assert ProxmoxClient.Call(backend, "sdn", ["create", f.sdnNetwork.value]).argv == D.SdnCreateCall(f.sdnNetwork.value);
    } else {
      assert D.RunAll(D.SdnPlan(f), backend) == D.Outcome([], 0);
    }
    CreateVolumesRunsPlan(m.volumes, backend);
    DeployServicesRunsPlan(m.services, m.volumes, f, backend);
    RunAllThree(D.SdnPlan(f), D.VolumePlan(m.volumes), D.ServicesPlan(m.services, m.volumes, f), backend);
  }

  /** The backend for the credentials the body carries. */
  function BackendFor(f: Fields, connect: Connect): Backend {
    connect(AuthOrEmpty(f.auth))
  }

  /** `/compose/parse`: the parsed document, or the parser's message. */
  function HandleParse(f: Fields, parse: ComposeParse): Handled {
    var p := parse(f.file);
    if p.Failure? then Handled(ErrorReply(p.error), []) else Handled(Response(200, Some(p.value.document)), [])
  }

  /** `/deploy`: parse the compose file, then run the pipeline and reply
      with its status. */
  function HandleDeploy(f: Fields, connect: Connect, parse: ComposeParse): Handled {
    var p := parse(f.compose);
    if p.Failure? then Handled(ErrorReply(p.error), [])
    else
      var o := DeployPipeline(p.value.model, f.flags, BackendFor(f, connect));
      Handled(StatusReply(o.status), o.trace)
  }

  /** The handler of a dispatched request. A body that does not parse, and
      anything a handler throws, becomes a 500 reply carrying the message. */
  function Handle(route: Route, body: Result<Fields, string>, connect: Connect, parse: ComposeParse): (h: Handled)
    ensures h.response.code == 404 <==> route == NotFound
    ensures h.response.code == 404 || route == StatusRoute ==> h.trace == []
    ensures h.response.code == 500 ==> h.trace == []
    ensures h.response.code in {200, 404, 500}
  {
    match route
    case StatusRoute => Handled(Response(200, Some(Obj([("status", Str("ok"))]))), [])
    case NotFound => Handled(Response(404, None), [])
    case ComposeParseRoute =>
      if body.Failure? then Handled(ErrorReply(body.error), []) else HandleParse(body.value, parse)
    case DeployRoute =>
      if body.Failure? then Handled(ErrorReply(body.error), []) else HandleDeploy(body.value, connect, parse)
    case StartRoute =>
      if body.Failure? then Handled(ErrorReply(body.error), [])
      else Single(ProxmoxClient.Call(BackendFor(body.value, connect), "start", [body.value.vmid]))
    case StopRoute =>
      if body.Failure? then Handled(ErrorReply(body.error), [])
      else Single(ProxmoxClient.Call(BackendFor(body.value, connect), "stop", [body.value.vmid]))
    case NetworkAttachRoute =>
      if body.Failure? then Handled(ErrorReply(body.error), [])
      else
        var f := body.value;
        Single(NetworkService.AttachToSdn(BackendFor(f, connect), f.vmid, f.network, f.tags, f.vlan))
    case SubvolumeRoute =>
      if body.Failure? then Handled(ErrorReply(body.error), [])
      else Single(StorageService.CreateSubvolume(BackendFor(body.value, connect), body.value.subvolume, body.value.options))
    case MountRoute =>
      if body.Failure? then Handled(ErrorReply(body.error), [])
      else
        var f := body.value;
        Single(StorageService.Mount(BackendFor(f, connect), f.vmid, f.target, f.subvolume, f.mode, f.options))
  }

  /** The server's request callback. */
  function Serve(verb: string, url: string, body: Result<Fields, string>, connect: Connect,
                 parse: ComposeParse): (h: Handled)
    ensures h.response.code == 404 <==> Dispatch(verb, url) == NotFound
  {
    Handle(Dispatch(verb, url), body, connect, parse)
  }

  /** The health check answers `{status: 'ok'}` whatever the body. */
  lemma StatusIsOk(body: Result<Fields, string>, connect: Connect, parse: ComposeParse)
    ensures Serve("GET", "/status", body, connect, parse)
         == Handled(Response(200, Some(Obj([("status", Str("ok"))]))), [])
  {
  }

  /** A body that does not parse gives a 500 reply with the parser's
      message on every route that reads a body, and no call is made. */
  lemma UnreadableBodyIs500(route: Route, message: string, connect: Connect, parse: ComposeParse)
    requires route != StatusRoute && route != NotFound
    ensures Handle(route, Failure(message), connect, parse) == Handled(ErrorReply(message), [])
  {
  }

  /** A compose file the parser rejects gives a 500 reply with its message
      and deploys nothing; a parsed one is sent back as is. */
  lemma ParseFailureIs500(route: Route, f: Fields, connect: Connect, parse: ComposeParse)
    requires route == DeployRoute || route == ComposeParseRoute
    ensures var file := if route == DeployRoute then f.compose else f.file;
            parse(file).Failure? ==>
              Handle(route, Success(f), connect, parse) == Handled(ErrorReply(parse(file).error), [])
    ensures route == ComposeParseRoute && parse(f.file).Success? ==>
              Handle(route, Success(f), connect, parse) == Handled(Response(200, Some(parse(f.file).value.document)), [])
  {
  }

  /** A parsed deployment replies 200 with the plan's run status and makes
      the plan's calls up to the first failure, with the request's
      credentials (none given meaning the empty ones). */
  lemma DeployReply(f: Fields, connect: Connect, parse: ComposeParse)
    requires parse(f.compose).Success?
    ensures var o := D.RunAll(D.Plan(parse(f.compose).value.model, f.flags), connect(AuthOrEmpty(f.auth)));
            Handle(DeployRoute, Success(f), connect, parse) == Handled(StatusReply(o.status), o.trace)
  {
    DeployPipelineRunsPlan(parse(f.compose).value.model, f.flags, connect(AuthOrEmpty(f.auth)));
  }

  /** A deployment replies `{status: 0}` exactly when every planned call
      was made and returned 0. */
  lemma DeploySucceedsIffAllCallsSucceed(f: Fields, connect: Connect, parse: ComposeParse)
    requires parse(f.compose).Success?
    ensures var plan := D.Plan(parse(f.compose).value.model, f.flags);
            var h := Handle(DeployRoute, Success(f), connect, parse);
            h.response == StatusReply(0)
            <==> |h.trace| == |plan| && forall i :: 0 <= i < |h.trace| ==> h.trace[i].argv == plan[i] && h.trace[i].status == 0
  {
    var plan := D.Plan(parse(f.compose).value.model, f.flags);
    var backend := connect(AuthOrEmpty(f.auth));
    DeployReply(f, connect, parse);
    D.RunAllSpec(plan, backend);
  }

  /** `/start` and `/stop` make one call, `start <vmid>` or `stop <vmid>`,
      and reply with its status. */
  lemma StartStopOneCall(f: Fields, connect: Connect, parse: ComposeParse)
    ensures var backend := connect(AuthOrEmpty(f.auth));
            && Handle(StartRoute, Success(f), connect, parse).trace == [ProxmoxClient.Invocation(["start", f.vmid], backend(["start", f.vmid]))]
            && Handle(StartRoute, Success(f), connect, parse).response == StatusReply(backend(["start", f.vmid]))
            && Handle(StopRoute, Success(f), connect, parse).trace == [ProxmoxClient.Invocation(["stop", f.vmid], backend(["stop", f.vmid]))]
            && Handle(StopRoute, Success(f), connect, parse).response == StatusReply(backend(["stop", f.vmid]))
  {
    var backend := connect(AuthOrEmpty(f.auth));
    assert ProxmoxClient.Call(backend, "start", [f.vmid]).argv == ["start", f.vmid];
    assert ProxmoxClient.Call(backend, "stop", [f.vmid]).argv == ["stop", f.vmid];
  }

  /** `/network/attach`, `/storage/subvolume` and `/storage/mount` make one
      call each, with the vector the service builds from the body's fields,
      and reply 200 with its status; the attach vector reads back as the
      requested attachment. */
  lemma ServiceRoutesOneCall(f: Fields, connect: Connect, parse: ComposeParse)
    ensures var backend := connect(AuthOrEmpty(f.auth));
            var attach := Handle(NetworkAttachRoute, Success(f), connect, parse);
            && |attach.trace| == 1
            && attach.trace[0].argv == ["sdn"] + NetworkService.AttachArgs(f.vmid, f.network, f.tags, f.vlan)
            && (NetworkService.NoComma(f.tags) ==>
                  NetworkService.Parse(attach.trace[0].argv[1..])
                  == Some(NetworkService.Attach(f.vmid, f.network, f.tags.GetOr([]), f.vlan)))
            && attach.response == StatusReply(backend(attach.trace[0].argv))
    ensures var backend := connect(AuthOrEmpty(f.auth));
            var create := Handle(SubvolumeRoute, Success(f), connect, parse);
            && |create.trace| == 1
            && create.trace[0].argv == ["cephfs"] + StorageService.CreateSubvolumeArgs(f.subvolume, f.options)
            && create.response == StatusReply(backend(create.trace[0].argv))
    ensures var backend := connect(AuthOrEmpty(f.auth));
            var mount := Handle(MountRoute, Success(f), connect, parse);
            && |mount.trace| == 1
            && mount.trace[0].argv == ["cephfs"] + StorageService.MountArgs(f.vmid, f.target, f.subvolume, f.mode, f.options)
            && mount.response == StatusReply(backend(mount.trace[0].argv))
  {
    var attach := Handle(NetworkAttachRoute, Success(f), connect, parse);
    if NetworkService.NoComma(f.tags) {
      NetworkService.ParseAttach(f.vmid, f.network, f.tags, f.vlan);
    }
    assert attach.trace[0].argv[1..] == NetworkService.AttachArgs(f.vmid, f.network, f.tags, f.vlan);
  }
}

=== FILE: daemon_client.dfy ===
/** The daemon client: the attempt-and-retry decision of `request`, the
    run of attempts it makes, and the bodies `deploy`, `start` and `stop`
    send. The transport is left out: what an attempt gets back is a
    parameter. */
module DaemonClient {
  import opened Base
  import opened Document
  import Text
  import Assoc
  import ProxmoxClient
  import Daemon

  const DefaultRetries := 3

  /** The constructor's options; `retries ?? 3`, so an explicit 0 stays 0. */
  datatype ClientOptions = ClientOptions(baseUrl: Option<string>, socketPath: Option<string>, retries: Option<int>)

  function Retries(o: ClientOptions): (r: int)
    ensures o.retries.None? ==> r == DefaultRetries
    ensures o.retries.Some? ==> r == o.retries.value
  {
    o.retries.GetOr(DefaultRetries)
  }

  /** What one attempt gets back: a reply with its code and body text, or a
      connection error with its message. */
  datatype Received = Reply(code: int, body: string) | ConnectionError(message: string)

  /** `JSON.parse`; a failure is the message of what it throws. */
  type JsonParse = string -> Result<Value, string>

  datatype Decision =
    | Resolve(value: Value)
    | Retry(next: int, delay: int)
    | Reject(message: string)

  predicate IsSuccessCode(code: int) {
    code != 0 && 200 <= code < 300
  }

  predicate IsServerErrorCode(code: int) {
    code != 0 && code >= 500
  }

  /** The message of a rejected reply: its body, or `HTTP <code>` when the
      body is empty. */
  function RejectMessage(code: int, body: string): string {
    if body != "" then body else "HTTP " + Text.IntToDecimal(code)
  }

  /** The decision after attempt `n`: a 2xx reply resolves to the parsed
      body, or `{}` when it is empty; a 5xx reply or a connection error
      retries after `500 * n` ms while `n < retries`; anything else
      rejects. */
  function Decide(n: int, retries: int, received: Received, parse: JsonParse): (d: Decision)
    ensures d.Retry? <==> n < retries && (received.ConnectionError? || IsServerErrorCode(received.code))
    ensures d.Retry? ==> d.next == n + 1 && d.delay == 500 * n
    ensures received.Reply? && IsSuccessCode(received.code) ==>
              d == (if received.body == "" then Resolve(Obj([]))
                    else match parse(received.body)
                         case Success(v) => Resolve(v)
                         case Failure(e) => Reject(e))
    ensures received.Reply? && !IsSuccessCode(received.code) && !d.Retry? ==>
              d == Reject(RejectMessage(received.code, received.body))
    ensures received.ConnectionError? && !d.Retry? ==> d == Reject(received.message)
  {
    match received
    case Reply(code, body) =>
      if IsSuccessCode(code) then
        (if body == "" then Resolve(Obj([]))
         else
           var parsed := parse(body);
           if parsed.Success? then Resolve(parsed.value) else Reject(parsed.error))
      else if IsServerErrorCode(code) && n < retries then Retry(n + 1, 500 * n)
      else Reject(RejectMessage(code, body))
    case ConnectionError(message) =>
      if n < retries then Retry(n + 1, 500 * n) else Reject(message)
  }

  /** The attempts made, the delays waited between them, and the result. */
  datatype Run = Run(attempts: seq<int>, delays: seq<int>, result: Result<Value, string>)

  /** Attempt `n` and the ones it schedules; `world(k)` is what attempt `k`
      gets back. */
  function Attempt(n: int, retries: int, world: int -> Received, parse: JsonParse): Run
    decreases if retries > n then retries - n else 0
  {
    match Decide(n, retries, world(n), parse)
    case Retry(next, delay) =>
      var rest := Attempt(next, retries, world, parse);
      Run([n] + rest.attempts, [delay] + rest.delays, rest.result)
    case Resolve(v) => Run([n], [], Success(v))
    case Reject(m) => Run([n], [], Failure(m))
  }

  /** `request`: attempts numbered from 1. */
  function Request(retries: int, world: int -> Received, parse: JsonParse): Run {
    Attempt(1, retries, world, parse)
  }

  /** From attempt `n` on: the attempts are consecutive, at most
      `max(1, retries - n + 1)` of them; the delay before attempt `k + 1` is
      `500 * k`; every attempt but the last was a retry, and the result is
      the last attempt's decision. */
  lemma {:induction false} AttemptShape(n: int, retries: int, world: int -> Received, parse: JsonParse)
    ensures var r := Attempt(n, retries, world, parse);
            && |r.attempts| >= 1
            && |r.attempts| <= (if retries - n + 1 > 1 then retries - n + 1 else 1)
            && |r.delays| == |r.attempts| - 1
            && (forall i :: 0 <= i < |r.attempts| ==> r.attempts[i] == n + i)
            && (forall i :: 0 <= i < |r.delays| ==> r.delays[i] == 500 * (n + i))
            && (forall i :: 0 <= i < |r.attempts| - 1 ==> Decide(r.attempts[i], retries, world(r.attempts[i]), parse).Retry?)
            && var last := Decide(n + |r.attempts| - 1, retries, world(n + |r.attempts| - 1), parse);
               && !last.Retry?
               && r.result == (if last.Resolve? then Success(last.value) else Failure(last.message))
    decreases if retries > n then retries - n else 0
  {
    var d := Decide(n, retries, world(n), parse);
    if d.Retry? {
      AttemptShape(n + 1, retries, world, parse);
      var rest := Attempt(n + 1, retries, world, parse);
      var r := Attempt(n, retries, world, parse);
      assert r.attempts == [n] + rest.attempts;
      assert forall i :: 1 <= i < |r.attempts| ==> r.attempts[i] == rest.attempts[i - 1];
      assert forall i :: 1 <= i < |r.delays| ==> r.delays[i] == rest.delays[i - 1];
    }
  }

  /** A request makes at least one attempt and never more than the retry
      budget, or one when the budget is below 1. */
  lemma AttemptBudget(retries: int, world: int -> Received, parse: JsonParse)
    ensures var r := Request(retries, world, parse);
            1 <= |r.attempts| <= (if retries > 1 then retries else 1)
            && forall i :: 0 <= i < |r.attempts| ==> r.attempts[i] == i + 1
  {
    AttemptShape(1, retries, world, parse);
  }

  /** A reply that is neither 2xx nor 5xx is never retried: the request
      rejects at once with the body, or `HTTP <code>`. */
  lemma ClientErrorNotRetried(retries: int, world: int -> Received, parse: JsonParse)
    requires world(1).Reply? && !IsSuccessCode(world(1).code) && !IsServerErrorCode(world(1).code)
    ensures Request(retries, world, parse) == Run([1], [], Failure(RejectMessage(world(1).code, world(1).body)))
  {
  }

  /** When the daemon is unreachable every time, the client tries `retries`
      times and surfaces the last error. */
  lemma UnreachableSpendsBudget(retries: int, world: int -> Received, parse: JsonParse)
    requires retries >= 1
    requires forall k :: 1 <= k <= retries ==> world(k).ConnectionError?
    ensures var r := Request(retries, world, parse);
            && |r.attempts| == retries
            && r.result == Failure(world(retries).message)
  {
    AttemptShape(1, retries, world, parse);
    var r := Request(retries, world, parse);
    var last := |r.attempts|;
    assert !Decide(last, retries, world(last), parse).Retry?;
  }

  /** A 500 reply, which the daemon sends for any thrown error, is retried
      while budget remains; its 404 is not. */
  lemma DaemonErrorsAreRetried(n: int, retries: int, message: string, parse: JsonParse)
    requires n < retries
    ensures Decide(n, retries, Reply(500, "{\"error\":\"" + message + "\"}"), parse).Retry?
    ensures Decide(n, retries, Reply(404, ""), parse) == Reject("HTTP 404")
  {
    assert Text.IntToDecimal(404) == "404" by {
      Text.DigitsValueOfDecimal(404);
    }
  }

  /** A request body field. `JSON.stringify` leaves out fields whose value
      is undefined. */
  function Field(key: string, value: Option<Value>): seq<(string, Value)> {
    if value.Some? then [(key, value.value)] else []
  }

  function StrOf(s: Option<string>): Option<Value> {
    if s.Some? then Some(Str(s.value)) else None
  }

  /** The credentials as sent. */
  function AuthValue(auth: ProxmoxClient.Auth): Value {
    Obj(Field("host", StrOf(auth.host)) + Field("user", StrOf(auth.user)) + Field("password", StrOf(auth.password)))
  }

  /** A request: the path it POSTs to and the body it sends. */
  datatype Post = Post(path: string, body: Value)

  function Deploy(file: string, auth: ProxmoxClient.Auth, sdnNetwork: Option<string>, createSdn: Option<bool>): (p: Post)
    ensures p.path == "/deploy" && p.body.Obj?
    ensures Assoc.Keys(p.body.fields)
         == ["compose", "auth"] + (if sdnNetwork.Some? then ["sdnNetwork"] else [])
            + (if createSdn.Some? then ["createSdn"] else [])
    ensures Assoc.Get(p.body.fields, "compose") == Some(Str(file))
    ensures Assoc.Get(p.body.fields, "auth") == Some(AuthValue(auth))
    ensures Assoc.Get(p.body.fields, "sdnNetwork") == (if sdnNetwork.Some? then Some(Str(sdnNetwork.value)) else None)
    ensures Assoc.Get(p.body.fields, "createSdn") == (if createSdn.Some? then Some(Bool(createSdn.value)) else None)
  {
    var fields := [("compose", Str(file)), ("auth", AuthValue(auth))]
      + Field("sdnNetwork", StrOf(sdnNetwork))
      + Field("createSdn", if createSdn.Some? then Some(Bool(createSdn.value)) else None);
    KeysOfFields(file, auth, sdnNetwork, createSdn);
    ValuesOfFields(file, auth, sdnNetwork, createSdn);
    Post("/deploy", Obj(fields))
  }

  lemma ValuesOfFields(file: string, auth: ProxmoxClient.Auth, sdnNetwork: Option<string>, createSdn: Option<bool>)
    ensures var fields := [("compose", Str(file)), ("auth", AuthValue(auth))]
              + Field("sdnNetwork", StrOf(sdnNetwork))
              + Field("createSdn", if createSdn.Some? then Some(Bool(createSdn.value)) else None);
            && Assoc.Get(fields, "compose") == Some(Str(file))
            && Assoc.Get(fields, "auth") == Some(AuthValue(auth))
            && Assoc.Get(fields, "sdnNetwork") == (if sdnNetwork.Some? then Some(Str(sdnNetwork.value)) else None)
            && Assoc.Get(fields, "createSdn") == (if createSdn.Some? then Some(Bool(createSdn.value)) else None)
  {
    var a := [("compose", Str(file)), ("auth", AuthValue(auth))];
    var b := Field("sdnNetwork", StrOf(sdnNetwork));
    var c := Field("createSdn", if createSdn.Some? then Some(Bool(createSdn.value)) else None);
    var fields := a + b + c;
    assert fields[0] == ("compose", Str(file)) && fields[1] == ("auth", AuthValue(auth));
    var tail := fields[2..];
    assert fields[1..][1..] == tail;
    assert tail == b + c;
    assert Assoc.Get(fields, "sdnNetwork") == Assoc.Get(tail, "sdnNetwork");
    assert Assoc.Get(fields, "createSdn") == Assoc.Get(tail, "createSdn");
    if |c| > 0 {
      assert c[0] == ("createSdn", Bool(createSdn.value));
      assert c[1..] == [];
    }
    if |b| > 0 {
      assert tail[0] == ("sdnNetwork", Str(sdnNetwork.value));
      assert tail[1..] == c;
      assert Assoc.Get(tail, "createSdn") == Assoc.Get(c, "createSdn");
    } else {
      assert tail == c;
    }
  }

  lemma KeysOfFields(file: string, auth: ProxmoxClient.Auth, sdnNetwork: Option<string>, createSdn: Option<bool>)
    ensures var fields := [("compose", Str(file)), ("auth", AuthValue(auth))]
              + Field("sdnNetwork", StrOf(sdnNetwork))
              + Field("createSdn", if createSdn.Some? then Some(Bool(createSdn.value)) else None);
            Assoc.Keys(fields)
            == ["compose", "auth"] + (if sdnNetwork.Some? then ["sdnNetwork"] else [])
               + (if createSdn.Some? then ["createSdn"] else [])
  {
    var a := [("compose", Str(file)), ("auth", AuthValue(auth))];
    var b := Field("sdnNetwork", StrOf(sdnNetwork));
    var c := Field("createSdn", if createSdn.Some? then Some(Bool(createSdn.value)) else None);
    Assoc.KeysAppend(a, b);
    Assoc.KeysAppend(a + b, c);
    assert a[1..][1..] == [];
    if |b| > 0 {
      assert b[1..] == [];
    }
    if |c| > 0 {
      assert c[1..] == [];
    }
  }

  function Start(vmid: string, auth: ProxmoxClient.Auth): (p: Post)
    ensures p.path == "/start" && p.body == Obj([("vmid", Str(vmid)), ("auth", AuthValue(auth))])
  {
    Post("/start", Obj([("vmid", Str(vmid)), ("auth", AuthValue(auth))]))
  }

  function Stop(vmid: string, auth: ProxmoxClient.Auth): (p: Post)
    ensures p.path == "/stop" && p.body == Obj([("vmid", Str(vmid)), ("auth", AuthValue(auth))])
  {
    Post("/stop", Obj([("vmid", Str(vmid)), ("auth", AuthValue(auth))]))
  }

  /** Each client call reaches the daemon route of the same name. */
  lemma PostsReachTheirRoutes(file: string, vmid: string, auth: ProxmoxClient.Auth,
                              sdnNetwork: Option<string>, createSdn: Option<bool>)
    ensures Daemon.Dispatch("POST", Deploy(file, auth, sdnNetwork, createSdn).path) == Daemon.DeployRoute
    ensures Daemon.Dispatch("POST", Start(vmid, auth).path) == Daemon.StartRoute
    ensures Daemon.Dispatch("POST", Stop(vmid, auth).path) == Daemon.StopRoute
  {
  }
}

=== FILE: deployment.dfy ===
/** The deployment model and its call plan. A model is the services (in
    their enumeration order) and the volume table; the plan is the sequence
    of backend calls a deployment makes when every call succeeds; `RunAll`
    issues a plan and stops at the first non-zero status. Both deployment
    front ends are proved to behave as `RunAll(Plan(...))`. */
module Deployment {
  import opened Base
  import Assoc
  import ProxmoxClient
  import StorageService
  import NetworkService

  type Argv = ProxmoxClient.Argv
  type Invocation = ProxmoxClient.Invocation

  /** One `volumes:` entry of a service: which volume, where, and how. */
  datatype VolumeMount = VolumeMount(volume: string, target: string, mode: Option<string>)

  /** One entry of the volume table. */
  datatype VolumeDef = VolumeDef(subvolume: string, options: Option<StorageService.Options>, external: bool)

  datatype ServiceSpec = ServiceSpec(image: string, tags: Option<seq<string>>, vlan: Option<int>,
                                     volumes: seq<VolumeMount>)

  datatype Model = Model(services: seq<(string, ServiceSpec)>, volumes: seq<(string, VolumeDef)>)

  /** The request's overlay-network settings. */
  datatype Flags = Flags(sdnNetwork: Option<string>, createSdn: bool)

  /** A network name is acted on only when it is a non-empty string. */
  predicate HasNetwork(f: Flags) {
    f.sdnNetwork.Some? && f.sdnNetwork.value != ""
  }

  function SdnCreateCall(network: string): Argv {
    ["sdn", "create", network]
  }

  function CreateCall(def: VolumeDef): Argv {
    ["cephfs"] + StorageService.CreateSubvolumeArgs(def.subvolume, def.options)
  }

  function DeployCall(name: string, spec: ServiceSpec): Argv {
    ["deploy", name, spec.image]
  }

  function AttachCall(name: string, network: string, spec: ServiceSpec): Argv {
    ["sdn"] + NetworkService.AttachArgs(name, network, spec.tags, spec.vlan)
  }

  function MountCall(name: string, m: VolumeMount, def: VolumeDef): Argv {
    ["cephfs"] + StorageService.MountArgs(name, m.target, def.subvolume, m.mode, def.options)
  }

  /** The network creation, when a network is named and creation asked for. */
  function SdnPlan(f: Flags): seq<Argv> {
    if HasNetwork(f) && f.createSdn then [SdnCreateCall(f.sdnNetwork.value)] else []
  }

  /** One subvolume creation per non-external volume, in table order. */
  function VolumePlan(volumes: seq<(string, VolumeDef)>): seq<Argv> {
    if |volumes| == 0 then []
    else (if volumes[0].1.external then [] else [CreateCall(volumes[0].1)]) + VolumePlan(volumes[1..])
  }

  /** One mount per mount entry whose volume the table defines. */
  function MountPlan(name: string, mounts: seq<VolumeMount>, volumes: seq<(string, VolumeDef)>): seq<Argv> {
    if |mounts| == 0 then []
    else
      var def := Assoc.Get(volumes, mounts[0].volume);
      (if def.Some? then [MountCall(name, mounts[0], def.value)] else []) + MountPlan(name, mounts[1..], volumes)
  }

  function ServicePlan(name: string, spec: ServiceSpec, volumes: seq<(string, VolumeDef)>, f: Flags): seq<Argv> {
    [DeployCall(name, spec)]
      + (if HasNetwork(f) then [AttachCall(name, f.sdnNetwork.value, spec)] else [])
      + MountPlan(name, spec.volumes, volumes)
  }

  function ServicesPlan(services: seq<(string, ServiceSpec)>, volumes: seq<(string, VolumeDef)>, f: Flags): seq<Argv> {
    if |services| == 0 then []
    else ServicePlan(services[0].0, services[0].1, volumes, f) + ServicesPlan(services[1..], volumes, f)
  }

  /** The calls of a deployment in which every call succeeds. */
  function Plan(m: Model, f: Flags): seq<Argv> {
    SdnPlan(f) + VolumePlan(m.volumes) + ServicesPlan(m.services, m.volumes, f)
  }

  /** The calls issued and the final status. */
  datatype Outcome = Outcome(trace: seq<Invocation>, status: int)

  /** Issuing calls in order, stopping after the first non-zero status. */
  function RunAll(calls: seq<Argv>, backend: ProxmoxClient.Backend): (o: Outcome)
    ensures |o.trace| <= |calls|
  {
    if |calls| == 0 then Outcome([], 0)
    else
      var first := ProxmoxClient.Invocation(calls[0], backend(calls[0]));
      if first.status != 0 then Outcome([first], first.status)
      else
        var rest := RunAll(calls[1..], backend);
        Outcome([first] + rest.trace, rest.status)
  }

  /** The trace is a prefix of the calls with the statuses the backend
      returned; every call but the last returned 0; the status is 0 exactly
      when every call was issued and returned 0, and otherwise it is the
      last call's status. */
  lemma {:induction false} RunAllSpec(calls: seq<Argv>, backend: ProxmoxClient.Backend)
    ensures var o := RunAll(calls, backend);
            && (forall i :: 0 <= i < |o.trace| ==>
                  o.trace[i].argv == calls[i] && o.trace[i].status == backend(calls[i]))
            && (forall i :: 0 <= i < |o.trace| - 1 ==> o.trace[i].status == 0)
            && (o.status == 0 <==> |o.trace| == |calls| && forall i :: 0 <= i < |o.trace| ==> o.trace[i].status == 0)
            && (o.status != 0 ==> |o.trace| > 0 && o.status == o.trace[|o.trace| - 1].status)
  {
    if |calls| > 0 && backend(calls[0]) == 0 {
      RunAllSpec(calls[1..], backend);
      var o := RunAll(calls, backend);
      var rest := RunAll(calls[1..], backend);
      assert o.trace == [ProxmoxClient.Invocation(calls[0], 0)] + rest.trace;
      assert forall i :: 1 <= i < |o.trace| ==> o.trace[i] == rest.trace[i - 1] && calls[i] == calls[1..][i - 1];
    }
  }

  /** Running one stage and then, only if it ended with status 0, the next;
      the early `return` of each stage of a deployment. */
  function Chain(first: Outcome, next: Outcome): Outcome {
    if first.status != 0 then first else Outcome(first.trace + next.trace, next.status)
  }

  /** Issuing `a ++ b` is issuing `a` and, only if that ended with status 0,
      then issuing `b`. */
  lemma {:induction false} RunAllAppend(a: seq<Argv>, b: seq<Argv>, backend: ProxmoxClient.Backend)
    ensures RunAll(a + b, backend) == Chain(RunAll(a, backend), RunAll(b, backend))
  {
    if |a| == 0 {
      assert a + b == b;
    } else {
      assert (a + b)[0] == a[0];
      assert (a + b)[1..] == a[1..] + b;
      if backend(a[0]) == 0 {
        RunAllAppend(a[1..], b, backend);
      }
    }
  }

  /** One more call after a run of calls that all returned 0. */
  lemma RunAllStep(done: seq<Argv>, call: Argv, backend: ProxmoxClient.Backend)
    requires RunAll(done, backend).status == 0
    ensures RunAll(done + [call], backend)
         == Outcome(RunAll(done, backend).trace + [ProxmoxClient.Invocation(call, backend(call))], backend(call))
  {
    RunAllAppend(done, [call], backend);
    assert [call][1..] == [];
  }

  /** After a non-zero status nothing further is issued. */
  lemma RunAllStops(a: seq<Argv>, b: seq<Argv>, backend: ProxmoxClient.Backend)
    requires RunAll(a, backend).status != 0
    ensures RunAll(a + b, backend) == RunAll(a, backend)
  {
    RunAllAppend(a, b, backend);
  }

  /** A run that so far returned only 0s, followed by another run. */
  lemma RunAllExtend(done: seq<Argv>, x: seq<Argv>, backend: ProxmoxClient.Backend,
                     trace: seq<Invocation>, t: seq<Invocation>, c: int)
    requires RunAll(done, backend) == Outcome(trace, 0)
    requires RunAll(x, backend) == Outcome(t, c)
    ensures RunAll(done + x, backend) == Outcome(trace + t, c)
  {
    RunAllAppend(done, x, backend);
  }

  predicate IsDeploy(argv: Argv) {
    |argv| > 0 && argv[0] == "deploy"
  }

  predicate IsCreate(argv: Argv) {
    |argv| >= 3 && argv[0] == "cephfs" && argv[1] == "subvolume" && argv[2] == "create"
  }

  lemma {:induction false} VolumePlanAppend(a: seq<(string, VolumeDef)>, b: seq<(string, VolumeDef)>)
    ensures VolumePlan(a + b) == VolumePlan(a) + VolumePlan(b)
  {
    if |a| == 0 {
      assert a + b == b;
    } else {
      assert (a + b)[0] == a[0];
      assert (a + b)[1..] == a[1..] + b;
      VolumePlanAppend(a[1..], b);
    }
  }

  /** An external volume is never created; any other volume is created once,
      at its place in the table. */
  lemma VolumeEntryPlan(a: seq<(string, VolumeDef)>, key: string, def: VolumeDef, b: seq<(string, VolumeDef)>)
    ensures def.external ==> VolumePlan(a + [(key, def)] + b) == VolumePlan(a) + VolumePlan(b)
    ensures !def.external ==> VolumePlan(a + [(key, def)] + b) == VolumePlan(a) + [CreateCall(def)] + VolumePlan(b)
  {
    VolumePlanAppend(a + [(key, def)], b);
    VolumePlanAppend(a, [(key, def)]);
    VolumePlanOne(key, def);
    assert VolumePlan(a) + [] == VolumePlan(a);
  }

  lemma VolumePlanOne(key: string, def: VolumeDef)
    ensures VolumePlan([(key, def)]) == if def.external then [] else [CreateCall(def)]
  {
    assert [(key, def)][1..] == [];
  }

  lemma {:induction false} MountPlanAppend(name: string, a: seq<VolumeMount>, b: seq<VolumeMount>,
                                           volumes: seq<(string, VolumeDef)>)
    ensures MountPlan(name, a + b, volumes) == MountPlan(name, a, volumes) + MountPlan(name, b, volumes)
  {
    if |a| == 0 {
      assert a + b == b;
    } else {
      assert (a + b)[0] == a[0];
      assert (a + b)[1..] == a[1..] + b;
      MountPlanAppend(name, a[1..], b, volumes);
    }
  }

  /** A mount naming a volume the table does not define is skipped; any
      other mount is one `mount` call with that volume's subvolume and
      options and the mount's own target and mode. */
  lemma MountEntryPlan(name: string, a: seq<VolumeMount>, m: VolumeMount, b: seq<VolumeMount>,
                       volumes: seq<(string, VolumeDef)>)
    ensures m.volume !in Assoc.Keys(volumes) ==>
              MountPlan(name, a + [m] + b, volumes) == MountPlan(name, a, volumes) + MountPlan(name, b, volumes)
    ensures m.volume in Assoc.Keys(volumes) ==>
              MountPlan(name, a + [m] + b, volumes)
              == MountPlan(name, a, volumes) + [MountCall(name, m, Assoc.Get(volumes, m.volume).value)]
                 + MountPlan(name, b, volumes)
  {
    MountPlanAppend(name, a + [m], b, volumes);
    MountPlanAppend(name, a, [m], volumes);
    MountPlanOne(name, m, volumes);
    assert MountPlan(name, a, volumes) + [] == MountPlan(name, a, volumes);
  }

  lemma MountPlanOne(name: string, m: VolumeMount, volumes: seq<(string, VolumeDef)>)
    ensures var def := Assoc.Get(volumes, m.volume);
            MountPlan(name, [m], volumes) == if def.Some? then [MountCall(name, m, def.value)] else []
  {
    assert [m][1..] == [];
  }

  /** One step of the mount loop: the plan of the remaining mounts is the
      current mount's plan, then the rest. */
  lemma MountPlanStep(name: string, mounts: seq<VolumeMount>, k: nat, volumes: seq<(string, VolumeDef)>)
    requires k < |mounts|
    ensures MountPlan(name, mounts[k..], volumes)
         == MountPlan(name, [mounts[k]], volumes) + MountPlan(name, mounts[k + 1..], volumes)
  {
    assert mounts[k..][1..] == mounts[k + 1..];
    MountPlanOne(name, mounts[k], volumes);
  }

  /** One step of the volume loop, likewise. */
  lemma VolumePlanStep(volumes: seq<(string, VolumeDef)>, i: nat)
    requires i < |volumes|
    ensures VolumePlan(volumes[i..]) == VolumePlan([volumes[i]]) + VolumePlan(volumes[i + 1..])
  {
    assert volumes[i..][1..] == volumes[i + 1..];
    VolumePlanOne(volumes[i].0, volumes[i].1);
  }

  lemma {:induction false} ServicesPlanAppend(a: seq<(string, ServiceSpec)>, b: seq<(string, ServiceSpec)>,
                                              volumes: seq<(string, VolumeDef)>, f: Flags)
    ensures ServicesPlan(a + b, volumes, f) == ServicesPlan(a, volumes, f) + ServicesPlan(b, volumes, f)
  {
    if |a| == 0 {
      assert a + b == b;
    } else {
      assert (a + b)[0] == a[0];
      assert (a + b)[1..] == a[1..] + b;
      ServicesPlanAppend(a[1..], b, volumes, f);
    }
  }

  lemma {:induction false} VolumePlanCreates(volumes: seq<(string, VolumeDef)>)
    ensures forall i :: 0 <= i < |VolumePlan(volumes)| ==> IsCreate(VolumePlan(volumes)[i])
  {
    if |volumes| > 0 {
      VolumePlanCreates(volumes[1..]);
      var head := if volumes[0].1.external then [] else [CreateCall(volumes[0].1)];
      assert VolumePlan(volumes) == head + VolumePlan(volumes[1..]);
    }
  }

  lemma {:induction false} MountPlanNeither(name: string, mounts: seq<VolumeMount>, volumes: seq<(string, VolumeDef)>)
    ensures forall i :: 0 <= i < |MountPlan(name, mounts, volumes)| ==>
              !IsCreate(MountPlan(name, mounts, volumes)[i]) && !IsDeploy(MountPlan(name, mounts, volumes)[i])
  {
    if |mounts| > 0 {
      MountPlanNeither(name, mounts[1..], volumes);
    }
  }

  lemma {:induction false} ServicesPlanCreatesNothing(services: seq<(string, ServiceSpec)>,
                                                      volumes: seq<(string, VolumeDef)>, f: Flags)
    ensures forall i :: 0 <= i < |ServicesPlan(services, volumes, f)| ==> !IsCreate(ServicesPlan(services, volumes, f)[i])
  {
    if |services| > 0 {
      ServicesPlanCreatesNothing(services[1..], volumes, f);
      MountPlanNeither(services[0].0, services[0].1.volumes, volumes);
    }
  }

  /** Every subvolume creation comes before the first deployment: no call
      after a `deploy` creates a subvolume, and every call before the first
      `deploy` other than the network creation is a subvolume creation. */
  lemma CreatesPrecedeDeploys(m: Model, f: Flags)
    ensures var plan := Plan(m, f);
            forall i, j :: 0 <= i < j < |plan| && IsDeploy(plan[i]) ==> !IsCreate(plan[j])
    ensures var plan := Plan(m, f);
            forall i :: |SdnPlan(f)| <= i < |SdnPlan(f) + VolumePlan(m.volumes)| ==> IsCreate(plan[i])
  {
    var head := SdnPlan(f) + VolumePlan(m.volumes);
    var tail := ServicesPlan(m.services, m.volumes, f);
    VolumePlanCreates(m.volumes);
    ServicesPlanCreatesNothing(m.services, m.volumes, f);
    assert forall i :: 0 <= i < |head| ==> !IsDeploy(head[i]) by {
      forall i | 0 <= i < |head| ensures !IsDeploy(head[i]) {
        if i >= |SdnPlan(f)| {
          assert head[i] == VolumePlan(m.volumes)[i - |SdnPlan(f)|];
        }
      }
    }
    assert forall j :: |head| <= j < |head + tail| ==> (head + tail)[j] == tail[j - |head|];
  }

  /** A deployment is issued only once the network creation (if any) and
      every subvolume creation have been issued and returned 0. */
  lemma DeployFollowsReadyStorage(m: Model, f: Flags, backend: ProxmoxClient.Backend, i: nat)
    requires i < |RunAll(Plan(m, f), backend).trace|
    requires IsDeploy(RunAll(Plan(m, f), backend).trace[i].argv)
    ensures |SdnPlan(f) + VolumePlan(m.volumes)| <= i
    ensures forall j :: 0 <= j < |SdnPlan(f) + VolumePlan(m.volumes)| ==>
              RunAll(Plan(m, f), backend).trace[j].argv == Plan(m, f)[j]
              && RunAll(Plan(m, f), backend).trace[j].status == 0
  {
    CreatesPrecedeDeploys(m, f);
    RunAllSpec(Plan(m, f), backend);
  }

  /** When the network is to be created it is the first call, and a
      non-zero status from it ends the deployment with that status. */
  lemma FailedNetworkCreationAborts(m: Model, f: Flags, backend: ProxmoxClient.Backend)
    requires HasNetwork(f) && f.createSdn
    ensures Plan(m, f)[0] == SdnCreateCall(f.sdnNetwork.value)
    ensures var call := SdnCreateCall(f.sdnNetwork.value);
            backend(call) != 0 ==>
              RunAll(Plan(m, f), backend) == Outcome([ProxmoxClient.Invocation(call, backend(call))], backend(call))
  {
  }

  /** The deployments among the calls, in order. */
  function Deploys(calls: seq<Argv>): seq<Argv> {
    if |calls| == 0 then [] else (if IsDeploy(calls[0]) then [calls[0]] else []) + Deploys(calls[1..])
  }

  lemma {:induction false} DeploysAppend(a: seq<Argv>, b: seq<Argv>)
    ensures Deploys(a + b) == Deploys(a) + Deploys(b)
  {
    if |a| == 0 {
      assert a + b == b;
    } else {
      assert (a + b)[0] == a[0];
      assert (a + b)[1..] == a[1..] + b;
      DeploysAppend(a[1..], b);
    }
  }

  lemma {:induction false} NoDeploys(calls: seq<Argv>)
    requires forall i :: 0 <= i < |calls| ==> !IsDeploy(calls[i])
    ensures Deploys(calls) == []
  {
    if |calls| > 0 {
      NoDeploys(calls[1..]);
    }
  }

  /** One `deploy` call per service, in the services' enumeration order,
      with its name and image. */
  lemma {:induction false} EveryServiceDeployedInOrder(m: Model, f: Flags)
    ensures Deploys(Plan(m, f))
         == seq(|m.services|, i requires 0 <= i < |m.services| => DeployCall(m.services[i].0, m.services[i].1))
  {
    VolumePlanCreates(m.volumes);
    NoDeploys(SdnPlan(f));
    NoDeploys(VolumePlan(m.volumes));
    DeploysAppend(SdnPlan(f), VolumePlan(m.volumes));
    DeploysAppend(SdnPlan(f) + VolumePlan(m.volumes), ServicesPlan(m.services, m.volumes, f));
    ServicesDeployed(m.services, m.volumes, f);
  }

  lemma {:induction false} ServicesDeployed(services: seq<(string, ServiceSpec)>, volumes: seq<(string, VolumeDef)>, f: Flags)
    ensures Deploys(ServicesPlan(services, volumes, f))
         == seq(|services|, i requires 0 <= i < |services| => DeployCall(services[i].0, services[i].1))
  {
    if |services| > 0 {
      var name := services[0].0;
      var spec := services[0].1;
      var attach := if HasNetwork(f) then [AttachCall(name, f.sdnNetwork.value, spec)] else [];
      var mounts := MountPlan(name, spec.volumes, volumes);
      MountPlanNeither(name, spec.volumes, volumes);
      NoDeploys(attach);
      NoDeploys(mounts);
      assert [DeployCall(name, spec)][1..] == [];
      assert Deploys([DeployCall(name, spec)]) == [DeployCall(name, spec)];
      DeploysAppend([DeployCall(name, spec)], attach);
      DeploysAppend([DeployCall(name, spec)] + attach, mounts);
      DeploysAppend(ServicePlan(name, spec, volumes, f), ServicesPlan(services[1..], volumes, f));
      ServicesDeployed(services[1..], volumes, f);
    }
  }
}

=== FILE: document.dfy ===
/** A decoded YAML or JSON document: the value `yaml.load`, `yaml.safe_load`
    and `JSON.parse` hand to the code. Mappings keep their enumeration order
    and have string keys; numbers are integers. */
module Document {

  datatype Value =
    | Null
    | Bool(b: bool)
    | Num(n: int)
    | Str(s: string)
    | Arr(items: seq<Value>)
    | Obj(fields: seq<(string, Value)>)
}

=== FILE: js_runtime.dfy ===
/** The slice of JavaScript semantics the TypeScript sources lean on:
    `String(v)`, `parseInt(s, 10)`, property reads and optional chaining,
    `Object.entries`, `Array.isArray` and truthiness. `None` is `undefined`. */
module JsRuntime {
  import opened Base
  import opened Document
  import Text
  import Assoc

  /** `String(v)`. Arrays join their elements with "," and render
      `null` elements as the empty string. */
  function ToString(v: Value): string
    decreases v
  {
    match v
    case Null => "null"
    case Bool(b) => if b then "true" else "false"
    case Num(n) => Text.IntToDecimal(n)
    case Str(s) => s
    case Arr(items) =>
      Text.Join(seq(|items|, i requires 0 <= i < |items| =>
                      if items[i].Null? then "" else ToString(items[i])), ",")
    case Obj(_) => "[object Object]"
  }

  /** White space and line terminators, which `parseInt` skips at the start. */
  predicate IsSpace(c: char) {
    || c == ' ' || c == '\t' || c == '\n' || c == '\r' || c == '\U{0B}' || c == '\U{0C}'
    || c == '\U{A0}' || c == '\U{FEFF}' || c == '\U{1680}' || ('\U{2000}' <= c <= '\U{200A}')
    || c == '\U{2028}' || c == '\U{2029}' || c == '\U{202F}' || c == '\U{205F}' || c == '\U{3000}'
  }

  function TrimStart(s: string): (t: string)
    ensures |t| <= |s| && t == s[|s| - |t|..]
    ensures |t| > 0 ==> !IsSpace(t[0])
  {
    if |s| > 0 && IsSpace(s[0]) then TrimStart(s[1..]) else s
  }

  /** The longest prefix of decimal digits. */
  function DigitPrefix(s: string): (d: string)
    ensures |d| <= |s| && d == s[..|d|] && Text.AllDigits(d)
    ensures |d| < |s| ==> !Text.IsDigit(s[|d|])
  {
    if |s| > 0 && Text.IsDigit(s[0]) then [s[0]] + DigitPrefix(s[1..]) else ""
  }

  /** `parseInt(s, 10)`; `None` is `NaN`. Leading space is skipped, one sign
      is read, then the longest run of digits; the rest is ignored. */
  function ParseInt(s: string): Option<int> {
    ParseSigned(TrimStart(s))
  }

  /** `parseInt` after the leading space: an optional sign, then digits. */
  function ParseSigned(t: string): Option<int> {
    var negative := |t| > 0 && t[0] == '-';
    var body := if |t| > 0 && (t[0] == '-' || t[0] == '+') then t[1..] else t;
    var digits := DigitPrefix(body);
    if |digits| == 0 then None
    else
      var magnitude: int := Text.DigitsValue(digits);
      Some(if negative then -magnitude else magnitude)
  }

  lemma DigitPrefixOfDigits(s: string)
    requires Text.AllDigits(s)
    ensures DigitPrefix(s) == s
  {
    if |s| > 0 {
      DigitPrefixOfDigits(s[1..]);
    }
  }

  /** `parseInt(String(n), 10)` gives `n` back. */
  lemma ParseIntOfDecimal(n: int)
    ensures ParseInt(Text.IntToDecimal(n)) == Some(n)
  {
    if n < 0 {
      Text.NegativeDecimal(n);
      ParseIntOfNegative(Text.IntToDecimal(n), -n);
    } else {
      ParseIntUnsigned(Text.NatToDecimal(n));
      Text.DigitsValueOfDecimal(n);
    }
  }

  lemma ParseIntOfNegative(s: string, m: nat)
    requires |s| > 1 && s[0] == '-' && s[1..] == Text.NatToDecimal(m)
    ensures ParseInt(s) == Some(-(m as int))
  {
    ParseIntSigned(s);
    Text.DigitsValueOfDecimal(m);
  }

  lemma ParseIntUnsigned(d: string)
    requires |d| > 0 && Text.AllDigits(d)
    ensures ParseInt(d) == Some(Text.DigitsValue(d))
  {
    TrimStartNoSpace(d);
    DigitPrefixOfDigits(d);
    ParseSignedDigits(d, Text.DigitsValue(d));
  }

  /** A minus sign followed by digits reads as the negated digits. */
  lemma ParseIntSigned(s: string)
    requires |s| > 1 && s[0] == '-' && Text.AllDigits(s[1..])
    ensures ParseInt(s) == Some(-(Text.DigitsValue(s[1..]) as int))
  {
    TrimStartNoSpace(s);
    DigitPrefixOfDigits(s[1..]);
    ParseSignedMinus(s, Text.DigitsValue(s[1..]));
  }

  lemma ParseSignedDigits(t: string, v: nat)
    requires |t| > 0 && Text.IsDigit(t[0]) && DigitPrefix(t) == t && Text.DigitsValue(t) == v
    ensures ParseSigned(t) == Some(v)
  {
  }

  lemma ParseSignedMinus(t: string, v: nat)
    requires |t| > 1 && t[0] == '-' && DigitPrefix(t[1..]) == t[1..] && Text.DigitsValue(t[1..]) == v
    ensures ParseSigned(t) == Some(-(v as int))
  {
  }

  /** Text that starts with neither space, a sign nor a digit reads as `NaN`. */
  lemma ParseIntNoDigit(s: string)
    requires |s| > 0 && !IsSpace(s[0]) && !Text.IsDigit(s[0]) && s[0] != '-' && s[0] != '+'
    ensures ParseInt(s) == None
  {
    assert TrimStart(s) == s;
    assert DigitPrefix(s) == "";
  }

  lemma TrimStartNoSpace(s: string)
    requires |s| > 0 && (s[0] == '-' || Text.IsDigit(s[0]))
    ensures TrimStart(s) == s
  {
    assert !IsSpace(s[0]);
  }

  /** `v.key` on a value that is neither `null` nor `undefined`. Only plain
      objects carry the named keys the sources read. */
  function Prop(v: Value, key: string): Option<Value>
    requires !v.Null?
  {
    if v.Obj? then Assoc.Get(v.fields, key) else None
  }

  predicate IsNullish(v: Option<Value>) {
    v.None? || v.value.Null?
  }

  /** `v?.key`. */
  function OptionalProp(v: Option<Value>, key: string): Option<Value> {
    if IsNullish(v) then None else Prop(v.value, key)
  }

  predicate IsArray(v: Option<Value>) {
    v.Some? && v.value.Arr?
  }

  /** `Object.entries(v)`: arrays and strings enumerate their indices,
      other primitives have no own properties, `null` throws. */
  function Entries(v: Value): Result<seq<(string, Value)>, string> {
    match v
    case Null => Failure("Cannot convert undefined or null to object")
    case Obj(fs) => Success(fs)
    case Arr(items) => Success(seq(|items|, i requires 0 <= i < |items| => (Text.IntToDecimal(i), items[i])))
    case Str(s) => Success(seq(|s|, i requires 0 <= i < |s| => (Text.IntToDecimal(i), Str([s[i]]))))
    case _ => Success([])
  }

  predicate Truthy(v: Option<Value>) {
    match v
    case None => false
    case Some(Null) => false
    case Some(Bool(b)) => b
    case Some(Num(n)) => n != 0
    case Some(Str(s)) => s != ""
    case Some(_) => true
  }
}

=== FILE: network_service.dfy ===
/** The overlay-network service: the `sdn` sub-command argument vectors of
    attach, detach, create, delete and interface configuration, each issued
    as one backend call. No tag, VLAN or address is validated here.

    `Parse` reads such an argument vector back as a request; the round-trip
    lemmas show that each builder puts every value where the reader finds
    it, emits a flag exactly when the builder's condition holds, and keeps
    the flags in their fixed order. */
module NetworkService {
  import opened Base
  import Text
  import JsRuntime
  import ProxmoxClient

  /** `[flag, value]` when the value is defined. */
  function TextFlag(flag: string, value: Option<string>): seq<string> {
    if value.Some? then [flag, value.value] else []
  }

  /** `[flag, String(n)]` when the number is defined (zero included). */
  function NumberFlag(flag: string, n: Option<int>): seq<string> {
    if n.Some? then [flag, Text.IntToDecimal(n.value)] else []
  }

  /** `[flag, items.join(',')]` when the list is defined and non-empty. */
  function ListFlag(flag: string, items: Option<seq<string>>): seq<string> {
    if items.Some? && |items.value| > 0 then [flag, Text.Join(items.value, ",")] else []
  }

  function AttachArgs(vmid: string, network: string, tags: Option<seq<string>>, vlan: Option<int>): (args: seq<string>)
    ensures |args| >= 3 && args[..3] == ["attach", vmid, network]
  {
    ["attach", vmid, network] + ListFlag("--tags", tags) + NumberFlag("--vlan", vlan)
  }

  function DetachArgs(vmid: string, network: string): seq<string> {
    ["detach", vmid, network]
  }

  function CreateNetworkArgs(name: string, zone: Option<string>, vlan: Option<int>): (args: seq<string>)
    ensures |args| >= 2 && args[..2] == ["create", name]
  {
    ["create", name] + TextFlag("--zone", zone) + NumberFlag("--vlan", vlan)
  }

  function DeleteNetworkArgs(name: string): seq<string> {
    ["delete", name]
  }

  function ConfigureInterfaceArgs(iface: string, ip: Option<string>, mtu: Option<int>,
                                  acls: Option<seq<string>>): (args: seq<string>)
    ensures |args| >= 2 && args[..2] == ["iface", iface]
  {
    ["iface", iface] + TextFlag("--ip", ip) + NumberFlag("--mtu", mtu) + ListFlag("--acl", acls)
  }

  /** `attachToSDN`: one `sdn` call, whose status is the result. */
  function AttachToSdn(backend: ProxmoxClient.Backend, vmid: string, network: string,
                       tags: Option<seq<string>>, vlan: Option<int>): (r: ProxmoxClient.Invocation)
    ensures r.argv == ["sdn"] + AttachArgs(vmid, network, tags, vlan)
    ensures r.status == backend(r.argv)
  {
    ProxmoxClient.Call(backend, "sdn", AttachArgs(vmid, network, tags, vlan))
  }

  /** `detachFromSDN`: one `sdn` call, whose status is the result. */
  function DetachFromSdn(backend: ProxmoxClient.Backend, vmid: string, network: string): (r: ProxmoxClient.Invocation)
    ensures r.argv == ["sdn", "detach", vmid, network]
    ensures r.status == backend(r.argv)
  {
    ProxmoxClient.Call(backend, "sdn", DetachArgs(vmid, network))
  }

  /** `createNetwork`: one `sdn` call, whose status is the result. */
  function CreateNetwork(backend: ProxmoxClient.Backend, name: string,
                         zone: Option<string>, vlan: Option<int>): (r: ProxmoxClient.Invocation)
    ensures r.argv == ["sdn"] + CreateNetworkArgs(name, zone, vlan)
    ensures r.status == backend(r.argv)
  {
    ProxmoxClient.Call(backend, "sdn", CreateNetworkArgs(name, zone, vlan))
  }

  /** `deleteNetwork`: one `sdn` call, whose status is the result. */
  function DeleteNetwork(backend: ProxmoxClient.Backend, name: string): (r: ProxmoxClient.Invocation)
    ensures r.argv == ["sdn", "delete", name]
    ensures r.status == backend(r.argv)
  {
    ProxmoxClient.Call(backend, "sdn", DeleteNetworkArgs(name))
  }

  /** `configureInterface`: one `sdn` call, whose status is the result. */
  function ConfigureInterface(backend: ProxmoxClient.Backend, iface: string, ip: Option<string>,
                              mtu: Option<int>, acls: Option<seq<string>>): (r: ProxmoxClient.Invocation)
    ensures r.argv == ["sdn"] + ConfigureInterfaceArgs(iface, ip, mtu, acls)
    ensures r.status == backend(r.argv)
  {
    ProxmoxClient.Call(backend, "sdn", ConfigureInterfaceArgs(iface, ip, mtu, acls))
  }

  /** An `sdn` request as the argument vector describes it. An absent or
      empty list reads as the empty list. */
  datatype SdnRequest =
    | Attach(vmid: string, network: string, tags: seq<string>, vlan: Option<int>)
    | Detach(vmid: string, network: string)
    | Create(name: string, zone: Option<string>, vlan: Option<int>)
    | Delete(name: string)
    | Iface(iface: string, ip: Option<string>, mtu: Option<int>, acls: seq<string>)

  /** The value of `flag` if the remaining arguments start with it, and
      what follows. */
  function TakeFlag(rest: seq<string>, flag: string): (Option<string>, seq<string>) {
    if |rest| >= 2 && rest[0] == flag then (Some(rest[1]), rest[2..]) else (None, rest)
  }

  /** An optional number: `Some(None)` when absent, `None` when unreadable. */
  function ReadNumber(text: Option<string>): Option<Option<int>> {
    if text.None? then Some(None)
    else
      var n := JsRuntime.ParseInt(text.value);
      if n.Some? then Some(Some(n.value)) else None
  }

  function ReadList(text: Option<string>): seq<string> {
    if text.None? then [] else Text.Split(text.value, ',')
  }

  function ReadAttach(vmid: string, network: string, rest: seq<string>): Option<SdnRequest> {
    var tags := TakeFlag(rest, "--tags");
    var vlan := TakeFlag(tags.1, "--vlan");
    var n := ReadNumber(vlan.0);
    if vlan.1 == [] && n.Some? then Some(Attach(vmid, network, ReadList(tags.0), n.value)) else None
  }

  function ReadCreate(name: string, rest: seq<string>): Option<SdnRequest> {
    var zone := TakeFlag(rest, "--zone");
    var vlan := TakeFlag(zone.1, "--vlan");
    var n := ReadNumber(vlan.0);
    if vlan.1 == [] && n.Some? then Some(Create(name, zone.0, n.value)) else None
  }

  function ReadIface(iface: string, rest: seq<string>): Option<SdnRequest> {
    var ip := TakeFlag(rest, "--ip");
    var mtu := TakeFlag(ip.1, "--mtu");
    var acl := TakeFlag(mtu.1, "--acl");
    var n := ReadNumber(mtu.0);
    if acl.1 == [] && n.Some? then Some(Iface(iface, ip.0, n.value, ReadList(acl.0))) else None
  }

  /** Reads an `sdn` argument vector: the verb, its positional values, then
      its flags in their fixed order, with nothing left over. */
  function Parse(args: seq<string>): Option<SdnRequest> {
    if |args| == 0 then None
    else if args[0] == "attach" && |args| >= 3 then ReadAttach(args[1], args[2], args[3..])
    else if args[0] == "detach" && |args| == 3 then Some(Detach(args[1], args[2]))
    else if args[0] == "create" && |args| >= 2 then ReadCreate(args[1], args[2..])
    else if args[0] == "delete" && |args| == 2 then Some(Delete(args[1]))
    else if args[0] == "iface" && |args| >= 2 then ReadIface(args[1], args[2..])
    else None
  }

  predicate NoComma(items: Option<seq<string>>) {
    items.Some? ==> forall i :: 0 <= i < |items.value| ==> ',' !in items.value[i]
  }

  lemma TakeTextFlag(flag: string, value: Option<string>, rest: seq<string>)
    requires |rest| > 0 ==> rest[0] != flag
    ensures TakeFlag(TextFlag(flag, value) + rest, flag) == (value, rest)
  {
    if value.Some? {
      assert (TextFlag(flag, value) + rest)[2..] == rest;
    } else {
      assert TextFlag(flag, value) + rest == rest;
    }
  }

  lemma TakeNumberFlag(flag: string, n: Option<int>, rest: seq<string>)
    requires |rest| > 0 ==> rest[0] != flag
    ensures var t := TakeFlag(NumberFlag(flag, n) + rest, flag);
            ReadNumber(t.0) == Some(n) && t.1 == rest
  {
    if n.Some? {
      assert (NumberFlag(flag, n) + rest)[2..] == rest;
      JsRuntime.ParseIntOfDecimal(n.value);
    } else {
      assert NumberFlag(flag, n) + rest == rest;
    }
  }

  lemma TakeListFlag(flag: string, items: Option<seq<string>>, rest: seq<string>)
    requires NoComma(items)
    requires |rest| > 0 ==> rest[0] != flag
    ensures var t := TakeFlag(ListFlag(flag, items) + rest, flag);
            ReadList(t.0) == items.GetOr([]) && t.1 == rest
  {
    if items.Some? && |items.value| > 0 {
      assert (ListFlag(flag, items) + rest)[2..] == rest;
      Text.SplitJoin(items.value, ',');
    } else {
      assert ListFlag(flag, items) + rest == rest;
    }
  }

  /** Attach: the tags come back (absent or empty as the empty list) and the
      VLAN comes back, zero included. */
  lemma ParseAttach(vmid: string, network: string, tags: Option<seq<string>>, vlan: Option<int>)
    requires NoComma(tags)
    ensures Parse(AttachArgs(vmid, network, tags, vlan)) == Some(Attach(vmid, network, tags.GetOr([]), vlan))
  {
    var args := AttachArgs(vmid, network, tags, vlan);
    var t := ListFlag("--tags", tags);
    var v := NumberFlag("--vlan", vlan);
    assert args[3..] == t + v;
    assert "--vlan" != "--tags";
    TakeListFlag("--tags", tags, v);
    TakeNumberFlag("--vlan", vlan, []);
    assert v + [] == v;
    assert ReadAttach(vmid, network, args[3..]) == Some(Attach(vmid, network, tags.GetOr([]), vlan));
  }

  lemma ParseDetach(vmid: string, network: string)
    ensures Parse(DetachArgs(vmid, network)) == Some(Detach(vmid, network))
  {
  }

  /** Create: the zone and the VLAN come back. */
  lemma ParseCreate(name: string, zone: Option<string>, vlan: Option<int>)
    ensures Parse(CreateNetworkArgs(name, zone, vlan)) == Some(Create(name, zone, vlan))
  {
    var args := CreateNetworkArgs(name, zone, vlan);
    var z := TextFlag("--zone", zone);
    var v := NumberFlag("--vlan", vlan);
    assert args[2..] == z + v;
    assert "--vlan" != "--zone";
    TakeTextFlag("--zone", zone, v);
    TakeNumberFlag("--vlan", vlan, []);
    assert v + [] == v;
    assert ReadCreate(name, args[2..]) == Some(Create(name, zone, vlan));
  }

  lemma ParseDelete(name: string)
    ensures Parse(DeleteNetworkArgs(name)) == Some(Delete(name))
  {
  }

  /** Interface configuration: address, MTU and access lists come back. */
  lemma ParseIface(iface: string, ip: Option<string>, mtu: Option<int>, acls: Option<seq<string>>)
    requires NoComma(acls)
    ensures Parse(ConfigureInterfaceArgs(iface, ip, mtu, acls)) == Some(Iface(iface, ip, mtu, acls.GetOr([])))
  {
    var args := ConfigureInterfaceArgs(iface, ip, mtu, acls);
    var i := TextFlag("--ip", ip);
    var m := NumberFlag("--mtu", mtu);
    var a := ListFlag("--acl", acls);
    assert args[2..] == i + (m + a);
    ReadIfaceFlags(iface, ip, mtu, acls);
  }

  lemma ReadIfaceFlags(iface: string, ip: Option<string>, mtu: Option<int>, acls: Option<seq<string>>)
    requires NoComma(acls)
    ensures var rest := TextFlag("--ip", ip) + (NumberFlag("--mtu", mtu) + ListFlag("--acl", acls));
            ReadIface(iface, rest) == Some(Iface(iface, ip, mtu, acls.GetOr([])))
  {
    var m := NumberFlag("--mtu", mtu);
    var a := ListFlag("--acl", acls);
    assert "--mtu" != "--ip" && "--acl" != "--ip" && "--acl" != "--mtu";
    assert |a| > 0 ==> a[0] == "--acl";
    assert |m| > 0 ==> (m + a)[0] == "--mtu";
    assert |m| == 0 ==> m + a == a;
    TakeTextFlag("--ip", ip, m + a);
    TakeNumberFlag("--mtu", mtu, a);
    TakeListFlag("--acl", acls, []);
    assert a + [] == a;
  }

  /** The vectors tests/networkService.test.ts expects, and a VLAN of zero
      still produces the flag. */
  lemma RecordedCalls()
    ensures AttachArgs("100", "net", None, None) == ["attach", "100", "net"]
    ensures AttachArgs("101", "net", Some(["a", "b"]), Some(5)) == ["attach", "101", "net", "--tags", "a,b", "--vlan", "5"]
    ensures AttachArgs("101", "net", Some([]), Some(0)) == ["attach", "101", "net", "--vlan", "0"]
  {
    assert Text.Join(["a", "b"], ",") == "a,b" by {
      assert ["a", "b"][1..] == ["b"];
    }
    assert Text.IntToDecimal(5) == "5";
    assert Text.IntToDecimal(0) == "0";
  }
}

=== FILE: proxmox_client.dfy ===
/** The backend invoker: how `run(cmd, args, auth, options)` assembles the
    argument vector of the `proxmox` executable, which environment the child
    sees, and how the spawn result becomes an exit status. The process
    launch itself is the `Spawner` parameter. */
module ProxmoxClient {
  import opened Base

  type Argv = seq<string>

  /** The backend as the callers see it: the exit status of one call, by the
      call's full argument vector (credentials fixed for the request). */
  type Backend = Argv -> int

  /** One issued call and the status it returned. */
  datatype Invocation = Invocation(argv: Argv, status: int)

  /** `run(cmd, args, auth)` without options: argv `[cmd] ++ args`, its
      status returned unchanged. */
  function Call(backend: Backend, cmd: string, args: seq<string>): (r: Invocation)
    ensures |r.argv| == 1 + |args| && r.argv[0] == cmd && r.argv[1..] == args
    ensures r.status == backend(r.argv)
  {
    var argv := [cmd] + args;
    Invocation(argv, backend(argv))
  }

  datatype Auth = Auth(host: Option<string>, user: Option<string>, password: Option<string>)

  datatype RunOptions = RunOptions(ports: Option<seq<string>>, environment: Option<seq<(string, string)>>)

  const NoOptions := RunOptions(None, None)

  /** `-p <port>` for each port, in order. */
  function PortFlags(ports: seq<string>): (r: seq<string>)
    ensures |r| == 2 * |ports|
  {
    if |ports| == 0 then [] else ["-p", ports[0]] + PortFlags(ports[1..])
  }

  lemma {:induction false} PortFlagsLayout(ports: seq<string>)
    ensures forall i :: 0 <= i < |ports| ==>
              PortFlags(ports)[2 * i] == "-p" && PortFlags(ports)[2 * i + 1] == ports[i]
  {
    if |ports| > 0 {
      PortFlagsLayout(ports[1..]);
      var r := PortFlags(ports);
      forall i | 1 <= i < |ports|
        ensures r[2 * i] == "-p" && r[2 * i + 1] == ports[i]
      {
        assert r[2 * i] == PortFlags(ports[1..])[2 * (i - 1)];
        assert r[2 * i + 1] == PortFlags(ports[1..])[2 * (i - 1) + 1];
        assert ports[1..][i - 1] == ports[i];
      }
    }
  }

  /** `-e KEY=VALUE` for each environment entry, in order. */
  function EnvFlags(env: seq<(string, string)>): (r: seq<string>)
    ensures |r| == 2 * |env|
  {
    if |env| == 0 then [] else ["-e", env[0].0 + "=" + env[0].1] + EnvFlags(env[1..])
  }

  lemma {:induction false} EnvFlagsLayout(env: seq<(string, string)>)
    ensures forall i :: 0 <= i < |env| ==>
              EnvFlags(env)[2 * i] == "-e" && EnvFlags(env)[2 * i + 1] == env[i].0 + "=" + env[i].1
  {
    if |env| > 0 {
      EnvFlagsLayout(env[1..]);
      var r := EnvFlags(env);
      forall i | 1 <= i < |env|
        ensures r[2 * i] == "-e" && r[2 * i + 1] == env[i].0 + "=" + env[i].1
      {
        assert r[2 * i] == EnvFlags(env[1..])[2 * (i - 1)];
        assert r[2 * i + 1] == EnvFlags(env[1..])[2 * (i - 1) + 1];
        assert env[1..][i - 1] == env[i];
      }
    }
  }

  function PortsOf(options: RunOptions): seq<string> {
    options.ports.GetOr([])
  }

  function EnvironmentOf(options: RunOptions): seq<(string, string)> {
    options.environment.GetOr([])
  }

  /** The argument vector handed to the `proxmox` executable:
      `[cmd] ++ args`, then every port flag, then every environment flag. */
  function RunArgv(cmd: string, args: seq<string>, options: RunOptions): Argv {
    [cmd] + args + PortFlags(PortsOf(options)) + EnvFlags(EnvironmentOf(options))
  }

  /** The options only append: the vector starts with `[cmd] ++ args`, each
      port gives `-p <port>` in order, and each environment entry gives
      `-e KEY=VALUE` in order after all the ports. */
  lemma RunArgvLayout(cmd: string, args: seq<string>, options: RunOptions)
    ensures var argv := RunArgv(cmd, args, options);
            var ports := PortsOf(options);
            var env := EnvironmentOf(options);
            && |argv| == 1 + |args| + 2 * |ports| + 2 * |env|
            && argv[..1 + |args|] == [cmd] + args
            && (forall i :: 0 <= i < |ports| ==>
                  argv[1 + |args| + 2 * i] == "-p" && argv[2 + |args| + 2 * i] == ports[i])
            && (forall j :: 0 <= j < |env| ==>
                  && argv[1 + |args| + 2 * |ports| + 2 * j] == "-e"
                  && argv[2 + |args| + 2 * |ports| + 2 * j] == env[j].0 + "=" + env[j].1)
  {
    var ports := PortsOf(options);
    var env := EnvironmentOf(options);
    var argv := RunArgv(cmd, args, options);
    PortFlagsLayout(ports);
    EnvFlagsLayout(env);
    var p := PortFlags(ports);
    var e := EnvFlags(env);
    assert argv[..1 + |args|] == [cmd] + args;
    forall i | 0 <= i < |ports|
      ensures argv[1 + |args| + 2 * i] == "-p" && argv[2 + |args| + 2 * i] == ports[i]
    {
      assert argv[1 + |args| + 2 * i] == p[2 * i];
      assert argv[2 + |args| + 2 * i] == p[2 * i + 1];
    }
    forall j | 0 <= j < |env|
      ensures && argv[1 + |args| + 2 * |ports| + 2 * j] == "-e"
              && argv[2 + |args| + 2 * |ports| + 2 * j] == env[j].0 + "=" + env[j].1
    {
      assert argv[1 + |args| + 2 * |ports| + 2 * j] == e[2 * j];
      assert argv[2 + |args| + 2 * |ports| + 2 * j] == e[2 * j + 1];
    }
  }

  /** With no options the argument vector is exactly `[cmd] ++ args`. */
  lemma RunArgvWithoutOptions(cmd: string, args: seq<string>)
    ensures RunArgv(cmd, args, NoOptions) == [cmd] + args
  {
  }

  /** What `spawnSync` reports: a launch error and/or a numeric status
      (`null` status when the child was killed by a signal). */
  datatype SpawnResult = SpawnResult(error: Option<string>, status: Option<int>)

  type Spawner = (Argv, map<string, string>) -> SpawnResult

  /** Status normalisation: the reported status if there is one, otherwise 1
      after a launch error and 0 without one. */
  function ExitStatus(r: SpawnResult): (s: int)
    ensures s == 0 <==> r.status == Some(0) || (r.status.None? && r.error.None?)
    ensures r.status.Some? && r.status.value != 0 ==> s == r.status.value
    ensures r.error.Some? && r.status.None? ==> s == 1
  {
    if r.error.Some? then r.status.GetOr(1) else r.status.GetOr(0)
  }

  /** A child killed by a signal (no status, no launch error) reads as
      success, while any launch error without a status reads as 1. */
  lemma SignalledChildReadsAsSuccess(message: string)
    ensures ExitStatus(SpawnResult(None, None)) == 0
    ensures ExitStatus(SpawnResult(Some(message), None)) == 1
  {
  }

  const HostVar := "PROXMOX_HOST"
  const UserVar := "PROXMOX_USER"
  const PasswordVar := "PROXMOX_PASSWORD"

  function Optional(key: string, value: Option<string>): map<string, string> {
    if value.Some? then map[key := value.value] else map[]
  }

  /** The child's environment: the daemon's own, with the three credential
      variables replaced by the request's credentials. A credential the
      request leaves out is dropped rather than inherited, since the child
      receives no entry whose value is undefined. */
  function ChildEnv(processEnv: map<string, string>, auth: Auth): (env: map<string, string>)
    ensures forall k :: k != HostVar && k != UserVar && k != PasswordVar ==>
              (k in env <==> k in processEnv) && (k in env ==> env[k] == processEnv[k])
    ensures (HostVar in env <==> auth.host.Some?) && (auth.host.Some? ==> env[HostVar] == auth.host.value)
    ensures (UserVar in env <==> auth.user.Some?) && (auth.user.Some? ==> env[UserVar] == auth.user.value)
    ensures (PasswordVar in env <==> auth.password.Some?)
            && (auth.password.Some? ==> env[PasswordVar] == auth.password.value)
  {
    (processEnv - {HostVar, UserVar, PasswordVar})
      + Optional(HostVar, auth.host) + Optional(UserVar, auth.user) + Optional(PasswordVar, auth.password)
  }

  /** `ProxmoxClient.run`. */
  function Run(spawn: Spawner, processEnv: map<string, string>, auth: Auth,
               cmd: string, args: seq<string>, options: RunOptions): int
  {
    ExitStatus(spawn(RunArgv(cmd, args, options), ChildEnv(processEnv, auth)))
  }

  /** `ProxmoxClient.sdn`: `run` with the sub-command `sdn`. */
  function Sdn(spawn: Spawner, processEnv: map<string, string>, auth: Auth,
               args: seq<string>, options: RunOptions): (s: int)
    ensures s == Run(spawn, processEnv, auth, "sdn", args, options)
  {
    Run(spawn, processEnv, auth, "sdn", args, options)
  }

  /** The backend the services and the pipeline see, for fixed credentials. */
  function BackendOf(spawn: Spawner, processEnv: map<string, string>, auth: Auth): Backend {
    argv => ExitStatus(spawn(argv, ChildEnv(processEnv, auth)))
  }

  /** A call without options, as the services and the pipeline make it, is
      `run` with no options. */
  lemma CallIsRun(spawn: Spawner, processEnv: map<string, string>, auth: Auth, cmd: string, args: seq<string>)
    ensures Call(BackendOf(spawn, processEnv, auth), cmd, args).status
         == Run(spawn, processEnv, auth, cmd, args, NoOptions)
    ensures Call(BackendOf(spawn, processEnv, auth), cmd, args).argv == RunArgv(cmd, args, NoOptions)
  {
    RunArgvWithoutOptions(cmd, args);
  }
}

=== FILE: py_runtime.dfy ===
/** The slice of Python semantics the Python sources lean on: `str`/`repr`,
    `int()`, truthiness, `dict.get` and the exceptions they raise. */
module PyRuntime {
  import opened Base
  import opened Document
  import Text
  import Assoc

  datatype PyError =
    | AttributeError(message: string)
    | ValueError(message: string)
    | TypeError(message: string)

  function TypeName(v: Value): string {
    match v
    case Null => "NoneType"
    case Bool(_) => "bool"
    case Num(_) => "int"
    case Str(_) => "str"
    case Arr(_) => "list"
    case Obj(_) => "dict"
  }

  /** What calling a missing method (`x.get`, `x.items`) raises. */
  function NoAttribute(v: Value, attr: string): PyError {
    AttributeError("'" + TypeName(v) + "' object has no attribute '" + attr + "'")
  }

  /** `bool(v)`: `None`, `False`, zero and empty containers are false. */
  predicate Truthy(v: Value) {
    match v
    case Null => false
    case Bool(b) => b
    case Num(n) => n != 0
    case Str(s) => s != ""
    case Arr(items) => items != []
    case Obj(fields) => fields != []
  }

  /** `dict.get(key, default)`. */
  function DictGet(fields: seq<(string, Value)>, key: string, default: Value): Value {
    Assoc.Get(fields, key).GetOr(default)
  }

  function HexDigit(d: nat): char
    requires d < 16
  {
    "0123456789abcdef"[d]
  }

  /** How `repr` writes one character of a string quoted with `q`.
      Characters above U+00FF are written as themselves. */
  function EscapeChar(c: char, q: char): string {
    if c == q || c == '\\' then ['\\', c]
    else if c == '\t' then "\\t"
    else if c == '\n' then "\\n"
    else if c == '\r' then "\\r"
    else if c < ' ' || ('\U{7F}' <= c <= '\U{A0}') || c == '\U{AD}' then
      "\\x" + [HexDigit(c as int / 16), HexDigit(c as int % 16)]
    else [c]
  }

  function EscapeAll(s: string, q: char): string {
    if |s| == 0 then "" else EscapeChar(s[0], q) + EscapeAll(s[1..], q)
  }

  /** `repr(s)`: single quotes unless the text holds a single quote and no double quote. */
  function ReprString(s: string): string {
    var q := if '\'' in s && '"' !in s then '"' else '\'';
    [q] + EscapeAll(s, q) + [q]
  }

  function Repr(v: Value): string
    decreases v
  {
    match v
    case Null => "None"
    case Bool(b) => if b then "True" else "False"
    case Num(n) => Text.IntToDecimal(n)
    case Str(s) => ReprString(s)
    case Arr(items) =>
      "[" + Text.Join(seq(|items|, i requires 0 <= i < |items| => Repr(items[i])), ", ") + "]"
    case Obj(fields) =>
      "{" + Text.Join(seq(|fields|, i requires 0 <= i < |fields| =>
                            ReprString(fields[i].0) + ": " + Repr(fields[i].1)), ", ") + "}"
  }

  /** `str(v)` (also what an f-string substitutes). */
  function Str(v: Value): string {
    if v.Str? then v.s else Repr(v)
  }

  /** The characters `str.strip()` and `int()` treat as white space. */
  predicate IsSpace(c: char) {
    || ('\t' <= c <= '\r') || ('\U{1C}' <= c <= ' ') || c == '\U{85}' || c == '\U{A0}'
    || c == '\U{1680}' || ('\U{2000}' <= c <= '\U{200A}') || c == '\U{2028}' || c == '\U{2029}'
    || c == '\U{202F}' || c == '\U{205F}' || c == '\U{3000}'
  }

  function StripStart(s: string): (t: string)
    ensures |t| <= |s|
  {
    if |s| > 0 && IsSpace(s[0]) then StripStart(s[1..]) else s
  }

  function StripEnd(s: string): (t: string)
    ensures |t| <= |s|
  {
    if |s| > 0 && IsSpace(s[|s| - 1]) then StripEnd(s[..|s| - 1]) else s
  }

  /** Digits with single underscores between them, as `int()` accepts. */
  predicate DigitGroups(s: string) {
    && |s| > 0 && Text.IsDigit(s[0]) && Text.IsDigit(s[|s| - 1])
    && (forall i :: 0 <= i < |s| ==> Text.IsDigit(s[i]) || s[i] == '_')
    && (forall i :: 0 <= i < |s| - 1 ==> s[i] == '_' ==> s[i + 1] != '_')
  }

  function DropUnderscores(s: string): (d: string)
    requires forall i :: 0 <= i < |s| ==> Text.IsDigit(s[i]) || s[i] == '_'
    ensures Text.AllDigits(d)
  {
    if |s| == 0 then ""
    else if s[0] == '_' then DropUnderscores(s[1..])
    else [s[0]] + DropUnderscores(s[1..])
  }

  /** `int(s)` for a string: surrounding space, one sign, then digit groups. */
  function IntFromText(s: string): Option<int> {
    var t := StripEnd(StripStart(s));
    var negative := |t| > 0 && t[0] == '-';
    var body := if |t| > 0 && (t[0] == '-' || t[0] == '+') then t[1..] else t;
    if !DigitGroups(body) then None
    else
      var magnitude: int := Text.DigitsValue(DropUnderscores(body));
      Some(if negative then -magnitude else magnitude)
  }

  /** `int(v)`: a bool is 0 or 1, an integer itself, text is read by
      `IntFromText` or raises ValueError, and `None`, a list or a dict
      raises TypeError. */
  function Int(v: Value): (r: Result<int, PyError>)
    ensures v.Bool? ==> r == Success(if v.b then 1 else 0)
    ensures v.Num? ==> r == Success(v.n)
    ensures v.Str? ==> (r.Success? <==> IntFromText(v.s).Some?)
    ensures v.Str? && r.Success? ==> r.value == IntFromText(v.s).value
    ensures v.Str? && r.Failure? ==> r.error.ValueError?
    ensures v.Null? || v.Arr? || v.Obj? ==> r.Failure? && r.error.TypeError?
  {
    match v
    case Bool(b) => Success(if b then 1 else 0)
    case Num(n) => Success(n)
    case Str(s) =>
      (match IntFromText(s)
       case Some(n) => Success(n)
       case None => Failure(ValueError("invalid literal for int() with base 10: " + ReprString(s))))
    case _ =>
      Failure(TypeError("int() argument must be a string, a bytes-like object or a real number, not '"
                        + TypeName(v) + "'"))
  }

  /** `int("abc")` raises. */
  lemma IntFromWord()
    ensures IntFromText("abc") == None
  {
    assert !IsSpace('a') && !IsSpace('c');
    assert StripStart("abc") == "abc";
    assert StripEnd("abc") == "abc";
    assert !DigitGroups("abc");
  }

  lemma DropUnderscoresOfDigits(s: string)
    requires Text.AllDigits(s)
    ensures DropUnderscores(s) == s
  {
    if |s| > 0 {
      DropUnderscoresOfDigits(s[1..]);
    }
  }

  /** `int(str(n))` gives `n` back. */
  lemma IntFromTextOfDecimal(n: int)
    ensures IntFromText(Text.IntToDecimal(n)) == Some(n)
  {
    var s := Text.IntToDecimal(n);
    assert StripStart(s) == s;
    assert StripEnd(s) == s;
    var body := if n < 0 then s[1..] else s;
    assert body == Text.NatToDecimal(if n < 0 then -n else n);
    DropUnderscoresOfDigits(body);
    Text.DigitsValueOfDecimal(if n < 0 then -n else n);
  }
}

=== FILE: sdn.dfy ===
/** The older stand-alone `attachToSDN`, which builds its argument vector by
    pushing onto `['attach', vmid, network]` and calls the backend directly. */
module LegacySdn {
  import opened Base
  import Text
  import ProxmoxClient
  import NetworkService

  /** The pushes, in the order the function makes them. */
  method AttachToSdn(backend: ProxmoxClient.Backend, vmid: string, network: string,
                     tags: Option<seq<string>>, vlan: Option<int>) returns (r: ProxmoxClient.Invocation)
    ensures |r.argv| >= 4 && r.argv[..4] == ["sdn", "attach", vmid, network]
    ensures r.status == backend(r.argv)
    ensures r == NetworkService.AttachToSdn(backend, vmid, network, tags, vlan)
  {
    var prefix := ["attach", vmid, network];
    var args := prefix;
    if tags.Some? && |tags.value| > 0 {
      args := args + ["--tags", Text.Join(tags.value, ",")];
    }
    assert args == prefix + NetworkService.ListFlag("--tags", tags);
    if vlan.Some? {
      args := args + ["--vlan", Text.IntToDecimal(vlan.value)];
    }
    assert args == NetworkService.AttachArgs(vmid, network, tags, vlan);
    assert args[..3] == prefix;
    r := ProxmoxClient.Call(backend, "sdn", args);
    assert r.argv[..4] == ["sdn"] + args[..3];
  }
}

=== FILE: stack.dfy ===
/** The stack translator: `load_stack` turns the `services` mapping of a
    decoded stack file into services, and `Service.to_lxc_params` turns one
    service's configuration into the container parameters. */
module Stack {
  import opened Base
  import opened Document
  import Text
  import Assoc
  import PyRuntime

  datatype Service = Service(name: string, config: Value)

  /** `{key: config[key]}` when the configuration has the key, else nothing. */
  function CopyIfPresent(fields: seq<(string, Value)>, key: string): (r: seq<(string, Value)>)
    ensures Assoc.Keys(r) == if key in Assoc.Keys(fields) then [key] else []
    ensures key in Assoc.Keys(fields) ==> r == [(key, Assoc.Get(fields, key).value)]
  {
    if key in Assoc.Keys(fields) then
      var r := [(key, Assoc.Get(fields, key).value)];
      assert r[1..] == [];
      r
    else []
  }

  /** The default interface line: bridge (default `vmbr0`) and, when the
      address is truthy, `,ip=<ip>`; both through `str`. */
  function DefaultNet(fields: seq<(string, Value)>): string {
    var bridge := PyRuntime.DictGet(fields, "bridge", Str("vmbr0"));
    var ip := PyRuntime.DictGet(fields, "ip", Null);
    "name=eth0,bridge=" + PyRuntime.Str(bridge) + (if PyRuntime.Truthy(ip) then ",ip=" + PyRuntime.Str(ip) else "")
  }

  function Net0(fields: seq<(string, Value)>): Value {
    if "net0" in Assoc.Keys(fields) then Assoc.Get(fields, "net0").value else Str(DefaultNet(fields))
  }

  const FixedKeys := ["vmid", "hostname", "ostemplate", "memory", "cores", "net0"]
  const OptionalKeys := ["rootfs", "password", "features"]

  /** The six parameters every service gets. */
  function FixedParams(name: string, c: seq<(string, Value)>): seq<(string, Value)> {
    [ ("vmid", PyRuntime.DictGet(c, "vmid", Null)),
      ("hostname", Str(name)),
      ("ostemplate", PyRuntime.DictGet(c, "image", Null)),
      ("memory", PyRuntime.DictGet(c, "memory", Num(512))),
      ("cores", PyRuntime.DictGet(c, "cores", Num(1))),
      ("net0", Net0(c)) ]
  }

  /** `to_lxc_params`; a configuration that is not a dict raises on `.get`. */
  function ToLxcParams(s: Service): (r: Result<seq<(string, Value)>, PyRuntime.PyError>)
    ensures r.Success? <==> s.config.Obj?
    ensures !s.config.Obj? ==> r == Failure(PyRuntime.NoAttribute(s.config, "get"))
  {
    if !s.config.Obj? then Failure(PyRuntime.NoAttribute(s.config, "get"))
    else
      var c := s.config.fields;
      Success(FixedParams(s.name, c) + OptionalParams(c))
  }

  /** `rootfs`, `password` and `features`, each copied when present. */
  function OptionalParams(c: seq<(string, Value)>): seq<(string, Value)> {
    CopyIfPresent(c, "rootfs") + CopyIfPresent(c, "password") + CopyIfPresent(c, "features")
  }

  /** The keys present in the configuration among `keys`, in order. */
  function PresentKeys(fields: seq<(string, Value)>, keys: seq<string>): seq<string> {
    if |keys| == 0 then [] else (if keys[0] in Assoc.Keys(fields) then [keys[0]] else []) + PresentKeys(fields, keys[1..])
  }

  /** The parameters are the six fixed keys, then those of `rootfs`,
      `password` and `features` the configuration has, in that order;
      nothing else is added. */
  lemma ParamKeys(s: Service)
    requires s.config.Obj?
    ensures Assoc.Keys(ToLxcParams(s).value) == FixedKeys + PresentKeys(s.config.fields, OptionalKeys)
  {
    var c := s.config.fields;
    Assoc.KeysAppend(FixedParams(s.name, c), OptionalParams(c));
    FixedParamKeys(s.name, c);
    OptionalParamKeys(c);
  }

  lemma FixedParamKeys(name: string, c: seq<(string, Value)>)
    ensures Assoc.Keys(FixedParams(name, c)) == FixedKeys
  {
    Assoc.KeysAt(FixedParams(name, c));
  }

  lemma OptionalParamKeys(c: seq<(string, Value)>)
    ensures Assoc.Keys(OptionalParams(c)) == PresentKeys(c, OptionalKeys)
  {
    var r := CopyIfPresent(c, "rootfs");
    var p := CopyIfPresent(c, "password");
    var f := CopyIfPresent(c, "features");
    Assoc.KeysAppend(r, p);
    Assoc.KeysAppend(r + p, f);
    OptionalKeysPresent(c);
  }

  lemma OptionalKeysPresent(c: seq<(string, Value)>)
    ensures PresentKeys(c, OptionalKeys)
         == Assoc.Keys(CopyIfPresent(c, "rootfs")) + Assoc.Keys(CopyIfPresent(c, "password"))
            + Assoc.Keys(CopyIfPresent(c, "features"))
  {
    assert PresentKeys(c, ["features"]) == Assoc.Keys(CopyIfPresent(c, "features")) by {
      assert ["features"][1..] == [];
    }
    assert OptionalKeys[1..] == ["password", "features"];
    assert ["password", "features"][1..] == ["features"];
  }

  lemma {:induction false} GetInPrefix<V>(a: seq<(string, V)>, b: seq<(string, V)>, k: string)
    requires k in Assoc.Keys(a)
    ensures Assoc.Get(a + b, k) == Assoc.Get(a, k)
  {
    assert Assoc.Keys(a) == [a[0].0] + Assoc.Keys(a[1..]);
    if a[0].0 != k {
      assert (a + b)[1..] == a[1..] + b;
      GetInPrefix(a[1..], b, k);
    }
  }

  /** What each parameter holds: the name as hostname, `vmid` and `image`
      copied (`None` when absent), memory 512 and cores 1 by default, an
      explicit `net0` verbatim or else the default interface line. */
  lemma ParamValues(s: Service)
    requires s.config.Obj?
    ensures var c := s.config.fields;
            var params := ToLxcParams(s).value;
            && Assoc.Get(params, "vmid") == Some(PyRuntime.DictGet(c, "vmid", Null))
            && Assoc.Get(params, "hostname") == Some(Str(s.name))
            && Assoc.Get(params, "ostemplate") == Some(PyRuntime.DictGet(c, "image", Null))
            && Assoc.Get(params, "memory") == Some(if "memory" in Assoc.Keys(c) then Assoc.Get(c, "memory").value else Num(512))
            && Assoc.Get(params, "cores") == Some(if "cores" in Assoc.Keys(c) then Assoc.Get(c, "cores").value else Num(1))
            && Assoc.Get(params, "net0") == Some(if "net0" in Assoc.Keys(c) then Assoc.Get(c, "net0").value else Str(DefaultNet(c)))
  {
    var c := s.config.fields;
    var fixed := FixedParams(s.name, c);
    var rest := OptionalParams(c);
    assert ToLxcParams(s).value == fixed + rest;
    Assoc.KeysAt(fixed);
    assert Assoc.Keys(fixed) == FixedKeys;
    assert Assoc.NoDup(FixedKeys);
    forall i | 0 <= i < 6 ensures Assoc.Get(fixed + rest, fixed[i].0) == Some(fixed[i].1) {
      Assoc.GetAt(fixed, i);
      GetInPrefix(fixed, rest, fixed[i].0);
    }
    assert fixed[0].0 == "vmid" && fixed[1].0 == "hostname" && fixed[2].0 == "ostemplate";
    assert fixed[3].0 == "memory" && fixed[4].0 == "cores" && fixed[5].0 == "net0";
  }

  /** An explicit `bridge: null` is not replaced by the default: `str(None)`
      lands in the line. */
  lemma NullBridgeIsWrittenOut()
    ensures DefaultNet([("bridge", Null)]) == "name=eth0,bridge=None"
  {
    assert [("bridge", Null)][1..] == [];
  }

  /** The stack of `test_load_stack` in tests/test_stack.py: bridge and
      address both land in the line. */
  lemma RecordedNet()
    ensures DefaultNet([("bridge", Str("vmbr1")), ("ip", Str("10.0.0.2/24"))]) == "name=eth0,bridge=vmbr1,ip=10.0.0.2/24"
  {
    var c := [("bridge", Str("vmbr1")), ("ip", Str("10.0.0.2/24"))];
    assert c[1..] == [("ip", Str("10.0.0.2/24"))];
    assert c[1..][1..] == [];
  }

  /** `load_stack` over the decoded file. */
  function LoadStack(data: Value): (r: Result<seq<Service>, PyRuntime.PyError>)
    ensures r.Success? ==> data.Obj? || !PyRuntime.Truthy(data)
  {
    var doc := if PyRuntime.Truthy(data) then data else Obj([]);
    if !doc.Obj? then Failure(PyRuntime.NoAttribute(doc, "get"))
    else
      var services := PyRuntime.DictGet(doc.fields, "services", Obj([]));
      if !services.Obj? then Failure(PyRuntime.NoAttribute(services, "items"))
      else Success(seq(|services.fields|, i requires 0 <= i < |services.fields| => Service(services.fields[i].0, services.fields[i].1)))
  }

  /** One service per `services` entry, in order, whatever else the
      document holds; none for a document without `services` or an empty
      file; and `.items()` raises on a `services` value that is not a
      mapping. */
  lemma LoadStackServices(fields: seq<(string, Value)>)
    ensures var services := PyRuntime.DictGet(fields, "services", Obj([]));
            var r := LoadStack(Obj(fields));
            && (services.Obj? ==>
                  && r.Success? && |r.value| == |services.fields|
                  && forall i :: 0 <= i < |services.fields| ==>
                       r.value[i] == Service(services.fields[i].0, services.fields[i].1))
            && (!services.Obj? ==> r == Failure(PyRuntime.NoAttribute(services, "items")))
    ensures "services" !in Assoc.Keys(fields) ==> LoadStack(Obj(fields)) == Success([])
    ensures LoadStack(Null) == Success([])
  {
    if !PyRuntime.Truthy(Obj(fields)) {
      assert fields == [];
    }
    assert LoadStack(Null).value == [];
  }
}

=== FILE: storage_service.dfy ===
/** The CephFS storage service: the allow-list filter that turns an options
    record into `--key value` flags, and the argument vectors of
    `createSubvolume` and `mount`, each issued as one `cephfs` call. */
module StorageService {
  import opened Base
  import ProxmoxClient

  /** An options record, in its enumeration order. */
  type Options = seq<(string, string)>

  const SubvolumeOptions: set<string> := {"size", "mode", "uid", "gid", "quota"}
  const MountOptions: set<string> := {"uid", "gid", "rw", "ro", "quota"}

  /** The entries whose key is allowed, in their original order. */
  function Kept(entries: Options, allowed: set<string>): (kept: Options)
    ensures |kept| <= |entries|
    ensures forall e :: e in kept <==> e in entries && e.0 in allowed
  {
    if |entries| == 0 then []
    else (if entries[0].0 in allowed then [entries[0]] else []) + Kept(entries[1..], allowed)
  }

  /** The option loop: each allowed entry pushes `--key, value`; any other
      entry is only warned about. */
  function Flags(entries: Options, allowed: set<string>): seq<string> {
    if |entries| == 0 then []
    else
      (if entries[0].0 in allowed then ["--" + entries[0].0, entries[0].1] else [])
        + Flags(entries[1..], allowed)
  }

  /** `buildOptionArgs(options, allowed)`; absent options give no flags. */
  function OptionArgs(options: Option<Options>, allowed: set<string>): (args: seq<string>)
    ensures options.None? ==> args == []
    ensures options.Some? ==> args == Flags(options.value, allowed)
  {
    if options.None? then [] else Flags(options.value, allowed)
  }

  /** The flags of a concatenation are the concatenation of the flags. */
  lemma {:induction false} FlagsAppend(a: Options, b: Options, allowed: set<string>)
    ensures Flags(a + b, allowed) == Flags(a, allowed) + Flags(b, allowed)
  {
    if |a| == 0 {
      assert a + b == b;
    } else {
      assert (a + b)[0] == a[0];
      assert (a + b)[1..] == a[1..] + b;
      FlagsAppend(a[1..], b, allowed);
    }
  }

  /** The flags are exactly one `--key, value` pair per kept entry, in order. */
  lemma {:induction false} FlagsLayout(entries: Options, allowed: set<string>)
    ensures var kept := Kept(entries, allowed);
            var args := Flags(entries, allowed);
            && |args| == 2 * |kept|
            && (forall i :: 0 <= i < |kept| ==> args[2 * i] == "--" + kept[i].0 && args[2 * i + 1] == kept[i].1)
  {
    if |entries| > 0 {
      FlagsLayout(entries[1..], allowed);
      var head := if entries[0].0 in allowed then [entries[0]] else [];
      var rest := Kept(entries[1..], allowed);
      var kept := Kept(entries, allowed);
      var args := Flags(entries, allowed);
      var restArgs := Flags(entries[1..], allowed);
      assert kept == head + rest;
      forall i | 0 <= i < |kept|
        ensures args[2 * i] == "--" + kept[i].0 && args[2 * i + 1] == kept[i].1
      {
        if i >= |head| {
          assert kept[i] == rest[i - |head|];
          assert args[2 * i] == restArgs[2 * (i - |head|)];
          assert args[2 * i + 1] == restArgs[2 * (i - |head|) + 1];
        }
      }
    }
  }

  /** An entry whose key is not allowed contributes nothing. */
  lemma DisallowedEntryIgnored(a: Options, k: string, v: string, b: Options, allowed: set<string>)
    requires k !in allowed
    ensures Flags(a + [(k, v)] + b, allowed) == Flags(a + b, allowed)
  {
    FlagsAppend(a + [(k, v)], b, allowed);
    FlagsAppend(a, [(k, v)], allowed);
    FlagsAppend(a, b, allowed);
  }

  /** Every flag names an allowed key that the options carry with that value. */
  lemma FlagsComeFromAllowedEntries(entries: Options, allowed: set<string>, i: nat)
    requires i < |Flags(entries, allowed)| / 2
    ensures exists e :: e in entries && e.0 in allowed
              && Flags(entries, allowed)[2 * i] == "--" + e.0
              && Flags(entries, allowed)[2 * i + 1] == e.1
  {
    FlagsLayout(entries, allowed);
    var kept := Kept(entries, allowed);
    assert kept[i] in kept;
  }

  /** A single entry gives its flag pair exactly when its key is allowed. */
  lemma FlagsOfOne(k: string, v: string, allowed: set<string>)
    ensures Flags([(k, v)], allowed) == if k in allowed then ["--" + k, v] else []
  {
    assert [(k, v)][1..] == [];
  }

  /** `mode` is a subvolume option but not a mount option; `rw` and `ro`
      are mount options but not subvolume options. */
  lemma ModeAndAccessOptions(m: string)
    ensures Flags([("mode", m)], SubvolumeOptions) == ["--mode", m]
    ensures Flags([("mode", m)], MountOptions) == []
    ensures Flags([("rw", m)], SubvolumeOptions) == [] && Flags([("rw", m)], MountOptions) == ["--rw", m]
    ensures Flags([("ro", m)], SubvolumeOptions) == [] && Flags([("ro", m)], MountOptions) == ["--ro", m]
  {
    assert "--" + "mode" == "--mode" && "--" + "rw" == "--rw" && "--" + "ro" == "--ro";
    assert "mode" in SubvolumeOptions && "mode" !in MountOptions;
    assert "rw" !in SubvolumeOptions && "rw" in MountOptions;
    assert "ro" !in SubvolumeOptions && "ro" in MountOptions;
    FlagsOfOne("mode", m, SubvolumeOptions);
    FlagsOfOne("mode", m, MountOptions);
    FlagsOfOne("rw", m, SubvolumeOptions);
    FlagsOfOne("rw", m, MountOptions);
    FlagsOfOne("ro", m, SubvolumeOptions);
    FlagsOfOne("ro", m, MountOptions);
  }

  /** `['subvolume', 'create', subvolume]` followed by the subvolume flags. */
  function CreateSubvolumeArgs(subvolume: string, options: Option<Options>): (args: seq<string>)
    ensures |args| >= 3 && args[..3] == ["subvolume", "create", subvolume]
    ensures args[3..] == OptionArgs(options, SubvolumeOptions)
  {
    ["subvolume", "create", subvolume] + OptionArgs(options, SubvolumeOptions)
  }

  /** `['--mode', mode]` when the mode is a non-empty string. */
  function ModeFlags(mode: Option<string>): seq<string> {
    if mode.Some? && mode.value != "" then ["--mode", mode.value] else []
  }

  /** `['mount', vmid, target, subvolume]`, the mode flag, then the mount flags. */
  function MountArgs(vmid: string, target: string, subvolume: string,
                     mode: Option<string>, options: Option<Options>): (args: seq<string>)
    ensures |args| >= 4 && args[..4] == ["mount", vmid, target, subvolume]
    ensures mode.Some? && mode.value != "" ==> |args| >= 6 && args[4..6] == ["--mode", mode.value]
    ensures var m := |ModeFlags(mode)|;
            && (m == 0 || m == 2)
            && args[4 + m..] == OptionArgs(options, MountOptions)
  {
    ["mount", vmid, target, subvolume] + ModeFlags(mode) + OptionArgs(options, MountOptions)
  }

  /** `createSubvolume`: one `cephfs` call, whose status is the result. */
  function CreateSubvolume(backend: ProxmoxClient.Backend, subvolume: string,
                           options: Option<Options>): (r: ProxmoxClient.Invocation)
    ensures r.argv == ["cephfs"] + CreateSubvolumeArgs(subvolume, options)
    ensures r.status == backend(r.argv)
  {
    ProxmoxClient.Call(backend, "cephfs", CreateSubvolumeArgs(subvolume, options))
  }

  /** `mount`: one `cephfs` call, whose status is the result. */
  function Mount(backend: ProxmoxClient.Backend, vmid: string, target: string, subvolume: string,
                 mode: Option<string>, options: Option<Options>): (r: ProxmoxClient.Invocation)
    ensures r.argv == ["cephfs"] + MountArgs(vmid, target, subvolume, mode, options)
    ensures r.status == backend(r.argv)
  {
    ProxmoxClient.Call(backend, "cephfs", MountArgs(vmid, target, subvolume, mode, options))
  }

  /** The vectors the first two cases of tests/storageService.test.ts
      expect: an unsupported option is dropped. */
  lemma RecordedCalls()
    ensures CreateSubvolumeArgs("subvol", Some([("size", "1G"), ("invalid", "x")]))
         == ["subvolume", "create", "subvol", "--size", "1G"]
    ensures MountArgs("101", "/data", "subvol", Some("rw"), Some([("uid", "1000"), ("bad", "x")]))
         == ["mount", "101", "/data", "subvol", "--mode", "rw", "--uid", "1000"]
  {
    RecordedSubvolumeFlags();
    RecordedMountFlags();
  }

  lemma RecordedSubvolumeFlags()
    ensures Flags([("size", "1G"), ("invalid", "x")], SubvolumeOptions) == ["--size", "1G"]
  {
    var a, b := [("size", "1G")], [("invalid", "x")];
    assert a + b == [("size", "1G"), ("invalid", "x")];
    FlagsAppend(a, b, SubvolumeOptions);
    FlagsOfOne("size", "1G", SubvolumeOptions);
    FlagsOfOne("invalid", "x", SubvolumeOptions);
    assert "--" + "size" == "--size";
  }

  lemma RecordedMountFlags()
    ensures Flags([("uid", "1000"), ("bad", "x")], MountOptions) == ["--uid", "1000"]
  {
    var a, b := [("uid", "1000")], [("bad", "x")];
    assert a + b == [("uid", "1000"), ("bad", "x")];
    FlagsAppend(a, b, MountOptions);
    FlagsOfOne("uid", "1000", MountOptions);
    FlagsOfOne("bad", "x", MountOptions);
    assert "--" + "uid" == "--uid";
  }
}

=== FILE: text.dfy ===
/** String helpers shared by both runtimes: decimal rendering of integers
    (JavaScript `String(n)` and Python `str(n)` agree on integers), digit
    strings and their value, first-occurrence search, join and split. */
module Text {

  predicate IsDigit(c: char) {
    '0' <= c <= '9'
  }

  predicate AllDigits(s: string) {
    forall i :: 0 <= i < |s| ==> IsDigit(s[i])
  }

  function DigitChar(d: nat): (c: char)
    requires d < 10
    ensures IsDigit(c)
  {
    "0123456789"[d]
  }

  function DigitValue(c: char): (d: nat)
    requires IsDigit(c)
    ensures d < 10
  {
    c as int - '0' as int
  }

  /** Decimal digits of `n` without leading zeros. */
  function NatToDecimal(n: nat): (s: string)
    ensures |s| > 0 && AllDigits(s)
    ensures s[0] == '0' ==> n == 0
  {
    if n < 10 then [DigitChar(n)] else NatToDecimal(n / 10) + [DigitChar(n % 10)]
  }

  /** The decimal text of an integer, with a leading `-` when negative. */
  function IntToDecimal(n: int): (s: string)
    ensures |s| > 0 && IsDigit(s[|s| - 1])
    ensures s[0] == '-' <==> n < 0
    ensures s[0] != '-' ==> IsDigit(s[0])
  {
    if n < 0 then "-" + NatToDecimal(-n) else NatToDecimal(n)
  }

  /** The value of a string of decimal digits, most significant first. */
  function DigitsValue(s: string): nat
    requires AllDigits(s)
  {
    if |s| == 0 then 0 else DigitsValue(s[..|s| - 1]) * 10 + DigitValue(s[|s| - 1])
  }

  /** A negative number is written as a minus sign and its magnitude. */
  lemma NegativeDecimal(n: int)
    requires n < 0
    ensures var s := IntToDecimal(n);
            |s| > 1 && s[0] == '-' && s[1..] == NatToDecimal(-n) && AllDigits(s[1..])
  {
    var s := IntToDecimal(n);
    assert s[1..] == NatToDecimal(-n);
  }

  lemma {:induction false} DigitsValueOfDecimal(n: nat)
    ensures DigitsValue(NatToDecimal(n)) == n
  {
    if n >= 10 {
      var s := NatToDecimal(n / 10) + [DigitChar(n % 10)];
      assert s[..|s| - 1] == NatToDecimal(n / 10);
      DigitsValueOfDecimal(n / 10);
    }
  }

  /** The position of the first `c` in `s`, or -1 (JavaScript `indexOf`). */
  function IndexOf(s: string, c: char): (r: int)
    ensures -1 <= r < |s|
    ensures r == -1 <==> c !in s
    ensures r >= 0 ==> s[r] == c && c !in s[..r]
  {
    if |s| == 0 then -1
    else if s[0] == c then 0
    else
      var r := IndexOf(s[1..], c);
      if r == -1 then -1
      else
        assert s[..r + 1] == [s[0]] + s[1..][..r];
        r + 1
  }

  lemma IndexOfAfterPrefix(a: string, c: char, b: string)
    requires c !in a
    ensures IndexOf(a + [c] + b, c) == |a|
  {
    var s := a + [c] + b;
    assert s[..|a|] == a;
    assert s[|a|] == c;
  }

  /** JavaScript `Array.prototype.join` over strings. */
  function Join(xs: seq<string>, sep: string): string {
    if |xs| == 0 then ""
    else if |xs| == 1 then xs[0]
    else xs[0] + sep + Join(xs[1..], sep)
  }

  /** Splitting at every occurrence of `c`; always yields at least one part. */
  function Split(s: string, c: char): (parts: seq<string>)
    ensures |parts| > 0
    decreases |s|
  {
    var i := IndexOf(s, c);
    if i < 0 then [s] else [s[..i]] + Split(s[i + 1..], c)
  }

  /** Joining with a separator that occurs in no part can be undone by splitting. */
  lemma {:induction false} SplitJoin(xs: seq<string>, c: char)
    requires |xs| > 0
    requires forall i :: 0 <= i < |xs| ==> c !in xs[i]
    ensures Split(Join(xs, [c]), c) == xs
  {
    if |xs| > 1 {
      var rest := Join(xs[1..], [c]);
      assert Join(xs, [c]) == xs[0] + [c] + rest;
      IndexOfAfterPrefix(xs[0], c, rest);
      var s := xs[0] + [c] + rest;
      assert s[..|xs[0]|] == xs[0];
      assert s[|xs[0]| + 1..] == rest;
      SplitJoin(xs[1..], c);
      assert [xs[0]] + xs[1..] == xs;
    }
  }
}
